=== FILE: README.md ===
# moneyplant ledger core in Dafny

This project models the rules of the moneyplant personal-finance backend (a Django
REST service) that decide what its ledger endpoints answer and what they write.

- **Reporting.** Records and transfers are merged, sorted, filtered and grouped by
  day. The model also covers the trend series (by year, month or week), the
  category breakdown and the monthly income/expense sums.
- **Net worth.** Assets are summed per book, split into assets and liabilities.
- **Scheduled records.** The model covers the periodic sweep, the processing of
  one schedule, the periodic-task table and the pause/resume/execute endpoints.
- **Ownership.** Books are listed, created, read, updated and deleted by their
  owner, and records carry an object permission.
- **Accounts.** The model covers the avatar data-URL codec (section 3 of RFC 2397,
  with base64 from section 4 of RFC 4648) and the account serializer's create and
  partial update. It also covers the 30-minute expiry of email tokens and the
  account-linking tables of the Apple, Google and Facebook sign-ins.

Everything is a pure function over immutable values:

- amounts are integer cents (the columns are DECIMAL(12, 2));
- timestamps are a calendar date plus the second of the day, in one time zone;
- database tables are sequences in primary-key order, or maps keyed by primary key;
- the Celery queue is a sequence of dispatched ids, and the beat table is a map
  from task name to task.

Network answers are inputs: the Apple key fetch and JWT check, the Google token
check, the Facebook Graph call and the picture downloads. So are the clock, the
random hex of a generated account id, and the Django base token check.

The schedule's own methods `is_due`, `update_next_occurrence`, `pause` and
`resume` are called but their bodies are not part of this model. They enter as
function parameters. The `ScheduledRecord` datatype takes its field domains
from record/migrations/0011_scheduledrecord.py and
record/migrations/0012_scheduledrecord_num_of_days_and_more.py:

- four frequencies;
- three statuses;
- `num_of_days` in 1..365;
- week days 0..6, with Monday as 0.

Modules follow the source layout:

- `Common`, `Calendar`, `Ledger`: shared values, the Gregorian calendar, the rows.
- `Grouping`, `Sorting`: `group_records_by_date` and Python's stable sort.
- `RecordViews`, `Filters`, `CombinedView`: record/views.py, record/filters.py,
  record/views/combined.py.
- `Trend`, `CategoryReport`, `Monthly`: the three report views.
- `AssetViews`, `BookViews`, `Permissions`: asset/views.py, book/views.py,
  record/permissions.py.
- `Schedules`, `ScheduledViews`: record/tasks.py, record/views/scheduled.py.
- `Base64`, `AvatarField`, `Accounts`, `AccountSerializer`, `EmailToken`: the
  account side.
- `AppleAuth`, `SocialSignIn`, `GoogleAuth`, `FacebookAuth`: the sign-in views.

Two places differ from the code's evident intent; see "## Findings". The model
records each of them as written, and the rest of the model uses the corrected
definition.

## Model

| member | source | states |
|---|---|---|
| Grouping.GroupByDate | record/utils.py:5-23 | Concatenating the groups' entries gives back the input exactly. Every group is non-empty, all its entries fall on the group's day, and its income and expense are the sums of its income- and expense-typed amounts. Adjacent groups are on different days. The first group is the first entry's day, and empty input gives no groups |
| Grouping.FlattenMembership | record/utils.py:7-19 | Every entry of the output lies in a group whose date is that entry's day |
| Grouping.GroupDatesDecreasing | record/views/combined.py:76-84 | Grouping a list sorted newest first gives groups whose days strictly decrease, so equal days are never split into two groups |
| Ledger.Merge | record/views.py:80 | The merged list holds exactly the records and then the transfers, one entry each |
| Ledger.SumOfKindAppend | record/utils.py:8-15 | A per-type sum over two concatenated runs is the sum of the two runs' sums |
| Ledger.SumOfKindIgnoresOthers | record/utils.py:12-16 | Entries of another type (transfers included) add nothing to a sum |
| Sorting.SortByDate | record/views.py:82 | The result is ordered by date, ascending or descending, and is a permutation of the input |
| Sorting.SortStable | record/views.py:82 | For every timestamp, the entries carrying it keep their input order, in both directions (Python's sort is stable, even with reverse=True) |
| Sorting.SortSortedIsIdentity | record/views.py:82 | Sorting an already sorted list returns it unchanged |
| RecordViews.Flag | record/views.py:58-61 | An absent flag is false, and a true flag has one of the lengths of 't', 'yes' or 'true' |
| RecordViews.FlagIgnoresCase | record/views.py:58-61 | The flag ignores letter case: 'TRUE', 'Yes' and 'T' switch it on, while '1', '' and 'on' do not |
| RecordViews.ParseWindow | record/views.py:62-69 | A missing or empty start_date or end_date gives the 400 "Both start_date and end_date are required." before any parsing. Otherwise the window exists exactly when both parse as YYYY-MM-DD naming a real date of the years 1 to 9999, and every failure is a 400 |
| RecordViews.WindowEndsAtMidnight | record/views.py:66-74 | Both ends of the window are included, but the end bound is midnight starting end_date, so a later second of that day falls outside |
| RecordViews.SelectRecords | record/views.py:71-72 | Exactly the records of the book inside the window are kept, in table order (no book id matches nothing) |
| RecordViews.SelectTransfers | record/views.py:73-74 | Exactly the transfers of the book inside the window are kept, in table order |
| RecordViews.Shape | record/views.py:84-87 | The answer lists the sorted entries themselves, or is grouped exactly when group_by_date is set, and then equals group_records_by_date of the sorted list |
| RecordViews.AllRecords | record/views.py:52-87 | Invalid parameters give the window's error. Otherwise the answer is sorted in the requested direction and is a permutation of the selected records followed by the selected transfers. For every timestamp, records precede transfers and each keeps its table order. The answer is grouped exactly when group_by_date is set |
| RecordViews.SelectTax | record/views.py:109-110 | Exactly the book's records inside the window that are marked for the tax return are kept, as a subsequence of the table |
| RecordViews.RecordListing | record/views.py:110-118 | Any selection is answered as a list of the same length, sorted in the requested direction and a permutation of the selected records. For every timestamp, its records keep their table order. The answer is grouped exactly when asked, and the groups are then group_records_by_date of that list |
| RecordViews.TaxOnly | record/views.py:90-120 | Window errors are passed on. The only other error is the 404 "No record found", given exactly when no marked record of the book lies in the window. A success is non-empty, sorted in the requested direction and a permutation of those records. Each timestamp's records keep their table order, and the answer is grouped exactly when asked, then by group_records_by_date |
| RecordViews.TaxIsMarkedSelection | record/views.py:109-110 | The tax-only selection is the plain window selection of the book narrowed to the records marked for the tax return |
| Filters.Apply | record/filters.py:16-23 | One filter keeps exactly the rows it admits, in order. The type, tax and category filters each admit a matching row or any row typed 'transfer'. The date filters compare against midnight of the given day, inclusively |
| Filters.ApplyIdempotent | record/filters.py:16-23 | Applying a filter twice is applying it once |
| Filters.ApplyAppend | record/filters.py:16-23 | A filter distributes over concatenation, so it never reorders rows |
| Filters.ApplyAll | record/filters.py:6-28 | Chained filters keep exactly the rows every filter admits, as a subsequence of the input |
| Filters.ParseNullBoolean | record/filters.py:8-9 | is_marked_tax_return is true exactly for 'True', 'true' or '2' and false exactly for 'False', 'false' or '3'. Anything else, or absence, leaves the filter off |
| Filters.DateFilterOf | record/filters.py:11-14 | A date bound is switched on exactly by a value that parses as a real date of the years 1 to 9999, and bounds from that day |
| Filters.FiltersOf | record/filters.py:6-14 | The switched-on filters are exactly those the non-empty parameters request |
| Filters.FilterRecords | record/filters.py:6-28 | The filter set keeps exactly the rows admitted by every requested filter, as a subsequence of the input |
| Filters.ApplyAllIsKeep | record/filters.py:6-28 | Chaining filters one after another equals a single pass with their conjunction |
| Filters.FilterRecordsIdempotent | record/filters.py:16-23 | Running the whole filter set twice gives the same rows as once |
| Filters.NoParamsNoFilter | record/filters.py:6-14 | Without parameters every row is kept |
| CombinedView.TransferBound | record/views/combined.py:68-73 | An absent or empty bound is no bound. A given bound works exactly when it parses as a real date of the years 1 to 9999, and any other value is a server error |
| CombinedView.KeptRecords | record/views/combined.py:28-61 | A record stays exactly when it is in the requester's book and matches the asset list, the filter set and the search; order is kept |
| CombinedView.KeptTransfers | record/views/combined.py:29-73 | A transfer stays exactly when it is in the requester's book, touches a listed asset, survives the type and tax rules and the search, and lies within the date bounds |
| CombinedView.Combined | record/views/combined.py:23-98 | An unreadable transfer bound is a server error. Otherwise the flattened groups are sorted newest first and are a permutation of the kept records followed by the kept transfers. For every timestamp, records precede transfers and each keeps its table order. Every group is well formed, group days strictly decrease, and a type other than 'transfer' or tax='true' leaves only records |
| CombinedView.DayInOneGroup | record/views/combined.py:82-96 | Every listed entry lies in the group of its own day, and no two groups share a day |
| CombinedView.TransfersNeverCounted | record/views/combined.py:86-89 | A day group of transfers only has zero income and expense |
| Trend.ParseTimeFrame | record/views/trend.py:33-43 | The time frame is read in this order: containing '@' gives a week, else '-' a month, else all digits a year. A split succeeds exactly when it gives two optionally signed decimal numerals, and the frame holds their values; a bad split or number is a 500. A value that is none of the three shapes is the only 400 |
| Trend.ParseFormatRoundTrip | record/views/trend.py:34-41 | Every year, month or week frame written in its text form is parsed back to itself |
| Trend.BucketCount | record/views/trend.py:56-113 | A year has 12 buckets, a month has as many as it has days (29 only for a leap February), and a week has 7 |
| Trend.Monday | record/views/trend.py:101 | The week frame starts on the Monday `%Y-W%W` names: for week 0 the Monday among January 1st and the six days before it, otherwise the Monday among the seven days starting 7(week-1) days after January 1st |
| Trend.BucketOf | record/views/trend.py:45-115 | A timestamp counts in a bucket exactly when it lies in the frame's year, month or seven days. A week bucket is the day's distance from the Monday |
| Trend.LabelOf | record/views/trend.py:61-119 | Bucket i is labelled with month i+1 of the year, day i+1 of the month, or the Monday plus i days |
| Trend.EmptyBucketIsZero | record/views/trend.py:52-57 | A bucket no record falls in counts 0 |
| Trend.Totals | record/views/trend.py:46-57 | There is one total per bucket, each the sum of the amounts in that bucket |
| Trend.TotalsPartitionFrame | record/views/trend.py:54-59 | The bucket totals add up to the total of the records inside the frame, so the last running balance is that total |
| Trend.Labelled | record/views/trend.py:113-126 | Each value is paired with its bucket's label, in bucket order |
| Trend.Series | record/views/trend.py:54-68 | In 'balance' mode each value is the absolute running total up to its bucket; otherwise it is the absolute bucket total. Every value is non-negative |
| Trend.TrendRecords | record/views/trend.py:13-31 | The book's records (all when no book is given) are narrowed by type only for 'income' or 'expense' |
| Trend.TrendView | record/views/trend.py:24-43 | Parse errors pass through. A frame that cannot be built (a year outside 1..9999, a month outside 1..12, an impossible week or one ending after 9999-12-31) is a 500. Otherwise there is one labelled point per bucket, with balance-mode running values exactly when the type is absent or 'balance' |
| Trend.ValidFrame | record/views/trend.py:45-102 | A week frame can be built exactly when `strptime` accepts its year and week and all seven of its days are dates of the years 1 to 9999 |
| Trend.WeekDaysInRange | record/views/trend.py:100-102 | For a week `strptime` accepts, all seven days lie in the years 1 to 9999 exactly when it is not week 52 or 53 of 9999 |
| Trend.YearBounds | record/views/trend.py:40-46 | "0000" parses as year 0, but no frame of year 0 or 10000 can be built, so those years are a 500 |
| Trend.LastWeeks | record/views/trend.py:100-102 | Week 51 of 9999 is the last one whose Sunday exists; week 52 is refused |
| Trend.TwoSeparatorsFail | record/views/trend.py:34-35 | A time frame with two '@' cannot be unpacked into year and week and is a 500 |
| Trend.BadWeekFails | record/views/trend.py:34-36 | A week that is not a numeral is a 500 from `int()` |
| Trend.WeekBucketAsWritten | record/views/trend.py:100-103 | The view's own week selection admits only timestamps up to Sunday 00:00:00, and where it admits one it agrees with the day bucket |
| Trend.SundayAfterMidnightDropped | record/views/trend.py:101-103 | A record on the week's Sunday after midnight is dropped by the view as written, though it belongs in the seventh bucket |
| Trend.WeekCoversWholeDays | record/views/trend.py:113-115 | Every second of the k-th day of the week counts in bucket k, which is labelled with that day |
| Calendar.DaysInMonth | record/views/trend.py:79 | A month has 28 to 31 days, and 29 exactly for February of a Gregorian leap year |
| Calendar.AddDays | record/views/trend.py:102-114 | Adding n days moves the day number by exactly n |
| Calendar.WeekStart | record/views/trend.py:101 | The date `%Y-W%W-%w` gives for day 1 is the Monday among January 1st and the six days before it for week 0, and the Monday among the seven days starting 7(week-1) days after January 1st for week 1 on; that Monday is unique |
| Calendar.MondayInWindowUnique | record/views/trend.py:101 | Two Mondays within the same seven days are the same day, so the windows above fix the Monday |
| Calendar.WeekStartExamples | record/views/trend.py:101 | Week 0 of 2023 starts on 2022-12-26, week 1 of 2023 on 2023-01-02 and week 1 of 2024 on 2024-01-01 |
| Calendar.ParseIsoDate | record/views.py:66-67 | Text parses exactly when it has the shape YYYY-MM-DD with digit fields naming a real date of a year from 1, and the date is then the one those digits name |
| CategoryReport.Tally | record/views/category.py:27-37 | The report holds exactly the types, categories and subcategories that occur, in first-seen order. Each total is the sum of the absolute amounts and each count is the number of records under that key. Subcategory totals and counts add up to their category, and category totals add up to their type |
| CategoryReport.CategoryView | record/views/category.py:12-81 | The view fails with a server error exactly when some category's records all have amount 0 (the percentage divides by zero); otherwise it answers the exact, consistent report |
| CategoryReport.ZeroCategoryIff | record/views/category.py:45-60 | The report has a zero category total exactly when the records have such a category |
| CategoryReport.SignIgnored | record/views/category.py:31 | A record and its negation contribute the same to every total |
| CategoryReport.TypeTotalIsPartition | record/views/category.py:33-45 | A type has an entry exactly when it occurs. Its total is the sum of absolute amounts of its records, equal to the sum of its listed categories' totals, and its listed categories are exactly those that occur |
| CategoryReport.Nested | record/views/category.py:33-37 | A subcategory that occurs lies under an occurring category, which lies under an occurring type |
| CategoryReport.ReportStep | record/views/category.py:27-37 | One loop iteration keeps the report exact for the records read so far |
| CategoryReport.ReportStepConsistent | record/views/category.py:33-37 | One loop iteration keeps every level adding up to the level above |
| Monthly.Selected | record/views/monthly.py:17-23 | Exactly the records that are not scheduled-record templates, and of the book when one is given, are aggregated |
| Monthly.Months | record/views/monthly.py:27-32 | The listed months are ascending and are exactly those with a record |
| Monthly.MonthlyData | record/views/monthly.py:14-33 | There is one row per month holding a selected record, ascending. Each row carries that month's income and expense sums, with no figure when the month has no record of that type |
| Monthly.MonthsPartition | record/views/monthly.py:27-31 | The per-month sums over the listed months add up to the total of that type |
| Monthly.RowsAddUp | record/views/monthly.py:27-33 | The income column adds up to the income of all selected records, and likewise for expense |
| Monthly.FigureIsSum | record/views/monthly.py:29-30 | A month's figure, with absence read as 0, is the sum of that type's amounts in the month |
| Monthly.NoKindIsZero | record/views/monthly.py:29-30 | A month with no record of the type sums to 0 |
| Monthly.OtherTypesIgnored | record/views/monthly.py:29-30 | Adding a record of any other type changes neither figure of any month |
| AssetViews.GroupsOf | asset/views.py:20-29 | The groups listed are exactly those of the book, or all without a book id, in table order |
| AssetViews.Aggregate | asset/views.py:39-53 | The SQL sum is absent exactly over no rows |
| AssetViews.GroupList | asset/views.py:31-63 | assets sums the non-credit balances and liabilities the credit balances of the assets in the selected groups, and net_asset is their sum |
| AssetViews.CountedAssets | asset/views.py:39 | An asset counts exactly when its group is among the selected groups |
| AssetViews.CreditPartition | asset/views.py:39-54 | The non-credit and credit sums add up to the total of all balances |
| AssetViews.NetIsTotal | asset/views.py:52-54 | net_asset equals the sum of every counted balance |
| AssetViews.NoAssetsAllZero | asset/views.py:52-54 | With no counted asset, all three figures are 0 |
| AssetViews.AssetList | asset/views.py:83-96 | Without a book id every asset is listed. An unknown book is the error "Book not found". For a known book, exactly the assets whose group belongs to it are listed, in table order |
| AssetViews.ListMatchesNetWorth | asset/views.py:39-92 | For an existing book, the asset list and the net-worth sum cover the same assets |
| BookViews.ListBooks | book/views.py:18-24 | The answer is exactly the requester's books, or the 404 "No book found" exactly when they have none |
| BookViews.Overlay | book/views.py:59-62 | A partial update writes the supplied fields and keeps the others and the owner |
| BookViews.CreateBook | book/views.py:26-31 | A valid, named request creates a book owned by the requester under the next key; an invalid one is a 400 that writes nothing |
| BookViews.GetBook | book/views.py:40-52 | A book is returned exactly to its owner; any other request, for a missing or a foreign book, is a 404 |
| BookViews.UpdateBook | book/views.py:54-63 | A missing book is a 404 and a foreign one a 401, each writing nothing. The owner's valid request overlays only the supplied fields on that one book |
| BookViews.DeleteBook | book/views.py:65-71 | A missing book is a 404 and a foreign one a 401, each writing nothing. The owner's request removes exactly that book |
| BookViews.CreateThenGet | book/views.py:26-52 | A created book can be read back by its creator with the supplied fields, and it is listed |
| BookViews.DeleteThenGet | book/views.py:46-71 | After the owner deletes a book it reads as 404, and every other book reads as before |
| BookViews.UpdateIdempotent | book/views.py:54-63 | Repeating the owner's update changes nothing more |
| BookViews.StrangerIsLockedOut | book/views.py:46-71 | A non-owner's read is a 404, as for a missing book, and their update and delete leave the table unchanged |
| Permissions.HasPermission | record/permissions.py:8-10 | The request-level check always grants |
| Permissions.HasObjectPermission | record/permissions.py:12-21 | The object check grants exactly when the object's book exists and is owned by the requester; the view and method play no part |
| Permissions.PermissionMatchesGet | record/permissions.py:12-21 | The object permission grants exactly when reading the book itself would succeed |
| Permissions.SameBookSameAnswer | record/permissions.py:12-21 | A record and a transfer of the same book get the same answer, whatever the views and methods |
| Permissions.OneOwner | record/permissions.py:21 | At most one user is granted access to a given book |
| Schedules.Find | record/tasks.py:15-16 | The lookup finds no row exactly when no schedule has the id. It finds one row when exactly one does, and is ambiguous when two or more do |
| Schedules.CheckDueRecords | record/tasks.py:39-56 | The sweep queues exactly the active schedules whose next occurrence is at or before now, in table order, and reports their count |
| Schedules.DueIds | record/tasks.py:46-54 | An id is queued exactly when some schedule with that id is due |
| Schedules.SweepQueuesOnce | record/tasks.py:47-54 | With distinct ids, no schedule is queued twice |
| Schedules.Process | record/tasks.py:9-36 | An unknown id reports "not found" and a schedule that is not due is left as it is, each writing nothing. A due schedule is advanced exactly once, and no other row changes. A lookup matching several rows, or an advance that raises, reports "Error processing record" with the exception's text and writes nothing. Each outcome has its message |
| Schedules.RaisingAdvanceSavesNothing | record/tasks.py:29-36 | When advancing a due schedule raises, the whole result is the unchanged store and the error message carrying the exception's text |
| Schedules.NotDueIsStable | record/tasks.py:18-19 | Processing a schedule that is not due again gives the same result |
| Schedules.TaskNameInjective | record/tasks.py:64 | Different schedules get different periodic-task names |
| Schedules.IntervalDays | record/tasks.py:86-109 | Exactly the four known frequencies get an interval, and it is one of 1, 7, 30 or 365 days |
| Schedules.IntervalOfEachFrequency | record/tasks.py:90-109 | daily is 1 day, weekly 7, monthly 30 and annually 365 |
| Schedules.Every | record/tasks.py:73 | Every frequency of a schedule has its interval |
| Schedules.SyncTask | record/tasks.py:59-83 | The schedule's task is removed first. An active schedule then has exactly one task with args [id], its start date and its frequency's interval; an inactive one has none. Other tasks are untouched |
| Schedules.SyncIdempotent | record/tasks.py:59-83 | Syncing a schedule twice is syncing it once |
| Schedules.SyncKeepsOthers | record/tasks.py:64-67 | Syncing one schedule never adds, removes or changes another schedule's task |
| Schedules.SyncCommutes | record/tasks.py:59-83 | Two schedules with different ids can be synced in either order |
| ScheduledViews.ListSchedules | record/views/scheduled.py:13-23 | The listing keeps exactly the schedules matching each non-empty status and frequency filter, in table order |
| ScheduledViews.ListWithoutFilters | record/views/scheduled.py:14-23 | Without non-empty filters every schedule is listed |
| ScheduledViews.ListIsConjunction | record/views/scheduled.py:18-21 | Two filters give the rows matching both, and either filter can be applied first |
| ScheduledViews.Transition | record/views/scheduled.py:31-60 | An unknown pk is a 404 and an ambiguous lookup a 500, each writing nothing. A found schedule has exactly the transition applied. The queue never changes |
| ScheduledViews.Pause | record/views/scheduled.py:31-44 | Pause succeeds exactly for a found schedule, writes only that schedule's paused state and reports it. A missing schedule is the 404 "Schedule not found" and a key several rows share is the other (500) error; failures write nothing and nothing is queued |
| ScheduledViews.Resume | record/views/scheduled.py:47-60 | A missing schedule is a 404 and a key several rows share an uncaught 500, both writing nothing. A found schedule is resumed in place and reported as resumed; other rows and the queue are unchanged |
| ScheduledViews.PauseThenResume | record/views/scheduled.py:31-60 | Resume is pause's action with the resume transition: when the transitions keep the id and resume undoes pause, pausing then resuming a found schedule succeeds and gives the table back |
| ScheduledViews.Execute | record/views/scheduled.py:63-83 | An unknown pk is a 404 and an inactive schedule a 400, each queuing nothing. An active schedule queues exactly its id. The table never changes |
| ScheduledViews.ExecuteTwice | record/views/scheduled.py:63-78 | Executing twice queues the id twice, because execute does not check whether the schedule is due |
| ScheduledViews.InactiveNeverDispatched | record/views/scheduled.py:67-71 | A schedule that is not active is neither executed by hand nor picked up by the sweep |
| Accounts.UserByEmail | user/views/google_auth.py:40 | The first user with the email is found, or none exists |
| Accounts.UserByName | user/views/apple_auth.py:116-117 | The first user with the username is found, or none exists |
| Accounts.AccountOf | user/views/apple_auth.py:107-108 | The user's account is found, or the user has none |
| Accounts.AccountBySocial | user/views/apple_auth.py:89-92 | An account with this subject and provider is found, or none exists |
| Accounts.StatusText | user/views/apple_auth.py:100-101 | The status is 'verified' exactly when the email counts as verified, else 'pending' |
| AppleAuth.EmailVerified | user/views/apple_auth.py:83-101 | The `email_verified` claim is read by Python truthiness: an absent claim and `False` are unverified, `True` is verified, and a string is verified exactly when it is non-empty |
| AppleAuth.FalseTextReadsVerified | user/views/apple_auth.py:83-101 | A claim carrying the string "false" still gives an account the status 'verified' |
| Accounts.Nickname | user/views/apple_auth.py:137 | The nickname is the text of the email before the first '@' (all of it when there is none) |
| Accounts.GeneratedId | user/views/apple_auth.py:125 | A generated account id is 'ACC' followed by 10 upper-case hex digits |
| Accounts.AccountIdOr | user/views/google_auth.py:52-54 | A non-blank supplied account id is used; otherwise one is generated |
| Accounts.AvatarText | user/views/google_auth.py:100 | Empty avatar bytes are answered as None; otherwise the text is base64 that decodes to the stored bytes |
| Accounts.AddUserAccountValid | user/views/google_auth.py:45-64 | Inserting a new user with a fresh username together with its account keeps usernames unique and each user with at most one account |
| AppleAuth.AppleEmail | user/views/apple_auth.py:80-86 | A missing email becomes '{sub}@private.apple.com' |
| AppleAuth.CreateAppleUser | user/views/apple_auth.py:119-159 | The first sign-in succeeds exactly when the username is free and the default book is created; any failure rolls everything back with "Failed to create user account and associated data" |
| AppleAuth.LinkAppleUser | user/views/apple_auth.py:160-195 | Linking an existing user refuses without writing anything |
| AppleAuth.AppleLink | user/views/apple_auth.py:88-195 | Every refusal of the decision table leaves the tables unchanged |
| AppleAuth.AppleSignIn | user/views/apple_auth.py:24-222 | A missing token is refused before anything is read, and a failed verification answers with its error. Every refusal writes nothing. A success has a token and a verified identity, no avatar, and the status 'verified' exactly when the `email_verified` claim is truthy |
| AppleAuth.ExistingAppleAccount | user/views/apple_auth.py:88-102 | An account already linked to the subject signs in, and only its status is rewritten |
| AppleAuth.EmailOfOtherProvider | user/views/apple_auth.py:104-113 | For a new subject, an email whose account has a non-Apple or unset provider is refused unchanged, naming that provider |
| AppleAuth.FirstSignInCreates | user/views/apple_auth.py:119-159 | A first sign-in with a free username and a default book creates exactly the user (named by the account id) and the Apple account, and reports the book |
| AppleAuth.LinkExistingUser | user/views/apple_auth.py:164-183 | A named user with no account, or with an account without provider, ends with an Apple account of the subject under the reported key |
| AppleAuth.ForeignAccountRefused | user/views/apple_auth.py:184-191 | A named user's account of another provider, or of another Apple subject, is refused unchanged with the matching message |
| AppleAuth.SignInLinks | user/views/apple_auth.py:88-201 | After every success the reported account is the Apple account of the subject, so signing in again takes the first branch |
| AppleAuth.CreateLinks | user/views/apple_auth.py:119-141 | A successful first sign-in reports the new Apple account of the subject |
| AppleAuth.LinkUserLinks | user/views/apple_auth.py:164-195 | A successful link reports an Apple account of the subject with the token's status |
| AppleAuth.SignInKeepsValid | user/views/apple_auth.py:88-201 | Every sign-in keeps usernames unique and each user with at most one account |
| AppleAuth.AppleSignInAsWritten | user/views/apple_auth.py:143-159 | As written, no success ever adds a user |
| AppleAuth.FirstSignInAlwaysFails | user/views/apple_auth.py:143-159 | As written, every request reaching the first-sign-in branch fails with a 500 and writes nothing |
| AppleAuth.FirstAppleUserRefused | user/views/apple_auth.py:119-159 | As written, the very first Apple sign-in on empty tables answers 500 |
| SocialSignIn.ProviderAccount | user/views/google_auth.py:56-64 | A new account is verified, of the provider, with the profile's subject and name, no avatar, and the supplied or generated account id |
| SocialSignIn.Respond | user/views/google_auth.py:97-106 | The answer carries the account's key, status and nickname, the user's email, and the avatar as base64 of the stored bytes, or None when there are none |
| SocialSignIn.StorePicture | user/views/google_auth.py:66-71 | Without a picture nothing is fetched. A download answering 200 stores its content as the account's avatar and writes nothing else; any other status keeps the tables. A download that raises ends the flow with the exception, answered as the generic handler does (500 with its text) and with the tables kept. A success answers with the account as stored |
| SocialSignIn.FetchMattersOnlyWhenDownloading | user/views/google_auth.py:66-71 | When the flow downloads a picture, a download that raises answers 500 with its text. When it does not, the answer and the tables do not depend on the download at all |
| SocialSignIn.Overwrite | user/views/google_auth.py:86-92 | An overwritten account takes the provider, subject, name and 'verified', and keeps its key, user, account id and avatar |
| SocialSignIn.SignInWith | user/views/google_auth.py:39-106 | Every success answers 'verified', the profile's name and the profile's email |
| SocialSignIn.NewEmailCreates | user/views/google_auth.py:40-64 | A new email creates exactly one user (username and email the profile's email) and one verified account of the provider for it |
| SocialSignIn.NewAccountAvatar | user/views/google_auth.py:66-71 | A new account keeps the picture only when its download answers 200 |
| SocialSignIn.FailedDownloadKeepsInserts | user/views/facebook_auth.py:74-126 | A download that raises after the inserts answers 500 but leaves the new user and account in place |
| SocialSignIn.ExistingAccountOverwritten | user/views/facebook_auth.py:94-106 | An existing account is taken over whatever its provider, and no other row changes. Its avatar changes only when it is refreshed by a download answering 200 |
| SocialSignIn.FailedRefreshChangesNothing | user/views/facebook_auth.py:94-106 | A refresh download that raises answers 500 before the save, and nothing is written |
| SocialSignIn.FailuresChangeNothing | user/views/google_auth.py:39-117 | Every other failure leaves the tables unchanged |
| SocialSignIn.SignInLinks | user/views/google_auth.py:39-106 | After every success the reported account is the provider's verified account for the profile, owned by the user with the profile's email |
| SocialSignIn.NewUserLinks | user/views/google_auth.py:40-64 | A successful sign-in with a new email reports the provider's verified account for the profile, owned by the new user |
| SocialSignIn.KnownUserLinks | user/views/google_auth.py:73-92 | A successful sign-in with a known email reports the provider's verified account for the profile, owned by that user |
| SocialSignIn.KnownAccountLinks | user/views/google_auth.py:86-92 | A successful sign-in of a user who already has an account reports that account, taken over for the profile |
| SocialSignIn.SignInKeepsValid | user/views/google_auth.py:39-92 | Every sign-in keeps usernames unique and each user with at most one account |
| GoogleAuth.GoogleSignIn | user/views/google_auth.py:19-117 | An invalid token is a 400 and another verification failure a 500 carrying its text, both writing nothing. A success comes from a verified token and answers the verified account. When a new user's picture download raises, a ValueError (a malformed URL) is answered 400 "Invalid token" and any other exception 500 with its text, and in both cases the new user and account stay inserted |
| GoogleAuth.BadPictureUrlKeepsInserts | user/views/google_auth.py:66-112 | A new Google user whose picture URL is malformed is answered 400 "Invalid token", yet the user and the account were already inserted |
| GoogleAuth.GoogleTakesOver | user/views/google_auth.py:86-92 | An existing account becomes the Google account of the token's subject whatever its provider, and its avatar is kept |
| GoogleAuth.GoogleLinks | user/views/google_auth.py:39-106 | After every success the reported account is the Google account of the token's subject |
| FacebookAuth.ProfileOf | user/views/facebook_auth.py:37-45 | A missing email becomes '{id}@facebook.com'; name, subject and picture come from the Graph answer |
| FacebookAuth.FacebookSignIn | user/views/facebook_auth.py:17-126 | A Graph answer holding 'error' is the 400 "Invalid Facebook token" and a failed call a 500 with its text, both writing nothing. A success answers the verified account |
| FacebookAuth.FacebookTakesOver | user/views/facebook_auth.py:94-106 | An existing account becomes the Facebook account of the profile, and its avatar is replaced exactly when the picture download answers 200 |
| FacebookAuth.FacebookLinks | user/views/facebook_auth.py:47-121 | After every success the reported account is the Facebook account of the profile |
| AccountSerializer.UpdateUser | user/serializers.py:89-93 | Only the supplied user attributes change |
| AccountSerializer.UpdateFields | user/serializers.py:95-102 | The account keeps its key and its user |
| AccountSerializer.Update | user/serializers.py:84-103 | An update changes no table's size and allocates no key |
| AccountSerializer.UpdateOnlyPresent | user/serializers.py:84-103 | Only the updated account changes. Each absent field keeps its value, and the avatar is replaced only by a supplied file. Users change only when user data is given, and then only the account's own user |
| AccountSerializer.UpdateWritesSupplied | user/serializers.py:99-102 | Every supplied field takes the supplied value |
| AccountSerializer.NullAvatarKeepsStored | user/serializers.py:86-97 | A null avatar does not clear the stored one |
| AccountSerializer.UpdateIdempotent | user/serializers.py:84-103 | Repeating an update changes nothing more |
| AccountSerializer.Create | user/serializers.py:59-82 | An absent account_id is a 400 "This field is required." and an empty one a 400 "This field may not be blank."; null is accepted. A taken username is then refused. Otherwise exactly one user and one account for it are added under the next keys, and the account is the empty account with the supplied fields written over it |
| AccountSerializer.CreateKeepsValid | user/serializers.py:69-82 | Creation keeps usernames unique and each user with at most one account |
| AccountSerializer.StoredAvatarRoundTrip | user/serializers.py:69-82 | An avatar file given to create is stored as its bytes and written back as a data URL that reads as those bytes |
| AvatarField.SplitOn | user/serializers.py:15 | The split parts joined with the separator give back the text, and no part contains the separator |
| AvatarField.ToInternalValue | user/serializers.py:11-21 | Input that is not text starting with 'data:image' is passed on unchanged. Text that does not split into exactly two parts at ';base64,' fails. A decoded file is named 'temp.' plus the text after the header's last '/', and its bytes are the payload's base64 decoding |
| AvatarField.ToRepresentation | user/serializers.py:23-39 | No bytes or empty bytes give None; otherwise the result is 'data:image/jpg;base64,' followed by the base64 of the bytes |
| AvatarField.WrittenSplits | user/serializers.py:30-37 | The data URL the field writes starts with 'data:image' and splits exactly into the JPEG header and the base64 text |
| AvatarField.RoundTrip | user/serializers.py:11-39 | Reading back what the field writes gives a file named 'temp.jpg' holding the original bytes |
| AvatarField.JpegName | user/serializers.py:16 | A file read from the JPEG header the field writes is named 'temp.jpg' |
| AvatarField.SplitAround | user/serializers.py:15 | A header and a payload free of ';' split at ';base64,' into exactly those two parts |
| AvatarField.ReadsAs | user/serializers.py:13-19 | A data URL that splits into a header and a base64 payload reads as a file named after the header's subtype, holding the decoded payload |
| Base64.Encode | user/serializers.py:30 | The encoding of n bytes has 4 times n/3 characters, rounded up |
| Base64.Decode | user/serializers.py:19 | Text whose length is not a multiple of 4, or that holds a character outside the alphabet and '=', does not decode. Decoded lengths lie within 2 of three quarters of the text's length |
| Base64.DecodeEncode | user/serializers.py:19-30 | Decoding the encoding of any bytes gives them back |
| Base64.EncodeAlphabet | user/serializers.py:30 | An encoding holds only alphabet characters and '=' |
| Base64.EncodeInjective | user/serializers.py:30 | Different bytes encode differently |
| EmailToken.HashValue | user/utils.py:41-45 | The hash value starts with the user's key and ends with the active flag as 'True' or 'False' |
| EmailToken.HashValueDeterminesUser | user/utils.py:41-45 | For one timestamp, equal hash values mean the same key and the same active flag |
| EmailToken.Base36ToInt | user/utils.py:55 | Text longer than 13 characters, or empty, is refused; accepted text is read as base-36 digits |
| EmailToken.IntToBase36 | user/utils.py:54-55 | The base-36 text of a number reads back as that number and holds no '-' |
| EmailToken.Base36RoundTrip | user/utils.py:54-55 | Every timestamp below 36^13 survives writing and reading base 36 |
| EmailToken.CheckToken | user/utils.py:47-64 | A failing base check refuses, and so does a token without exactly one '-'. An accepted token has a readable base-36 timestamp at most 1800 seconds old |
| EmailToken.ExpiryWindow | user/utils.py:59-62 | A well-formed token whose base check passes is accepted exactly while it is at most 1800 seconds old: still at 1800, no longer at 1801 |
| EmailToken.MalformedRefused | user/utils.py:53-57 | A token without '-' is refused whatever its age |
| Common.SplitOnce | record/views/trend.py:35 | Two-way unpacking of a split succeeds exactly when the separator occurs once, and the parts rebuild the text |
| Common.ParseInt | record/views/trend.py:36 | A text parses exactly when it is a non-empty run of decimal digits, optionally after one '+' or '-', and the value is that numeral's, negated after '-' |
| Common.Lower | record/views.py:58 | Lower-casing keeps the length, maps each ASCII capital to its small letter and keeps every other character |

## Left out

- Network and cryptography are inputs:
  - the Apple key fetch and JWT checks (user/views/apple_auth.py:38-78);
  - Google's `verify_oauth2_token`;
  - the Facebook Graph call and the picture downloads;
  - the Django base token check.
- Tokens, `date_joined`, the first and last names the views store, and model defaults that the answers do not show.
- Email sending, PDF filling, threads, push notifications, the generic CRUD views (record list/detail and the like), pagination, URL routing and admin registrations. None of them is part of the decisions above.
- Decimal arithmetic, percentages with `quantize`, `float` and the category colours are left out. Category totals are modelled exactly; the shares derived from them are not.
- The category view's `data` list is modelled only as the category order with each category's total; its percentage values are left out.
- The textual rendering of a DECIMAL amount used by the combined search is an uninterpreted function parameter.
- Time zones (`make_aware`, the time-zone middleware) are left out: every timestamp is in one zone.
- Calendar.ParseIsoDate: accepts only the canonical YYYY-MM-DD form with a year from 1 to 9999. It is the one date reader of the model, and each caller's own parser accepts more, as the next three lines say.
- RecordViews.ParseWindow: `datetime.strptime(s, "%Y-%m-%d")` also accepts one-digit month and day fields such as "2024-1-5"; the source then lists the window, where the model answers the 400 "Invalid date format".
- Filters.DateFilterOf: django-filter's `DateFilter` reads the value with Django's `DATE_INPUT_FORMATS`, which also accept forms such as "10/25/2006" and "2006-10-25" with one-digit fields; the source then bounds the rows, where the model applies no date bound.
- CombinedView.TransferBound: the transfer bound is not read by `strptime` but by the ORM when `transfers.filter(date__gte=...)` runs (record/views/combined.py:70-73), through Django's `parse_datetime` and `parse_date`. These accept "2024-1-5" and "2024-01-01T10:00", for which the source answers 200 with bounded transfers; the model, and so `CombinedView.Combined`, answers 500.
- Common.Lower: maps only the ASCII capitals. Python's `str.lower` also lower-cases every other cased Unicode letter, so a case-insensitive search differs on letters such as 'É'.
- Common.IsDigit: accepts only the ASCII digits. Python's `str.isdigit` also accepts characters such as '²', where the trend view's `int()` then raises a 500; the model answers that time frame with the 400 for an unknown shape.
- AccountSerializer.Create: when several fields fail validation at once, DRF reports them together in one 400 body; the model answers with the first failing check, account_id before the username.
- AccountSerializer.Update: takes validated data. A blank account_id in a partial update is refused by field validation before `update` runs, and that 400 is not modelled.
- Common.ParseInt: Python's `int()` also accepts surrounding whitespace and underscores between digits ("1_0", " 7 "); the model refuses them.
- Trend.ParseTimeFrame: inherits the Common.ParseInt gap. A week or month part such as " 7" or "0_7" is read by the source, where the model answers the 500 for a bad number.
- EmailToken.Base36ToInt: `int(s, 36)` also accepts a sign, surrounding whitespace and underscores between digits; the model refuses them, so such a token is refused where the source may accept it.
- Ledger.Entry: the Transfer model and its serializer are not part of this model; record/models.py holds only a Record stub. A serialized transfer is taken to carry the `type` 'transfer', as the `Q(type='transfer')` clauses of record/filters.py:17-23 suggest. If it carried no `type`, the grouped listings would raise a KeyError at record/utils.py:12 (a 500), which the model does not show.
- Database ordering of equal keys is left out. Query results come in primary-key order, and `order_by('date')` is the model's stable sort.
- `book_id` is a parsed integer; a non-numeric value, which the ORM rejects, is left out.
- CombinedView.Combined: the `asset` values of `getlist('asset')` (record/views/combined.py:26-34) are integers here. In the source they are raw strings handed to `asset__id__in`, so a non-numeric value such as `?asset=abc`, or an empty `?asset=`, makes the lookup raise ValueError ("Field 'id' expected a number") and the source answers 500; the model cannot express that input.
- Serializer validation is reduced to a validity predicate for books. DRF's trimming and error dictionaries, and the ImageField validation by PIL of a decoded avatar, are left out.
- Image compression (user/serializers.py:105-122) and `UserSerializer.create` with password hashing are left out.
- Base64.Decode: accepts only canonical padded text, where CPython's `b64decode` also discards characters outside the alphabet; only the text the field writes is needed for the round trip.
- Cascading deletes of a book's records, groups and assets are left out. Deleting a book removes only the book.
- `is_due`, `update_next_occurrence`, `pause` and `resume` are function parameters, because their bodies are not part of this model.
- Schedules.Process: `is_due` is taken not to raise. Only `update_next_occurrence` may raise, and the ambiguous lookup's exception text is an input.
- Celery's `.delay` is an append to a queue, and beat's `PeriodicTask` table is a map.
- The Apple flow's "Failed to update account information" answer (user/views/apple_auth.py:196-201) is left out: the modelled writes there cannot fail. So are the outer "Invalid token format" and "An unexpected error occurred" answers beyond the verification result.
- The Google view's `KeyError` for a token without `email` or `name`, and a Facebook profile whose `name` is null, are left out. Claims are complete strings.
- The database's IntegrityError text for a duplicate username is a fixed message.
- The default book of a first Apple sign-in enters as an input (created or failed); its groups are not modelled.
- EmailToken.HashValue: the contract does not spell out the whole concatenation. It states the prefix and the flag, and the partner lemma HashValueDeterminesUser states what the concatenation is for.
- RecordViews.Flag: the contract states only the absent case and the lengths of accepted values. The partner lemma FlagIgnoresCase fixes the case-insensitive accepted spellings.

## Findings

| source | as written | input that shows it | evidently intended | confidence | as-written member | corrected member |
|---|---|---|---|---|---|---|
| record/views/trend.py:101-103 | The week is selected with `date__range=[start_date, end_date]` on a datetime column, with two dates, so the window closes at Sunday 00:00:00 | A record of the week's Sunday dated 00:00:01, for any valid `YYYY@WW` | The seventh bucket holds the whole Sunday, as the other six hold their whole days | not executed | Trend.SundayAfterMidnightDropped | Trend.WeekCoversWholeDays |
| user/views/apple_auth.py:144-153 | `Util.create_default_book_with_groups` is called, but `Util` in user/utils.py defines no such method, so the call raises and the transaction is rolled back | The first Apple sign-in on empty tables with a verified token | A first sign-in creates the user, the Apple account and a default book | not executed; medium, since a helper missing from user/utils.py may exist in another version of the repository | AppleAuth.FirstSignInAlwaysFails | AppleAuth.FirstSignInCreates |

=== FILE: account_serializer.dfy ===
/**
 * `AccountSerializer.create` and `update` (user/serializers.py:59-103): an account is
 * created together with its user, and an update writes only the fields the request
 * supplies. The avatar arrives as an image file (see `AvatarField`) and is stored as
 * its bytes.
 */
module AccountSerializer {
  import opened Common
  import opened Base64
  import opened Accounts
  import opened AvatarField

  /** The user fields a request supplies; `None` means the field is absent. */
  datatype UserData = UserData(username: Option<string>, email: Option<string>)

  /** A non-empty dictionary is truthy. */
  predicate Given(d: UserData) {
    d.username.Some? || d.email.Some?
  }

  /**
   * The validated account fields. `avatar` is absent, null or a file; the other
   * optional fields are absent or a new value (itself possibly null).
   */
  datatype AccountData = AccountData(
    user: Option<UserData>,
    avatar: Option<Option<ImageFile>>,
    accountId: Option<Option<string>>,
    nickname: Option<string>,
    status: Option<string>,
    provider: Option<Option<string>>,
    socialId: Option<Option<string>>)

  /** `if avatar:` — a file is truthy (its name is never empty); absent and null are not. */
  predicate HasAvatar(data: AccountData) {
    data.avatar.Some? && data.avatar.value.Some?
  }

  /** Lines 93-96: the supplied user attributes set on the user. */
  function UpdateUser(u: User, d: UserData): (r: User)
    ensures r.id == u.id
    ensures r.username == d.username.GetOr(u.username) && r.email == d.email.GetOr(u.email)
  {
    User(u.id, d.username.GetOr(u.username), d.email.GetOr(u.email))
  }

  /** Lines 98-103: the avatar's bytes when a file is supplied, then every other supplied field. */
  function UpdateFields(a: Account, data: AccountData): (b: Account)
    ensures b.id == a.id && b.user == a.user
  {
    Account(
      a.id, a.user,
      data.accountId.GetOr(a.accountId),
      data.nickname.GetOr(a.nickname),
      data.status.GetOr(a.status),
      data.provider.GetOr(a.provider),
      data.socialId.GetOr(a.socialId),
      if HasAvatar(data) then data.avatar.value.value.content else a.avatar)
  }

  /** `AccountSerializer.update` of the account at position `i`. */
  function Update(t: Tables, i: nat, data: AccountData): (r: Tables)
    requires i < |t.accounts|
    ensures |r.accounts| == |t.accounts| && |r.users| == |t.users|
    ensures r.nextUser == t.nextUser && r.nextAccount == t.nextAccount
  {
    var a := t.accounts[i];
    var t1 :=
      if data.user.Some? && Given(data.user.value) then
        match UserById(t, a.user)
        case Some(k) => t.(users := t.users[k := UpdateUser(t.users[k], data.user.value)])
        case None => t
      else t;
    SetAccount(t1, i, UpdateFields(a, data))
  }

  /**
   * An update changes only what the request supplies: the other accounts stay, each
   * absent field keeps its value, the avatar is replaced only by a supplied file,
   * and the users change only when user data is given, and then only the account's
   * own user.
   */
  lemma UpdateOnlyPresent(t: Tables, i: nat, data: AccountData)
    requires i < |t.accounts|
    ensures var r := Update(t, i, data);
      var a := t.accounts[i];
      var b := r.accounts[i];
      && (forall j :: 0 <= j < |t.accounts| && j != i ==> r.accounts[j] == t.accounts[j])
      && b.id == a.id && b.user == a.user
      && (data.accountId.None? ==> b.accountId == a.accountId)
      && (data.nickname.None? ==> b.nickname == a.nickname)
      && (data.status.None? ==> b.status == a.status)
      && (data.provider.None? ==> b.provider == a.provider)
      && (data.socialId.None? ==> b.socialId == a.socialId)
      && (b.avatar == if HasAvatar(data) then data.avatar.value.value.content else a.avatar)
      && (!(data.user.Some? && Given(data.user.value)) ==> r.users == t.users)
      && (forall j :: 0 <= j < |t.users| && t.users[j].id != a.user ==> r.users[j] == t.users[j])
  {
  }

  /** Supplied fields take the supplied values. */
  lemma UpdateWritesSupplied(t: Tables, i: nat, data: AccountData)
    requires i < |t.accounts|
    ensures var b := Update(t, i, data).accounts[i];
      && (data.accountId.Some? ==> b.accountId == data.accountId.value)
      && (data.nickname.Some? ==> b.nickname == data.nickname.value)
      && (data.status.Some? ==> b.status == data.status.value)
      && (data.provider.Some? ==> b.provider == data.provider.value)
      && (data.socialId.Some? ==> b.socialId == data.socialId.value)
  {
  }

  /** A null avatar does not clear the stored one. */
  lemma NullAvatarKeepsStored(t: Tables, i: nat, data: AccountData)
    requires i < |t.accounts| && data.avatar == Some(None)
    ensures Update(t, i, data).accounts[i].avatar == t.accounts[i].avatar
  {
  }

  /** Repeating an update changes nothing further. */
  lemma UpdateIdempotent(t: Tables, i: nat, data: AccountData)
    requires i < |t.accounts|
    ensures Update(Update(t, i, data), i, data) == Update(t, i, data)
  {
    var r := Update(t, i, data);
    var a := t.accounts[i];
    assert r.accounts[i].user == a.user;
    assert forall j :: 0 <= j < |t.users| ==> r.users[j].id == t.users[j].id;
    var k1 := UserById(t, a.user);
    var k2 := UserById(r, a.user);
    assert k1 == k2 by {
      if k1.Some? {
        assert r.users[k1.value].id == a.user;
      }
      if k2.Some? {
        assert t.users[k2.value].id == a.user;
      }
    }
  }

  // ---------------------------------------------------------------- create

  /** The user the request creates. */
  datatype NewUser = NewUser(username: string, email: string)

  /** The username check of the user model's unique constraint, run before `create`. */
  const UsernameTaken := BadRequest("A user with that username already exists.")

  /** `account_id` is a `CharField` without `required=False`: it must be supplied. */
  const AccountIdRequired := BadRequest("account_id: This field is required.")

  /** Nor does it allow blanks: an empty text is refused, while null is accepted. */
  const AccountIdBlank := BadRequest("account_id: This field may not be blank.")

  /** The account `create` stores before it receives its key: the supplied fields over empty ones. */
  function Blank(owner: int): Account {
    Account(0, owner, None, "", "", None, None, [])
  }

  /**
   * Validation, then `AccountSerializer.create`: the user first, then the account for
   * it with the supplied fields (absent ones empty) and the avatar's bytes when a file
   * is given.
   */
  function Create(t: Tables, u: NewUser, data: AccountData): (r: Result<Tables>)
    ensures r.Err? <==>
      data.accountId.None? || data.accountId == Some(Some("")) || UserByName(t, u.username).Some?
    ensures data.accountId.None? ==> r == Err(AccountIdRequired)
    ensures data.accountId == Some(Some("")) ==> r == Err(AccountIdBlank)
    ensures data.accountId.Some? && data.accountId != Some(Some("")) && UserByName(t, u.username).Some? ==>
      r == Err(UsernameTaken)
    ensures r.Ok? ==>
      && r.value.users == t.users + [User(t.nextUser, u.username, u.email)]
      && |r.value.accounts| == |t.accounts| + 1
      && r.value.accounts[..|t.accounts|] == t.accounts
      && r.value.accounts[|t.accounts|] == UpdateFields(Account(t.nextAccount, t.nextUser, None, "", "", None, None, []), data)
      && r.value.accounts[|t.accounts|].accountId == data.accountId.value
      && r.value.nextUser == t.nextUser + 1 && r.value.nextAccount == t.nextAccount + 1
  {
    if data.accountId.None? then Err(AccountIdRequired)
    else if data.accountId == Some(Some("")) then Err(AccountIdBlank)
    else if UserByName(t, u.username).Some? then Err(UsernameTaken)
    else Ok(AddAccount(AddUser(t, u.username, u.email), UpdateFields(Blank(t.nextUser), data)))
  }

  /** A created user and account keep the tables' integrity. */
  lemma CreateKeepsValid(t: Tables, u: NewUser, data: AccountData)
    requires Valid(t)
    requires Create(t, u, data).Ok?
    ensures Valid(Create(t, u, data).value)
  {
    AddUserAccountValid(t, u.username, u.email, UpdateFields(Blank(t.nextUser), data));
  }

  /**
   * The bytes of an avatar file given to `create` are stored, and are written back as
   * a data URL that reads as the same bytes.
   */
  lemma StoredAvatarRoundTrip(t: Tables, u: NewUser, data: AccountData)
    requires data.avatar.Some? && data.avatar.value.Some?
    requires data.avatar.value.value.content != []
    requires Create(t, u, data).Ok?
    ensures var stored := Create(t, u, data).value.accounts[|t.accounts|].avatar;
      && stored == data.avatar.value.value.content
      && ToInternalValue(Text(ToRepresentation(Some(stored)).value)) == Ok(Decoded(ImageFile("temp.jpg", stored)))
  {
    var stored := Create(t, u, data).value.accounts[|t.accounts|].avatar;
    RoundTrip(stored);
  }
}

=== FILE: accounts.dfy ===
/**
 * The user and account tables the Apple, Google and Facebook sign-in views read and
 * write. A user has a unique username; an account belongs to exactly one user (a
 * one-to-one key) and records how that user signs in: the provider, the provider's
 * subject id, a status ("verified" or "pending") and an avatar stored as raw bytes.
 */
module Accounts {
  import opened Common
  import opened Base64
  import opened Ledger

  datatype User = User(id: int, username: string, email: string)

  /** An account row; an empty avatar stands for a null column. */
  datatype Account = Account(
    id: int,
    user: int,
    accountId: Option<string>,
    nickname: string,
    status: string,
    provider: Option<string>,
    socialId: Option<string>,
    avatar: seq<Byte>)

  /** Both tables in primary-key order, with the keys the next inserts receive. */
  datatype Tables = Tables(users: seq<User>, accounts: seq<Account>, nextUser: int, nextAccount: int)

  predicate HasUser(t: Tables, id: int) {
    exists j :: 0 <= j < |t.users| && t.users[j].id == id
  }

  /** The user table: ascending keys below the next key, and unique usernames. */
  predicate UsersValid(t: Tables) {
    && (forall i, j :: 0 <= i < j < |t.users| ==> t.users[i].id < t.users[j].id)
    && (forall i :: 0 <= i < |t.users| ==> t.users[i].id < t.nextUser)
    && (forall i, j :: 0 <= i < j < |t.users| ==> t.users[i].username != t.users[j].username)
  }

  /** The account table: ascending keys, at most one account per user, each of an existing user. */
  predicate AccountsValid(t: Tables) {
    && (forall i, j :: 0 <= i < j < |t.accounts| ==> t.accounts[i].id < t.accounts[j].id)
    && (forall i :: 0 <= i < |t.accounts| ==> t.accounts[i].id < t.nextAccount)
    && (forall i, j :: 0 <= i < j < |t.accounts| ==> t.accounts[i].user != t.accounts[j].user)
    && (forall i :: 0 <= i < |t.accounts| ==> HasUser(t, t.accounts[i].user))
  }

  /** The integrity the database enforces on the two tables. */
  predicate Valid(t: Tables) {
    UsersValid(t) && AccountsValid(t)
  }

  // ---------------------------------------------------------------- lookups

  /** `User.objects.filter(email=email).first()`. */
  function UserByEmail(t: Tables, email: string): (r: Option<nat>)
    ensures r.Some? ==> r.value < |t.users| && t.users[r.value].email == email
    ensures r.None? <==> forall j :: 0 <= j < |t.users| ==> t.users[j].email != email
  {
    FirstIndex(t.users, (u: User) => u.email == email)
  }

  /** `User.objects.filter(username=name).first()`. */
  function UserByName(t: Tables, name: string): (r: Option<nat>)
    ensures r.Some? ==> r.value < |t.users| && t.users[r.value].username == name
    ensures r.None? <==> forall j :: 0 <= j < |t.users| ==> t.users[j].username != name
  {
    FirstIndex(t.users, (u: User) => u.username == name)
  }

  /** The user row of a key, as `account.user` follows the foreign key. */
  function UserById(t: Tables, id: int): (r: Option<nat>)
    ensures r.Some? ==> r.value < |t.users| && t.users[r.value].id == id
    ensures r.None? <==> !HasUser(t, id)
  {
    FirstIndex(t.users, (u: User) => u.id == id)
  }

  /** `Account.objects.filter(user=user).first()`. */
  function AccountOf(t: Tables, user: int): (r: Option<nat>)
    ensures r.Some? ==> r.value < |t.accounts| && t.accounts[r.value].user == user
    ensures r.None? <==> forall j :: 0 <= j < |t.accounts| ==> t.accounts[j].user != user
  {
    FirstIndex(t.accounts, (a: Account) => a.user == user)
  }

  /** `Account.objects.filter(social_id=sub, auth_provider=provider).first()`. */
  function AccountBySocial(t: Tables, sub: string, provider: string): (r: Option<nat>)
    ensures r.Some? ==> r.value < |t.accounts|
    ensures r.Some? ==> t.accounts[r.value].socialId == Some(sub) && t.accounts[r.value].provider == Some(provider)
    ensures r.None? <==> forall j :: 0 <= j < |t.accounts| ==>
      !(t.accounts[j].socialId == Some(sub) && t.accounts[j].provider == Some(provider))
  {
    FirstIndex(t.accounts, (a: Account) => a.socialId == Some(sub) && a.provider == Some(provider))
  }

  /** The email of the account's user, as the responses report it. */
  function EmailOf(t: Tables, user: int): (r: string)
    ensures HasUser(t, user) ==> exists j :: 0 <= j < |t.users| && t.users[j].id == user && t.users[j].email == r
  {
    match UserById(t, user)
    case Some(k) => t.users[k].email
    case None => ""
  }

  // ---------------------------------------------------------------- writes

  /** `User.objects.create(...)`: a new row under the next key. */
  function AddUser(t: Tables, username: string, email: string): (r: Tables)
    ensures r.users == t.users + [User(t.nextUser, username, email)]
    ensures r.accounts == t.accounts && r.nextUser == t.nextUser + 1 && r.nextAccount == t.nextAccount
  {
    Tables(t.users + [User(t.nextUser, username, email)], t.accounts, t.nextUser + 1, t.nextAccount)
  }

  /** `Account.objects.create(...)`: the row `a` stored under the next key. */
  function AddAccount(t: Tables, a: Account): (r: Tables)
    ensures r.accounts == t.accounts + [a.(id := t.nextAccount)]
    ensures r.users == t.users && r.nextUser == t.nextUser && r.nextAccount == t.nextAccount + 1
  {
    Tables(t.users, t.accounts + [a.(id := t.nextAccount)], t.nextUser, t.nextAccount + 1)
  }

  /** `account.save()` of the row at position `i`. */
  function SetAccount(t: Tables, i: nat, a: Account): (r: Tables)
    requires i < |t.accounts|
    ensures r.accounts == t.accounts[i := a]
    ensures r.users == t.users && r.nextUser == t.nextUser && r.nextAccount == t.nextAccount
  {
    t.(accounts := t.accounts[i := a])
  }

  /** A user whose username is free keeps the tables valid. */
  lemma AddUserValid(t: Tables, username: string, email: string)
    requires Valid(t)
    requires UserByName(t, username).None?
    ensures Valid(AddUser(t, username, email))
    ensures HasUser(AddUser(t, username, email), t.nextUser)
  {
    var r := AddUser(t, username, email);
    var n := |t.users|;
    assert forall i :: 0 <= i < n ==> r.users[i] == t.users[i];
    assert r.users[n] == User(t.nextUser, username, email);
    assert forall i :: 0 <= i < n ==> t.users[i].username != username;
    forall i, j | 0 <= i < j < |r.users|
      ensures r.users[i].id < r.users[j].id && r.users[i].username != r.users[j].username
    {
    }
    assert UsersValid(r);
    forall i | 0 <= i < |r.accounts|
      ensures HasUser(r, r.accounts[i].user)
    {
      var j :| 0 <= j < n && t.users[j].id == t.accounts[i].user;
      assert r.users[j] == t.users[j];
    }
    assert HasUser(r, t.nextUser) by {
      assert r.users[n].id == t.nextUser;
    }
  }

  /** An account for an existing user who has none keeps the tables valid. */
  lemma AddAccountValid(t: Tables, a: Account)
    requires Valid(t)
    requires HasUser(t, a.user)
    requires AccountOf(t, a.user).None?
    ensures Valid(AddAccount(t, a))
  {
    var r := AddAccount(t, a);
    assert r.accounts[|t.accounts|] == a.(id := t.nextAccount);
    forall i | 0 <= i < |r.accounts|
      ensures HasUser(r, r.accounts[i].user)
    {
      if i < |t.accounts| {
        assert r.accounts[i] == t.accounts[i];
      }
    }
  }

  /** A new user with a free username and an account for that user keep the tables valid. */
  lemma AddUserAccountValid(t: Tables, username: string, email: string, a: Account)
    requires Valid(t)
    requires UserByName(t, username).None?
    requires a.user == t.nextUser
    ensures Valid(AddAccount(AddUser(t, username, email), a))
  {
    var t1 := AddUser(t, username, email);
    AddUserValid(t, username, email);
    forall j | 0 <= j < |t1.accounts|
      ensures t1.accounts[j].user != t.nextUser
    {
      assert t1.accounts[j] == t.accounts[j];
      assert HasUser(t, t.accounts[j].user);
      var w :| 0 <= w < |t.users| && t.users[w].id == t.accounts[j].user;
      assert t.users[w].id < t.nextUser;
    }
    assert AccountOf(t1, a.user).None?;
    AddAccountValid(t1, a);
  }

  /** Saving a row under its own key and user keeps the tables valid. */
  lemma SetAccountValid(t: Tables, i: nat, a: Account)
    requires Valid(t)
    requires i < |t.accounts| && a.id == t.accounts[i].id && a.user == t.accounts[i].user
    ensures Valid(SetAccount(t, i, a))
  {
    var r := SetAccount(t, i, a);
    assert forall j :: 0 <= j < |r.accounts| ==> r.accounts[j].id == t.accounts[j].id && r.accounts[j].user == t.accounts[j].user;
  }

  /** The first user row with a key is the one `UserById` and `EmailOf` read. */
  lemma UserAt(t: Tables, k: nat)
    requires k < |t.users|
    requires forall j :: 0 <= j < k ==> t.users[j].id != t.users[k].id
    ensures UserById(t, t.users[k].id) == Some(k)
    ensures EmailOf(t, t.users[k].id) == t.users[k].email
  {
    var r := UserById(t, t.users[k].id);
    assert HasUser(t, t.users[k].id);
    assert r.value <= k;
  }

  /** In valid tables a user has at most one account, so `AccountOf` finds the only one. */
  lemma AccountOfUnique(t: Tables, user: int, j: nat)
    requires Valid(t)
    requires j < |t.accounts| && t.accounts[j].user == user
    ensures AccountOf(t, user) == Some(j)
  {
  }

  // ---------------------------------------------------------------- values

  /** The status every account write sets: "verified" exactly when the provider says so. */
  function StatusText(verified: bool): (r: string)
    ensures r == "verified" || r == "pending"
    ensures r == "verified" <==> verified
  {
    if verified then "verified" else "pending"
  }

  /** `email.split('@')[0]`: the text before the first '@'. */
  function Nickname(email: string): (r: string)
    ensures StartsWith(email, r) && '@' !in r
    ensures r == email || email[|r|] == '@'
  {
    Before(email, '@')
  }

  predicate IsUpperHex(c: char) {
    '0' <= c <= '9' || 'A' <= c <= 'F'
  }

  /** `uuid.uuid4().hex[:10].upper()`: ten upper-case hexadecimal digits, an input here. */
  type Hex10 = s: string | |s| == 10 && forall i :: 0 <= i < |s| ==> IsUpperHex(s[i]) witness "0000000000"

  /** `f"ACC{hex}"`: the generated account id. */
  function GeneratedId(hex: Hex10): (r: string)
    ensures |r| == 13 && StartsWith(r, "ACC")
    ensures forall i :: 3 <= i < 13 ==> IsUpperHex(r[i])
  {
    "ACC" + hex
  }

  /** `account_id or f"ACC{...}"`: the supplied id unless it is absent or blank. */
  function AccountIdOr(given: Option<string>, hex: Hex10): (r: string)
    ensures Present(given) ==> r == given.value
    ensures !Present(given) ==> r == GeneratedId(hex)
  {
    if Present(given) then given.value else GeneratedId(hex)
  }

  /** `account.auth_provider or "another provider"`. */
  function ProviderText(p: Option<string>): (r: string)
    ensures r != ""
    ensures Present(p) ==> r == p.value
  {
    if Present(p) then p.value else "another provider"
  }

  /** `base64.b64encode(account.avatar) if account.avatar else None`. */
  function AvatarText(avatar: seq<Byte>): (r: Option<string>)
    ensures r.None? <==> avatar == []
    ensures r.Some? ==> Decode(r.value) == Some(avatar)
  {
    if avatar == [] then None
    else
      DecodeEncode(avatar);
      Some(Encode(avatar))
  }

  /** The body of a successful sign-in; the token and join date are left out. */
  datatype AuthInfo = AuthInfo(
    id: int,
    accountId: Option<string>,
    avatar: Option<string>,
    nickname: string,
    status: string,
    email: string,
    book: Option<Book>)

  /** The tables after a request, and its answer. */
  datatype SignIn = SignIn(tables: Tables, response: Result<AuthInfo>)

  /** The response fields taken from an account row and its user's email. */
  function InfoOf(a: Account, email: string, avatar: Option<string>, book: Option<Book>): (r: AuthInfo)
    ensures r.id == a.id && r.accountId == a.accountId && r.nickname == a.nickname && r.status == a.status
    ensures r.email == email && r.avatar == avatar && r.book == book
  {
    AuthInfo(a.id, a.accountId, avatar, a.nickname, a.status, email, book)
  }
}

=== FILE: apple_auth.dfy ===
/**
 * Sign in with Apple (user/views/apple_auth.py), from the point where the identity
 * token has been verified. The decision table: an account already linked to the
 * Apple subject signs in; an email registered through another provider is refused;
 * otherwise the user named by `account_id` is linked, or a new user and account are
 * created together with a default book. Token verification (the key fetch and the
 * signature check) is an input.
 */
module AppleAuth {
  import opened Common
  import opened Ledger
  import opened Accounts

  /**
   * The `email_verified` claim as the decoded token carries it: absent, a JSON boolean,
   * or a string (Apple documents both `true` and `"true"`).
   */
  datatype Claim = Unclaimed | BoolClaim(flag: bool) | TextClaim(text: string)

  /** The claims of a verified identity token. */
  datatype AppleIdentity = AppleIdentity(sub: string, email: Option<string>, emailVerified: Claim)

  /**
   * Line 83 and the tests `'verified' if email_verified else 'pending'`: the claim,
   * defaulting to `False`, read by Python truthiness, so any non-empty string counts,
   * "false" included.
   */
  function EmailVerified(ident: AppleIdentity): (v: bool)
    ensures ident.emailVerified.Unclaimed? ==> !v
    ensures ident.emailVerified.BoolClaim? ==> (v <==> ident.emailVerified.flag)
    ensures ident.emailVerified.TextClaim? ==> (v <==> ident.emailVerified.text != "")
  {
    match ident.emailVerified
    case Unclaimed => false
    case BoolClaim(b) => b
    case TextClaim(s) => |s| > 0
  }

  const TokenRequired := BadRequest("Identity token is required")
  const CreateFailed := ServerError("Failed to create user account and associated data")
  const OtherAppleAccount := BadRequest("This account is already linked to a different Apple account.")

  /** The exception that calling the missing default-book helper raises. */
  const MissingHelper := ServerError("type object 'Util' has no attribute 'create_default_book_with_groups'")

  /** Lines 82-86: the token's email, or a private relay address made from the subject. */
  function AppleEmail(ident: AppleIdentity): (r: string)
    ensures Present(ident.email) ==> r == ident.email.value
    ensures !Present(ident.email) ==> r == ident.sub + "@private.apple.com"
  {
    if Present(ident.email) then ident.email.value else ident.sub + "@private.apple.com"
  }

  /**
   * Lines 105-113: the provider of the account of the first user with this email, when
   * that account exists and is not an Apple account.
   */
  function EmailClash(t: Tables, email: string): Option<Option<string>> {
    match UserByEmail(t, email)
    case None => None
    case Some(k) =>
      match AccountOf(t, t.users[k].id)
      case None => None
      case Some(a) => if t.accounts[a].provider != Some("apple") then Some(t.accounts[a].provider) else None
  }

  function EmailRegistered(p: Option<string>): Failure {
    BadRequest("This email has already been registered with " + ProviderText(p) + ".")
  }

  function AccountRegistered(p: Option<string>): Failure {
    BadRequest("This account is already registered with " + ProviderText(p) + ".")
  }

  /** The user named by a non-blank `account_id`, if any (lines 116-117). */
  function NamedUser(t: Tables, accountId: Option<string>): Option<nat> {
    if Present(accountId) then UserByName(t, accountId.value) else None
  }

  /** The new account row of a first sign-in for user `user`. */
  function NewAppleAccount(user: int, accountId: Option<string>, email: string, ident: AppleIdentity): Account {
    Account(0, user, accountId, Nickname(email), StatusText(EmailVerified(ident)), Some("apple"), Some(ident.sub), [])
  }

  /**
   * Lines 119-159: a user named by the account id (supplied or generated) and its Apple
   * account are created in one transaction together with a default book; if the book
   * helper or an insert fails, the transaction is rolled back.
   */
  function CreateAppleUser(t: Tables, accountId: Option<string>, email: string, ident: AppleIdentity,
                           hex: Hex10, defaultBook: Result<Book>): (r: SignIn)
    ensures r.response.Err? ==> r.tables == t && r.response.error == CreateFailed
    ensures r.response.Ok? <==> UserByName(t, AccountIdOr(accountId, hex)).None? && defaultBook.Ok?
  {
    var name := AccountIdOr(accountId, hex);
    if UserByName(t, name).Some? then SignIn(t, Err(CreateFailed))
    else
      match defaultBook
      case Err(_) => SignIn(t, Err(CreateFailed))
      case Ok(book) =>
        var a := NewAppleAccount(t.nextUser, Some(name), email, ident);
        var t1 := AddUser(t, name, email);
        SignIn(AddAccount(t1, a), Ok(InfoOf(a.(id := t1.nextAccount), email, None, Some(book))))
  }

  /**
   * Lines 160-195: an existing user named by the account id gets an Apple account, or
   * has an account without a provider linked to Apple; an account of another provider
   * or of another Apple subject is refused.
   */
  function LinkAppleUser(t: Tables, k: nat, accountId: Option<string>, email: string, ident: AppleIdentity): (r: SignIn)
    requires k < |t.users|
    ensures r.response.Err? ==> r.tables == t
  {
    var u := t.users[k];
    var status := StatusText(EmailVerified(ident));
    match AccountOf(t, u.id)
    case None =>
      var a := NewAppleAccount(u.id, accountId, email, ident);
      SignIn(AddAccount(t, a), Ok(InfoOf(a.(id := t.nextAccount), u.email, None, None)))
    case Some(i) =>
      var a := t.accounts[i];
      if a.provider.None? then
        var b := a.(provider := Some("apple"), socialId := Some(ident.sub), nickname := Nickname(email), status := status);
        SignIn(SetAccount(t, i, b), Ok(InfoOf(b, u.email, None, None)))
      else if a.provider != Some("apple") then SignIn(t, Err(AccountRegistered(a.provider)))
      else if a.socialId != Some(ident.sub) then SignIn(t, Err(OtherAppleAccount))
      else
        var b := a.(status := status);
        SignIn(SetAccount(t, i, b), Ok(InfoOf(b, u.email, None, None)))
  }

  /** Lines 80-201 once the token is verified. */
  function AppleLink(t: Tables, accountId: Option<string>, ident: AppleIdentity, hex: Hex10,
                     defaultBook: Result<Book>): (r: SignIn)
    ensures r.response.Err? ==> r.tables == t
  {
    var email := AppleEmail(ident);
    match AccountBySocial(t, ident.sub, "apple")
    case Some(i) =>
      var b := t.accounts[i].(status := StatusText(EmailVerified(ident)));
      SignIn(SetAccount(t, i, b), Ok(InfoOf(b, EmailOf(t, b.user), None, None)))
    case None =>
      match EmailClash(t, email)
      case Some(p) => SignIn(t, Err(EmailRegistered(p)))
      case None =>
        match NamedUser(t, accountId)
        case None => CreateAppleUser(t, accountId, email, ident, hex, defaultBook)
        case Some(k) => LinkAppleUser(t, k, accountId, email, ident)
  }

  /**
   * `apple_auth`: a request without a token is refused before anything is read, a
   * failed verification answers with its own error, and a verified token goes through
   * the decision table. Every refusal leaves the tables as they were; every success
   * reports the status "verified" exactly when the token says the email is verified.
   */
  function AppleSignIn(t: Tables, token: Option<string>, accountId: Option<string>,
                       verification: Result<AppleIdentity>, hex: Hex10, defaultBook: Result<Book>): (r: SignIn)
    ensures !Present(token) ==> r == SignIn(t, Err(TokenRequired))
    ensures Present(token) && verification.Err? ==> r == SignIn(t, Err(verification.error))
    ensures r.response.Err? ==> r.tables == t
    ensures r.response.Ok? ==> Present(token) && verification.Ok?
    ensures r.response.Ok? ==> r.response.value.avatar == None
    ensures r.response.Ok? ==> r.response.value.status == StatusText(EmailVerified(verification.value))
  {
    if !Present(token) then SignIn(t, Err(TokenRequired))
    else
      match verification
      case Err(e) => SignIn(t, Err(e))
      case Ok(ident) => AppleLink(t, accountId, ident, hex, defaultBook)
  }

  /**
   * The claim is read by truthiness, not by its meaning: a token whose `email_verified`
   * is the string "false" still signs in as 'verified'.
   */
  lemma FalseTextReadsVerified(t: Tables, token: Option<string>, accountId: Option<string>, sub: string,
                               email: Option<string>, hex: Hex10, defaultBook: Result<Book>)
    requires AppleSignIn(t, token, accountId, Ok(AppleIdentity(sub, email, TextClaim("false"))), hex, defaultBook).response.Ok?
    ensures AppleSignIn(t, token, accountId, Ok(AppleIdentity(sub, email, TextClaim("false"))), hex, defaultBook)
              .response.value.status == "verified"
  {
    assert EmailVerified(AppleIdentity(sub, email, TextClaim("false")));
  }

  // ---------------------------------------------------------------- the decision table

  /** The account with this id is an Apple account of subject `sub` in status `status`. */
  predicate LinkedTo(t: Tables, id: int, sub: string, status: string) {
    exists i :: 0 <= i < |t.accounts| && t.accounts[i].id == id && t.accounts[i].socialId == Some(sub)
      && t.accounts[i].provider == Some("apple") && t.accounts[i].status == status
  }

  /** An account already linked to the subject signs in, and only its status is rewritten. */
  lemma ExistingAppleAccount(t: Tables, accountId: Option<string>, ident: AppleIdentity, hex: Hex10,
                             defaultBook: Result<Book>, i: nat)
    requires AccountBySocial(t, ident.sub, "apple") == Some(i)
    ensures var r := AppleLink(t, accountId, ident, hex, defaultBook);
      && r.response.Ok?
      && r.response.value.id == t.accounts[i].id
      && r.tables.users == t.users
      && r.tables.accounts == t.accounts[i := t.accounts[i].(status := StatusText(EmailVerified(ident)))]
  {
  }

  /** An email registered through another provider, or none, is refused when the subject is new. */
  lemma EmailOfOtherProvider(t: Tables, accountId: Option<string>, ident: AppleIdentity, hex: Hex10,
                             defaultBook: Result<Book>, k: nat, a: nat)
    requires AccountBySocial(t, ident.sub, "apple").None?
    requires UserByEmail(t, AppleEmail(ident)) == Some(k)
    requires AccountOf(t, t.users[k].id) == Some(a) && t.accounts[a].provider != Some("apple")
    ensures AppleLink(t, accountId, ident, hex, defaultBook) == SignIn(t, Err(EmailRegistered(t.accounts[a].provider)))
  {
  }

  /** The request reaches the first-sign-in branch (line 119). */
  predicate ReachesCreation(t: Tables, accountId: Option<string>, ident: AppleIdentity) {
    && AccountBySocial(t, ident.sub, "apple").None?
    && EmailClash(t, AppleEmail(ident)).None?
    && NamedUser(t, accountId).None?
  }

  /**
   * A first sign-in with a free username and a default book creates the user, the Apple
   * account and reports the book.
   */
  lemma FirstSignInCreates(t: Tables, accountId: Option<string>, ident: AppleIdentity, hex: Hex10, book: Book)
    requires ReachesCreation(t, accountId, ident)
    requires UserByName(t, AccountIdOr(accountId, hex)).None?
    ensures var r := AppleLink(t, accountId, ident, hex, Ok(book));
      var name := AccountIdOr(accountId, hex);
      && r.response.Ok?
      && r.response.value.book == Some(book)
      && r.response.value.email == AppleEmail(ident)
      && r.tables.users == t.users + [User(t.nextUser, name, AppleEmail(ident))]
      && r.tables.accounts == t.accounts + [Account(t.nextAccount, t.nextUser, Some(name), Nickname(AppleEmail(ident)),
                                                    StatusText(EmailVerified(ident)), Some("apple"), Some(ident.sub), [])]
  {
  }

  /** A user without an account, or whose account has no provider, is linked to the subject. */
  lemma LinkExistingUser(t: Tables, accountId: Option<string>, ident: AppleIdentity, hex: Hex10,
                         defaultBook: Result<Book>, k: nat)
    requires AccountBySocial(t, ident.sub, "apple").None?
    requires EmailClash(t, AppleEmail(ident)).None?
    requires NamedUser(t, accountId) == Some(k)
    requires match AccountOf(t, t.users[k].id) case None => true case Some(i) => t.accounts[i].provider.None?
    ensures var r := AppleLink(t, accountId, ident, hex, defaultBook);
      && r.response.Ok?
      && r.response.value.email == t.users[k].email
      && LinkedTo(r.tables, r.response.value.id, ident.sub, StatusText(EmailVerified(ident)))
  {
    var r := AppleLink(t, accountId, ident, hex, defaultBook);
    match AccountOf(t, t.users[k].id)
    case None =>
      assert r.tables.accounts[|t.accounts|].id == r.response.value.id;
    case Some(i) =>
      assert r.tables.accounts[i].id == r.response.value.id;
  }

  /** An account of another provider or of another Apple subject is refused unchanged. */
  lemma ForeignAccountRefused(t: Tables, accountId: Option<string>, ident: AppleIdentity, hex: Hex10,
                              defaultBook: Result<Book>, k: nat, i: nat)
    requires AccountBySocial(t, ident.sub, "apple").None?
    requires EmailClash(t, AppleEmail(ident)).None?
    requires NamedUser(t, accountId) == Some(k)
    requires AccountOf(t, t.users[k].id) == Some(i) && t.accounts[i].provider.Some?
    ensures var r := AppleLink(t, accountId, ident, hex, defaultBook);
      && r.tables == t
      && (t.accounts[i].provider != Some("apple") ==> r.response == Err(AccountRegistered(t.accounts[i].provider)))
      && (t.accounts[i].provider == Some("apple") ==> r.response == Err(OtherAppleAccount))
  {
    assert t.accounts[i].provider == Some("apple") ==> t.accounts[i].socialId != Some(ident.sub);
  }

  /**
   * Every successful sign-in leaves an Apple account of the subject, with the reported
   * key and status, so signing in again takes the first branch.
   */
  lemma SignInLinks(t: Tables, token: Option<string>, accountId: Option<string>,
                    verification: Result<AppleIdentity>, hex: Hex10, defaultBook: Result<Book>)
    requires AppleSignIn(t, token, accountId, verification, hex, defaultBook).response.Ok?
    ensures var r := AppleSignIn(t, token, accountId, verification, hex, defaultBook);
      && LinkedTo(r.tables, r.response.value.id, verification.value.sub, r.response.value.status)
      && AccountBySocial(r.tables, verification.value.sub, "apple").Some?
  {
    var ident := verification.value;
    var r := AppleLink(t, accountId, ident, hex, defaultBook);
    match AccountBySocial(t, ident.sub, "apple")
    case Some(i) =>
      assert r.tables.accounts[i].id == r.response.value.id;
    case None =>
      match NamedUser(t, accountId)
      case None =>
        CreateLinks(t, accountId, AppleEmail(ident), ident, hex, defaultBook);
      case Some(k) =>
        LinkUserLinks(t, k, accountId, AppleEmail(ident), ident);
    LinkedHasSocial(r.tables, r.response.value.id, ident.sub, r.response.value.status);
  }

  lemma CreateLinks(t: Tables, accountId: Option<string>, email: string, ident: AppleIdentity,
                    hex: Hex10, defaultBook: Result<Book>)
    requires CreateAppleUser(t, accountId, email, ident, hex, defaultBook).response.Ok?
    ensures var r := CreateAppleUser(t, accountId, email, ident, hex, defaultBook);
      LinkedTo(r.tables, r.response.value.id, ident.sub, StatusText(EmailVerified(ident)))
  {
    var r := CreateAppleUser(t, accountId, email, ident, hex, defaultBook);
    assert r.tables.accounts[|t.accounts|].id == r.response.value.id;
  }

  lemma LinkUserLinks(t: Tables, k: nat, accountId: Option<string>, email: string, ident: AppleIdentity)
    requires k < |t.users|
    requires LinkAppleUser(t, k, accountId, email, ident).response.Ok?
    ensures var r := LinkAppleUser(t, k, accountId, email, ident);
      LinkedTo(r.tables, r.response.value.id, ident.sub, StatusText(EmailVerified(ident)))
  {
    var r := LinkAppleUser(t, k, accountId, email, ident);
    match AccountOf(t, t.users[k].id)
    case None =>
      assert r.tables.accounts[|t.accounts|].id == r.response.value.id;
    case Some(i) =>
      assert r.tables.accounts[i].id == r.response.value.id;
  }

  /** An account linked to the subject is found by it. */
  lemma LinkedHasSocial(t: Tables, id: int, sub: string, status: string)
    requires LinkedTo(t, id, sub, status)
    ensures AccountBySocial(t, sub, "apple").Some?
  {
    var w :| 0 <= w < |t.accounts| && t.accounts[w].id == id && t.accounts[w].socialId == Some(sub)
      && t.accounts[w].provider == Some("apple") && t.accounts[w].status == status;
  }

  /** Every sign-in keeps the tables' integrity: unique usernames, one account per user. */
  lemma SignInKeepsValid(t: Tables, token: Option<string>, accountId: Option<string>,
                         verification: Result<AppleIdentity>, hex: Hex10, defaultBook: Result<Book>)
    requires Valid(t)
    ensures Valid(AppleSignIn(t, token, accountId, verification, hex, defaultBook).tables)
  {
    if Present(token) && verification.Ok? {
      var ident := verification.value;
      var email := AppleEmail(ident);
      match AccountBySocial(t, ident.sub, "apple")
      case Some(i) =>
        SetAccountValid(t, i, t.accounts[i].(status := StatusText(EmailVerified(ident))));
      case None =>
        if EmailClash(t, email).None? {
          match NamedUser(t, accountId)
          case None =>
            var name := AccountIdOr(accountId, hex);
            if UserByName(t, name).None? && defaultBook.Ok? {
              AddUserAccountValid(t, name, email, NewAppleAccount(t.nextUser, Some(name), email, ident));
            }
          case Some(k) =>
            var u := t.users[k];
            match AccountOf(t, u.id)
            case None =>
              AddAccountValid(t, NewAppleAccount(u.id, accountId, email, ident));
            case Some(i) =>
              var a := t.accounts[i];
              if a.provider.None? {
                SetAccountValid(t, i, a.(provider := Some("apple"), socialId := Some(ident.sub),
                                         nickname := Nickname(email), status := StatusText(EmailVerified(ident))));
              } else if a.provider == Some("apple") && a.socialId == Some(ident.sub) {
                SetAccountValid(t, i, a.(status := StatusText(EmailVerified(ident))));
              }
        }
    }
  }

  // ---------------------------------------------------------------- as written

  /**
   * The view as written: `Util` in user/utils.py has no `create_default_book_with_groups`,
   * so the call raises inside the transaction and every first sign-in is rolled back.
   */
  function AppleSignInAsWritten(t: Tables, token: Option<string>, accountId: Option<string>,
                                verification: Result<AppleIdentity>, hex: Hex10): (r: SignIn)
    ensures r.response.Ok? ==> |r.tables.users| == |t.users|
  {
    AppleSignIn(t, token, accountId, verification, hex, Err(MissingHelper))
  }

  /** As written, no request that reaches the first-sign-in branch succeeds or writes anything. */
  lemma FirstSignInAlwaysFails(t: Tables, token: Option<string>, accountId: Option<string>,
                               ident: AppleIdentity, hex: Hex10)
    requires Present(token)
    requires ReachesCreation(t, accountId, ident)
    ensures AppleSignInAsWritten(t, token, accountId, Ok(ident), hex) == SignIn(t, Err(CreateFailed))
  {
  }

  /** The smallest witness: the very first Apple sign-in on empty tables answers 500. */
  lemma FirstAppleUserRefused()
    ensures var t := Tables([], [], 1, 1);
      AppleSignInAsWritten(t, Some("token"), None, Ok(AppleIdentity("001", Some("a@example.com"), BoolClaim(true))), "0000000000")
        == SignIn(t, Err(CreateFailed))
  {
    var t := Tables([], [], 1, 1);
    FirstSignInAlwaysFails(t, Some("token"), None, AppleIdentity("001", Some("a@example.com"), BoolClaim(true)), "0000000000");
  }
}

=== FILE: asset_views.dfy ===
/**
 * The asset listings (asset/views.py): the asset groups of a book with the book's
 * net worth, and the assets of a book. Balances are integer cents; a credit
 * account carries its balance as a liability.
 */
module AssetViews {
  import opened Common
  import opened Ledger

  /** An asset row: its group may be unset (`SET_NULL`). */
  datatype Asset = Asset(id: int, group: Option<int>, balance: int, isCredit: bool)

  /** An asset group row: its book may be unset (`SET_NULL`). */
  datatype AssetGroup = AssetGroup(id: int, book: Option<int>)

  /** `AssetGroupList.get_queryset`: all groups, or those of `book_id` when one is given. */
  function GroupsOf(groups: seq<AssetGroup>, bookId: Option<int>): (out: seq<AssetGroup>)
    ensures forall g :: g in out <==> g in groups && (bookId.Some? ==> g.book == bookId)
    ensures IsSubsequence(out, groups)
  {
    KeepIsSubsequence(groups, (g: AssetGroup) => bookId.Some? ==> g.book == bookId);
    Keep(groups, (g: AssetGroup) => bookId.Some? ==> g.book == bookId)
  }

  /** `group__in=queryset`: the asset's group is one of `gs`. */
  predicate InGroups(a: Asset, gs: seq<AssetGroup>) {
    a.group.Some? && exists i :: 0 <= i < |gs| && gs[i].id == a.group.value
  }

  /** The balances of the assets whose credit flag is `credit`. */
  function BalanceSum(xs: seq<Asset>, credit: bool): int {
    if xs == [] then 0
    else BalanceSum(xs[..|xs| - 1], credit) + (if xs[|xs| - 1].isCredit == credit then xs[|xs| - 1].balance else 0)
  }

  /** All balances, credit or not. */
  function TotalBalance(xs: seq<Asset>): int {
    if xs == [] then 0 else TotalBalance(xs[..|xs| - 1]) + xs[|xs| - 1].balance
  }

  /**
   * `Sum(Case(When(is_credit=credit, then=F('balance')), default=0))`: NULL over no
   * rows, otherwise the balances of the matching rows with 0 for the others.
   */
  function Aggregate(xs: seq<Asset>, credit: bool): (r: Option<int>)
    ensures r.None? <==> xs == []
  {
    if xs == [] then None else Some(BalanceSum(xs, credit))
  }

  datatype NetWorth = NetWorth(groups: seq<AssetGroup>, assets: int, liabilities: int, net: int)

  /** `AssetGroupList.list`: the selected groups and the figures over their assets. */
  function GroupList(groups: seq<AssetGroup>, all: seq<Asset>, bookId: Option<int>): (r: NetWorth)
    ensures r.groups == GroupsOf(groups, bookId)
    ensures r.assets == BalanceSum(CountedAssets(groups, all, bookId), false)
    ensures r.liabilities == BalanceSum(CountedAssets(groups, all, bookId), true)
    ensures r.net == r.assets + r.liabilities
  {
    var gs := GroupsOf(groups, bookId);
    var xs := CountedAssets(groups, all, bookId);
    var assets := Aggregate(xs, false).GetOr(0);
    var liabilities := Aggregate(xs, true).GetOr(0);
    NetWorth(gs, assets, liabilities, assets + liabilities)
  }

  /** The assets the figures are taken over. */
  function CountedAssets(groups: seq<AssetGroup>, all: seq<Asset>, bookId: Option<int>): (xs: seq<Asset>)
    ensures forall a :: a in xs <==> a in all && InGroups(a, GroupsOf(groups, bookId))
  {
    Keep(all, a => InGroups(a, GroupsOf(groups, bookId)))
  }

  /** Credit and non-credit partition the assets: together they hold every balance once. */
  lemma {:induction false} CreditPartition(xs: seq<Asset>)
    ensures BalanceSum(xs, false) + BalanceSum(xs, true) == TotalBalance(xs)
  {
    if xs != [] {
      CreditPartition(xs[..|xs| - 1]);
    }
  }

  /** The net worth is the sum of every counted balance. */
  lemma NetIsTotal(groups: seq<AssetGroup>, all: seq<Asset>, bookId: Option<int>)
    ensures GroupList(groups, all, bookId).net == TotalBalance(CountedAssets(groups, all, bookId))
  {
    CreditPartition(CountedAssets(groups, all, bookId));
  }

  /** With no asset in the selected groups, all three figures are 0. */
  lemma NoAssetsAllZero(groups: seq<AssetGroup>, all: seq<Asset>, bookId: Option<int>)
    requires forall a :: a in all ==> !InGroups(a, GroupsOf(groups, bookId))
    ensures var r := GroupList(groups, all, bookId); r.assets == 0 && r.liabilities == 0 && r.net == 0
  {
    NoMemberEmpty(CountedAssets(groups, all, bookId));
  }

  /** `group__book_id=book_id`: the asset's group exists and belongs to the book. */
  predicate OfBook(a: Asset, groups: seq<AssetGroup>, id: int) {
    a.group.Some? && exists i :: 0 <= i < |groups| && groups[i].id == a.group.value && groups[i].book == Some(id)
  }

  /**
   * `AssetList.get_queryset`: all assets without `book_id`; otherwise the book must
   * exist, and the assets whose group belongs to it are listed.
   */
  function AssetList(books: map<int, Book>, groups: seq<AssetGroup>, all: seq<Asset>, bookId: Option<int>)
    : (r: Result<seq<Asset>>)
    ensures bookId.None? ==> r == Ok(all)
    ensures r.Err? <==> bookId.Some? && bookId.value !in books
    ensures r.Err? ==> r.error == BadRequest("Book not found")
    ensures r.Ok? && bookId.Some? ==> forall a :: a in r.value <==> a in all && OfBook(a, groups, bookId.value)
    ensures r.Ok? ==> IsSubsequence(r.value, all)
  {
    match bookId
    case None =>
      KeepIsSubsequence(all, (a: Asset) => true);
      KeepAll(all);
      Ok(all)
    case Some(id) =>
      if id !in books then Err(BadRequest("Book not found"))
      else
        KeepIsSubsequence(all, a => OfBook(a, groups, id));
        Ok(Keep(all, a => OfBook(a, groups, id)))
  }

  /**
   * The two views agree on a book: an asset the list shows for an existing book is
   * one whose balance the book's net worth counts, and conversely.
   */
  lemma ListMatchesNetWorth(books: map<int, Book>, groups: seq<AssetGroup>, all: seq<Asset>, id: int, a: Asset)
    requires id in books
    ensures a in AssetList(books, groups, all, Some(id)).value <==> a in CountedAssets(groups, all, Some(id))
  {
    var gs := GroupsOf(groups, Some(id));
    if OfBook(a, groups, id) {
      var i :| 0 <= i < |groups| && groups[i].id == a.group.value && groups[i].book == Some(id);
      assert groups[i] in gs;
      var j :| 0 <= j < |gs| && gs[j] == groups[i];
    }
    if InGroups(a, gs) {
      var j :| 0 <= j < |gs| && gs[j].id == a.group.value;
      assert gs[j] in groups;
      var i :| 0 <= i < |groups| && groups[i] == gs[j];
    }
  }
}

=== FILE: avatar_field.dfy ===
/**
 * The avatar field of the account serializer (user/serializers.py:10-39): a data URL
 * of section 3 of RFC 2397 whose payload is base64 (section 4 of RFC 4648) is read
 * into an image file named after the media subtype, and stored bytes are written
 * back as a JPEG data URL.
 */
module AvatarField {
  import opened Common
  import opened Base64

  // ---------------------------------------------------------------- str.split

  /** The first position at or after `i` where `sep` occurs. */
  function FirstOccurrence(s: string, sep: string, i: nat): (r: Option<nat>)
    requires i <= |s|
    ensures r.Some? ==> i <= r.value && OccursAt(s, sep, r.value)
    ensures r.Some? ==> forall j :: i <= j < r.value ==> !OccursAt(s, sep, j)
    ensures r.None? ==> forall j :: i <= j <= |s| ==> !OccursAt(s, sep, j)
    decreases |s| - i
  {
    if OccursAt(s, sep, i) then Some(i)
    else if i == |s| then None
    else FirstOccurrence(s, sep, i + 1)
  }

  /** The parts joined back with `sep` between neighbours: Python's `sep.join(parts)`. */
  function Join(parts: seq<string>, sep: string): string
    requires |parts| >= 1
  {
    if |parts| == 1 then parts[0] else parts[0] + sep + Join(parts[1..], sep)
  }

  /**
   * Python's `s.split(sep)` for a non-empty separator: the text between the
   * occurrences of `sep` found from left to right.
   */
  function SplitOn(s: string, sep: string): (parts: seq<string>)
    requires |sep| > 0
    ensures |parts| >= 1
    ensures Join(parts, sep) == s
    ensures forall k :: 0 <= k < |parts| ==> !Contains(parts[k], sep)
    decreases |s|
  {
    match FirstOccurrence(s, sep, 0)
    case None =>
      assert forall j | 0 <= j <= |s| :: !OccursAt(s, sep, j);
      [s]
    case Some(i) =>
      var rest := SplitOn(s[i + |sep|..], sep);
      HeadFree(s, sep, i);
      JoinCons(s[..i], rest, sep);
      assert s == s[..i] + sep + s[i + |sep|..];
      [s[..i]] + rest
  }

  /** The text before the first occurrence holds none. */
  lemma HeadFree(s: string, sep: string, i: nat)
    requires |sep| > 0 && FirstOccurrence(s, sep, 0) == Some(i)
    ensures !Contains(s[..i], sep)
  {
    var head := s[..i];
    forall j | 0 <= j <= |head|
      ensures !OccursAt(head, sep, j)
    {
      if j + |sep| <= |head| {
        assert head[j..j + |sep|] == s[j..j + |sep|];
        assert !OccursAt(s, sep, j);
      }
    }
  }

  /** Joining a part in front of more parts puts the separator between them. */
  lemma JoinCons(head: string, rest: seq<string>, sep: string)
    requires |rest| >= 1
    ensures Join([head] + rest, sep) == head + sep + Join(rest, sep)
  {
    assert ([head] + rest)[1..] == rest;
  }

  /** A string without ';' holds no occurrence of a separator that starts with ';'. */
  lemma NoOccurrence(s: string, sep: string)
    requires |sep| > 0 && sep[0] == ';' && ';' !in s
    ensures FirstOccurrence(s, sep, 0).None?
  {
    forall j | 0 <= j <= |s|
      ensures !OccursAt(s, sep, j)
    {
      if j < |s| {
        assert s[j] != sep[0];
      }
    }
  }

  // ---------------------------------------------------------------- the field

  const DataPrefix := "data:image"
  const Separator := ";base64,"
  const JpegHeader := "data:image/jpg"

  /** What a request may carry: text, or an uploaded file's bytes. */
  datatype AvatarInput = Text(s: string) | Upload(content: seq<Byte>)

  datatype ImageFile = ImageFile(name: string, content: seq<Byte>)

  /** A decoded data URL, or the input handed unchanged to the image field underneath. */
  datatype Internal = Decoded(file: ImageFile) | PassedOn(input: AvatarInput)

  /** The raising of `ValueError` when the split does not give two parts. */
  const UnpackError := ServerError("ValueError: wrong number of values to unpack")
  /** The raising of `binascii.Error` on a malformed payload. */
  const PaddingError := ServerError("binascii.Error: Incorrect padding")

  /**
   * `Base64ImageField.to_internal_value`: text starting with "data:image" must split
   * at ";base64," into a header and a payload; the payload is decoded and named
   * "temp." followed by the text after the header's last '/'. Anything else is
   * passed on unchanged.
   */
  function ToInternalValue(data: AvatarInput): (r: Result<Internal>)
    ensures !(data.Text? && StartsWith(data.s, DataPrefix)) ==> r == Ok(PassedOn(data))
    ensures data.Text? && StartsWith(data.s, DataPrefix) ==> r.Err? || r.value.Decoded?
    ensures data.Text? && StartsWith(data.s, DataPrefix) && |SplitOn(data.s, Separator)| != 2 ==> r == Err(UnpackError)
    ensures r.Ok? && r.value.Decoded? ==>
      var parts := SplitOn(data.s, Separator);
      && |parts| == 2
      && data.s == parts[0] + Separator + parts[1]
      && !Contains(parts[0], Separator) && !Contains(parts[1], Separator)
      && r.value.file.name == "temp." + AfterLast(parts[0], '/')
      && Decode(parts[1]) == Some(r.value.file.content)
  {
    if data.Text? && StartsWith(data.s, DataPrefix) then
      var parts := SplitOn(data.s, Separator);
      if |parts| != 2 then Err(UnpackError)
      else
        assert parts[1..] == [parts[1]];
        match Decode(parts[1])
        case None => Err(PaddingError)
        case Some(bytes) => Ok(Decoded(ImageFile("temp." + AfterLast(parts[0], '/'), bytes)))
    else Ok(PassedOn(data))
  }

  /**
   * `Base64ImageField.to_representation`: no bytes or empty bytes give nothing;
   * otherwise a JPEG data URL carrying the base64 of the bytes.
   */
  function ToRepresentation(value: Option<seq<Byte>>): (r: Option<string>)
    ensures r.None? <==> value.None? || value.value == []
    ensures r.Some? ==> r.value == JpegHeader + Separator + Encode(value.value)
  {
    if value.None? || value.value == [] then None
    else Some(JpegHeader + Separator + Encode(value.value))
  }

  /** A header and a payload free of ';' split back apart at the separator. */
  lemma SplitAround(header: string, payload: string)
    requires ';' !in header && ';' !in payload
    ensures SplitOn(header + Separator + payload, Separator) == [header, payload]
  {
    var s := header + Separator + payload;
    var n := |header|;
    assert s[n..n + |Separator|] == Separator;
    var f := FirstOccurrence(s, Separator, 0);
    assert Separator[0] == ';';
    forall j | 0 <= j < n
      ensures !OccursAt(s, Separator, j)
    {
      assert s[j] == header[j];
      assert s[j] != Separator[0];
    }
    assert OccursAt(s, Separator, n);
    assert f == Some(n);
    assert s[n + |Separator|..] == payload;
    NoOccurrence(payload, Separator);
  }

  /** No base64 text holds a ';'. */
  lemma NoSemicolon(bs: seq<Byte>)
    ensures ';' !in Encode(bs)
  {
    EncodeAlphabet(bs);
    assert CharIndex(';').None?;
    forall i | 0 <= i < |Encode(bs)|
      ensures Encode(bs)[i] != ';'
    {
    }
  }

  /** The name given to a file read from the header the field writes. */
  lemma JpegName()
    ensures "temp." + AfterLast(JpegHeader, '/') == "temp.jpg"
  {
    assert JpegHeader[10] == '/';
    assert forall i :: 0 <= i < |JpegHeader| && i != 10 ==> JpegHeader[i] != '/';
    assert AfterLast(JpegHeader, '/') == "jpg";
  }

  /** The URL the field writes splits into the JPEG header and the base64 text. */
  lemma WrittenSplits(bs: seq<Byte>)
    ensures StartsWith(JpegHeader + Separator + Encode(bs), DataPrefix)
    ensures SplitOn(JpegHeader + Separator + Encode(bs), Separator) == [JpegHeader, Encode(bs)]
  {
    var s := JpegHeader + Separator + Encode(bs);
    assert s[..|DataPrefix|] == DataPrefix;
    NoSemicolon(bs);
    assert ';' !in JpegHeader;
    SplitAround(JpegHeader, Encode(bs));
  }

  /** A data URL that splits into a header and a payload in base64 reads as that payload. */
  lemma ReadsAs(s: string, header: string, payload: string, bytes: seq<Byte>)
    requires StartsWith(s, DataPrefix)
    requires SplitOn(s, Separator) == [header, payload]
    requires Decode(payload) == Some(bytes)
    ensures ToInternalValue(Text(s)) == Ok(Decoded(ImageFile("temp." + AfterLast(header, '/'), bytes)))
  {
  }

  /**
   * Round trip: reading back what the field writes gives a file named "temp.jpg"
   * holding the original bytes.
   */
  lemma RoundTrip(bs: seq<Byte>)
    requires bs != []
    ensures ToInternalValue(Text(ToRepresentation(Some(bs)).value)) == Ok(Decoded(ImageFile("temp.jpg", bs)))
  {
    var s := JpegHeader + Separator + Encode(bs);
    WrittenSplits(bs);
    DecodeEncode(bs);
    JpegName();
    ReadsAs(s, JpegHeader, Encode(bs), bs);
  }
}

=== FILE: base64.dfy ===
/**
 * The base64 encoding of section 4 of RFC 4648, as `base64.b64encode` writes it and
 * `base64.b64decode` reads it: every 3 bytes become 4 characters of the 64-character
 * alphabet, and a final group of 1 or 2 bytes is padded with '=' to 4 characters.
 */
module Base64 {
  import opened Common

  type Byte = b: int | 0 <= b < 256

  /** Table 1 of RFC 4648: the character for a 6-bit value. */
  function IndexChar(i: int): (c: char)
    requires 0 <= i < 64
  {
    if i < 26 then ('A' as int + i) as char
    else if i < 52 then ('a' as int + i - 26) as char
    else if i < 62 then ('0' as int + i - 52) as char
    else if i == 62 then '+'
    else '/'
  }

  /** The 6-bit value of an alphabet character; `None` for any other character, '=' included. */
  function CharIndex(c: char): (r: Option<int>)
    ensures r.Some? ==> 0 <= r.value < 64 && IndexChar(r.value) == c
  {
    if 'A' <= c <= 'Z' then Some(c as int - 'A' as int)
    else if 'a' <= c <= 'z' then Some(c as int - 'a' as int + 26)
    else if '0' <= c <= '9' then Some(c as int - '0' as int + 52)
    else if c == '+' then Some(62)
    else if c == '/' then Some(63)
    else None
  }

  lemma CharIndexOf(i: int)
    requires 0 <= i < 64
    ensures CharIndex(IndexChar(i)) == Some(i)
    ensures IndexChar(i) != '=' && IndexChar(i) != ';'
  {
  }

  /** The division facts for the divisors the codec uses. */
  lemma DivMod64(x: int, q: int, r: int)
    requires x == q * 64 + r && 0 <= r < 64
    ensures x / 64 == q && x % 64 == r
  {
  }

  lemma DivMod256(x: int, q: int, r: int)
    requires x == q * 0x100 + r && 0 <= r < 0x100
    ensures x / 0x100 == q && x % 0x100 == r
  {
  }

  lemma DivMod4096(x: int, q: int, r: int)
    requires x == q * 0x1000 + r && 0 <= r < 0x1000
    ensures x / 0x1000 == q && x % 0x1000 == r
  {
  }

  lemma DivMod65536(x: int, q: int, r: int)
    requires x == q * 0x1_0000 + r && 0 <= r < 0x1_0000
    ensures x / 0x1_0000 == q && x % 0x1_0000 == r
  {
  }

  /** Four characters for a 24-bit group `n`, most significant 6 bits first. */
  function Quad(n: int): (s: string)
    requires 0 <= n < 0x100_0000
    ensures |s| == 4
    ensures forall i :: 0 <= i < 4 ==> CharIndex(s[i]).Some?
  {
    CharIndexOf(n / 64 / 64 / 64);
    CharIndexOf(n / 64 / 64 % 64);
    CharIndexOf(n / 64 % 64);
    CharIndexOf(n % 64);
    [IndexChar(n / 64 / 64 / 64), IndexChar(n / 64 / 64 % 64), IndexChar(n / 64 % 64), IndexChar(n % 64)]
  }

  /** The 24-bit group of three bytes, the first most significant. */
  function Group(a: Byte, b: Byte, c: Byte): (n: int)
    ensures 0 <= n < 0x100_0000
  {
    a as int * 0x1_0000 + b as int * 0x100 + c
  }

  /** Each further group of three bytes adds four characters. */
  lemma EncodedLength(n: nat)
    ensures (n + 3 + 2) / 3 * 4 == (n + 2) / 3 * 4 + 4
  {
  }

  /** `base64.b64encode(bs)`. */
  function Encode(bs: seq<Byte>): (s: string)
    ensures |s| == (|bs| + 2) / 3 * 4
    decreases |bs|
  {
    if bs == [] then []
    else if |bs| == 1 then
      Quad(Group(bs[0], 0, 0))[..2] + "=="
    else if |bs| == 2 then
      Quad(Group(bs[0], bs[1], 0))[..3] + "="
    else
      var rest := Encode(bs[3..]);
      EncodedLength(|bs| - 3);
      Quad(Group(bs[0], bs[1], bs[2])) + rest
  }

  /** The 24-bit value of four alphabet characters, or `None`. */
  function Unquad(a: char, b: char, c: char, d: char): (r: Option<int>)
    ensures r.Some? ==> 0 <= r.value < 0x100_0000
  {
    match (CharIndex(a), CharIndex(b), CharIndex(c), CharIndex(d))
    case (Some(i), Some(j), Some(k), Some(l)) => Some(((i * 64 + j) * 64 + k) * 64 + l)
    case _ => None
  }

  /** The three bytes of a 24-bit group. */
  function Bytes3(n: int): (bs: seq<Byte>)
    requires 0 <= n < 0x100_0000
    ensures |bs| == 3
  {
    [n / 0x1_0000, n / 0x100 % 0x100, n % 0x100]
  }

  /** The last four characters: a full group, or one padded with '=' or "==". */
  function DecodeLast(a: char, b: char, c: char, d: char): (r: Option<seq<Byte>>)
    ensures r.Some? ==> 1 <= |r.value| <= 3
    ensures r.Some? ==> CharIndex(a).Some? && CharIndex(b).Some?
    ensures r.Some? ==> (CharIndex(c).Some? || c == '=') && (CharIndex(d).Some? || d == '=')
  {
    if c == '=' && d == '=' then
      match Unquad(a, b, 'A', 'A')
      case Some(n) => Some(Bytes3(n)[..1])
      case None => None
    else if d == '=' then
      match Unquad(a, b, c, 'A')
      case Some(n) => Some(Bytes3(n)[..2])
      case None => None
    else
      match Unquad(a, b, c, d)
      case Some(n) => Some(Bytes3(n))
      case None => None
  }

  /**
   * `base64.b64decode(s)` on text of alphabet characters and final padding: the text
   * must come in groups of four, and '=' may only pad the last group.
   */
  function Decode(s: string): (r: Option<seq<Byte>>)
    ensures |s| % 4 != 0 ==> r.None?
    ensures r.Some? ==> |s| / 4 * 3 - 2 <= |r.value| <= |s| / 4 * 3
    ensures forall i :: 0 <= i < |s| && CharIndex(s[i]).None? && s[i] != '=' ==> r.None?
    decreases |s|
  {
    if s == [] then Some([])
    else if |s| < 4 then None
    else if |s| == 4 then DecodeLast(s[0], s[1], s[2], s[3])
    else
      DecodedLength(|s| - 4);
      match Unquad(s[0], s[1], s[2], s[3])
      case None => None
      case Some(n) =>
        match Decode(s[4..])
        case None => None
        case Some(rest) =>
          assert forall i :: 4 <= i < |s| ==> s[i] == s[4..][i - 4];
          Some(Bytes3(n) + rest)
  }

  /** Each further group of four characters adds three bytes. */
  lemma DecodedLength(n: nat)
    ensures (n + 4) / 4 * 3 == n / 4 * 3 + 3 && (n + 4) % 4 == n % 4
  {
  }

  /** Splitting a group into four 6-bit values and joining them gives the group back. */
  lemma QuadRoundTrip(n: int)
    requires 0 <= n < 0x100_0000
    ensures var q := Quad(n); Unquad(q[0], q[1], q[2], q[3]) == Some(n)
  {
    var i, j, k, l := n / 64 / 64 / 64, n / 64 / 64 % 64, n / 64 % 64, n % 64;
    CharIndexOf(i);
    CharIndexOf(j);
    CharIndexOf(k);
    CharIndexOf(l);
    DivMod64(n, n / 64, l);
    DivMod64(n / 64, n / 64 / 64, k);
    DivMod64(n / 64 / 64, n / 64 / 64 / 64, j);
  }

  /** The bytes of a group built from three bytes are those bytes. */
  lemma Bytes3RoundTrip(a: Byte, b: Byte, c: Byte)
    ensures Bytes3(Group(a, b, c)) == [a, b, c]
  {
    var n := Group(a, b, c);
    DivMod256(n, a as int * 0x100 + b, c);
    DivMod256(a as int * 0x100 + b, a, b);
    DivMod65536(n, a, b as int * 0x100 + c);
  }

  /** Zeroing the low 6 or 12 bits of a padded group leaves its characters as written. */
  lemma PaddedQuad(n: int, keep: nat)
    requires 0 <= n < 0x100_0000
    requires (keep == 2 && n % 0x1000 == 0) || (keep == 3 && n % 64 == 0)
    ensures var q := Quad(n);
      keep == 2 ==> Unquad(q[0], q[1], 'A', 'A') == Some(n)
    ensures var q := Quad(n);
      keep == 3 ==> Unquad(q[0], q[1], q[2], 'A') == Some(n)
  {
    QuadRoundTrip(n);
    assert IndexChar(0) == 'A';
    if keep == 2 {
      DivMod4096(n, n / 0x1000, 0);
      DivMod64(n, n / 0x1000 * 64, 0);
      DivMod64(n / 64, n / 0x1000, 0);
    } else {
      DivMod64(n, n / 64, 0);
    }
  }

  /** Four characters are read as the last group. */
  lemma DecodeFour(s: string)
    requires |s| == 4
    ensures Decode(s) == DecodeLast(s[0], s[1], s[2], s[3])
  {
  }

  lemma DecodeEncodeOne(a: Byte)
    ensures Decode(Encode([a])) == Some([a])
  {
    var n := Group(a, 0, 0);
    var q := Quad(n);
    assert Unquad(q[0], q[1], 'A', 'A') == Some(n) by {
      DivMod4096(n, a as int * 0x10, 0);
      PaddedQuad(n, 2);
    }
    assert Bytes3(n)[..1] == [a] by {
      Bytes3RoundTrip(a, 0, 0);
    }
    var s := Encode([a]);
    assert s == q[..2] + "==";
    assert s[0] == q[0] && s[1] == q[1] && s[2] == '=' && s[3] == '=';
    DecodeFour(s);
  }

  /** The padded group of two bytes reads back as their group. */
  lemma PaddedTwo(a: Byte, b: Byte)
    ensures var q := Quad(Group(a, b, 0)); Unquad(q[0], q[1], q[2], 'A') == Some(Group(a, b, 0))
    ensures Quad(Group(a, b, 0))[2] != '='
  {
    var n := Group(a, b, 0);
    DivMod64(n, a as int * 0x400 + b as int * 4, 0);
    PaddedQuad(n, 3);
    assert CharIndex(Quad(n)[2]).Some?;
  }

  lemma DecodeEncodeTwo(a: Byte, b: Byte)
    ensures Decode(Encode([a, b])) == Some([a, b])
  {
    var n := Group(a, b, 0);
    var q := Quad(n);
    PaddedTwo(a, b);
    assert Bytes3(n)[..2] == [a, b] by {
      Bytes3RoundTrip(a, b, 0);
    }
    var s := Encode([a, b]);
    assert s == q[..3] + "=";
    assert s[0] == q[0] && s[1] == q[1] && s[2] == q[2] && s[3] == '=';
    DecodeFour(s);
    assert DecodeLast(q[0], q[1], q[2], '=') == Some(Bytes3(n)[..2]);
  }

  /** Four unpadded characters in front of `t` decode to their three bytes in front of `t`'s bytes. */
  lemma DecodeCons(q: string, t: string, n: int)
    requires |q| == 4 && 0 <= n < 0x100_0000
    requires Unquad(q[0], q[1], q[2], q[3]) == Some(n) && q[2] != '=' && q[3] != '='
    ensures Decode(q + t) == match Decode(t) case None => None case Some(u) => Some(Bytes3(n) + u)
  {
    var s := q + t;
    assert s[0] == q[0] && s[1] == q[1] && s[2] == q[2] && s[3] == q[3];
    if t == [] {
      assert s == q;
      assert Bytes3(n) + [] == Bytes3(n);
    } else {
      assert s[4..] == t;
    }
  }

  /** A full group followed by the encoding of the rest decodes group by group. */
  lemma DecodeGroup(a: Byte, b: Byte, c: Byte, rest: seq<Byte>)
    ensures Decode(Encode([a, b, c] + rest)) ==
      match Decode(Encode(rest)) case None => None case Some(t) => Some([a, b, c] + t)
  {
    var bs := [a, b, c] + rest;
    var n := Group(a, b, c);
    var q := Quad(n);
    assert Unquad(q[0], q[1], q[2], q[3]) == Some(n) by {
      QuadRoundTrip(n);
    }
    assert Bytes3(n) == [a, b, c] by {
      Bytes3RoundTrip(a, b, c);
    }
    assert q[2] != '=' && q[3] != '=' by {
      assert CharIndex(q[2]).Some? && CharIndex(q[3]).Some?;
    }
    assert bs[0] == a && bs[1] == b && bs[2] == c && bs[3..] == rest;
    assert Encode(bs) == q + Encode(rest);
    DecodeCons(q, Encode(rest), n);
  }

  /** Round trip: decoding what `b64encode` wrote gives the bytes back. */
  lemma {:induction false} DecodeEncode(bs: seq<Byte>)
    ensures Decode(Encode(bs)) == Some(bs)
    decreases |bs|
  {
    if |bs| == 1 {
      assert bs == [bs[0]];
      DecodeEncodeOne(bs[0]);
    } else if |bs| == 2 {
      assert bs == [bs[0], bs[1]];
      DecodeEncodeTwo(bs[0], bs[1]);
    } else if |bs| >= 3 {
      assert bs == [bs[0], bs[1], bs[2]] + bs[3..];
      DecodeEncode(bs[3..]);
      DecodeGroup(bs[0], bs[1], bs[2], bs[3..]);
    }
  }

  /** Every character written is an alphabet character or the '=' padding. */
  lemma {:induction false} EncodeAlphabet(bs: seq<Byte>)
    ensures forall i :: 0 <= i < |Encode(bs)| ==> Encode(bs)[i] == '=' || CharIndex(Encode(bs)[i]).Some?
    decreases |bs|
  {
    if |bs| >= 3 {
      EncodeAlphabet(bs[3..]);
      var q := Quad(Group(bs[0], bs[1], bs[2]));
      assert Encode(bs) == q + Encode(bs[3..]);
      assert forall i :: 4 <= i < |Encode(bs)| ==> Encode(bs)[i] == Encode(bs[3..])[i - 4];
    }
  }

  /** Encoding is injective: different bytes never share a base64 text. */
  lemma EncodeInjective(a: seq<Byte>, b: seq<Byte>)
    requires Encode(a) == Encode(b)
    ensures a == b
  {
    DecodeEncode(a);
    DecodeEncode(b);
  }
}

=== FILE: book_views.dfy ===
/**
 * The book endpoints (book/views.py): a user lists and creates their books, and reads,
 * updates and deletes one book by primary key. Only the owner may see or change a
 * book; another user's book answers "not found" to a read and "wrong credential" to
 * a write.
 */
module BookViews {
  import opened Common
  import opened Ledger

  /** The book table with its next primary key, which is above every key in use. */
  datatype BookTable = BookTable(books: map<int, Book>, nextId: int)

  type Store = s: BookTable | forall k :: k in s.books ==> k < s.nextId witness BookTable(map[], 0)

  const NoBookFound := NotFound("No book found")
  const NotFoundPage := NotFound("Not found.")
  const WrongCredential := Unauthorized("Wrong credential")
  const InvalidBook := BadRequest("invalid book data")

  /** `BookList.get`: the requester's books, or 404 when they have none. */
  function ListBooks(store: Store, user: int): (r: Result<map<int, Book>>)
    ensures r.Err? <==> forall k :: k in store.books ==> store.books[k].owner != user
    ensures r.Err? ==> r.error == NoBookFound
    ensures r.Ok? ==> forall k :: k in r.value <==> k in store.books && store.books[k].owner == user
    ensures r.Ok? ==> forall k :: k in r.value ==> r.value[k] == store.books[k]
  {
    var mine := map k | k in store.books && store.books[k].owner == user :: store.books[k];
    if mine == map[] then
      assert forall k :: k in store.books ==> store.books[k].owner != user by {
        assert forall k :: k in store.books && store.books[k].owner == user ==> k in mine;
      }
      Err(NoBookFound)
    else Ok(mine)
  }

  /** The fields a request may carry; `None` means the field is absent. */
  datatype BookInput = BookInput(name: Option<string>, note: Option<string>, monthlyGoal: Option<Option<int>>)

  /** A DECIMAL(12, 2) amount in cents has at most 12 digits. */
  predicate GoalFits(goal: Option<int>) {
    goal.Some? ==> -1_000_000_000_000 < goal.value < 1_000_000_000_000
  }

  /**
   * The serializer's rules for the fields a request supplies: a non-blank name of at
   * most 200 characters, a note of at most 500, a goal that fits the column.
   */
  predicate ValidInput(input: BookInput) {
    && (input.name.Some? ==> 0 < |input.name.value| <= 200)
    && (input.note.Some? ==> |input.note.value| <= 500)
    && (input.monthlyGoal.Some? ==> GoalFits(input.monthlyGoal.value))
  }

  /** The supplied fields written over `b`; the owner is read-only. */
  function Overlay(b: Book, input: BookInput): (r: Book)
    ensures r.owner == b.owner
    ensures r.name == input.name.GetOr(b.name)
    ensures r.note == input.note.GetOr(b.note)
    ensures r.monthlyGoal == input.monthlyGoal.GetOr(b.monthlyGoal)
  {
    Book(b.owner, input.name.GetOr(b.name), input.note.GetOr(b.note), input.monthlyGoal.GetOr(b.monthlyGoal))
  }

  /** A new book's fields before the request is applied: an empty note and no goal. */
  function Defaults(user: int): Book {
    Book(user, "", "", None)
  }

  datatype Write = Write(store: Store, response: Result<int>)

  /**
   * `BookList.post`: a valid request, which must name the book, creates a book owned by
   * the requester under the next primary key; an invalid one changes nothing.
   */
  function CreateBook(store: Store, user: int, input: BookInput): (r: Write)
    ensures r.response.Ok? <==> input.name.Some? && ValidInput(input)
    ensures r.response.Err? ==> r.store == store && r.response.error == InvalidBook
    ensures r.response.Ok? ==>
      var id := r.response.value;
      && id !in store.books
      && r.store.books == store.books[id := Overlay(Defaults(user), input)]
      && r.store.books[id].owner == user
  {
    if input.name.None? || !ValidInput(input) then Write(store, Err(InvalidBook))
    else Write(BookTable(store.books[store.nextId := Overlay(Defaults(user), input)], store.nextId + 1), Ok(store.nextId))
  }

  /** `BookDetail.get`: a missing book and another user's book both answer 404. */
  function GetBook(store: Store, user: int, pk: int): (r: Result<Book>)
    ensures r.Ok? <==> pk in store.books && store.books[pk].owner == user
    ensures r.Ok? ==> r.value == store.books[pk]
    ensures r.Err? ==> r.error.NotFound?
  {
    if pk !in store.books then Err(NotFoundPage)
    else if store.books[pk].owner != user then Err(NoBookFound)
    else Ok(store.books[pk])
  }

  /**
   * `BookDetail.put`: the owner's valid request overwrites the supplied fields only;
   * any other request leaves the table as it is.
   */
  function UpdateBook(store: Store, user: int, pk: int, input: BookInput): (r: Write)
    ensures pk !in store.books ==> r.response == Err(NotFoundPage)
    ensures pk in store.books && store.books[pk].owner != user ==> r.response == Err(WrongCredential)
    ensures r.response.Err? ==> r.store == store
    ensures pk in store.books && store.books[pk].owner == user ==> (r.response.Ok? <==> ValidInput(input))
    ensures r.response.Ok? ==> pk in store.books && store.books[pk].owner == user
    ensures r.response.Ok? ==> r.response.value == pk && r.store.books == store.books[pk := Overlay(store.books[pk], input)]
  {
    if pk !in store.books then Write(store, Err(NotFoundPage))
    else if store.books[pk].owner != user then Write(store, Err(WrongCredential))
    else if !ValidInput(input) then Write(store, Err(InvalidBook))
    else Write(BookTable(store.books[pk := Overlay(store.books[pk], input)], store.nextId), Ok(pk))
  }

  /** `BookDetail.delete`: only the owner removes the book, and only that book. */
  function DeleteBook(store: Store, user: int, pk: int): (r: Write)
    ensures pk !in store.books ==> r.response == Err(NotFoundPage)
    ensures pk in store.books && store.books[pk].owner != user ==> r.response == Err(WrongCredential)
    ensures r.response.Err? ==> r.store == store
    ensures r.response.Ok? <==> pk in store.books && store.books[pk].owner == user
    ensures r.response.Ok? ==> r.store.books == store.books - {pk}
  {
    if pk !in store.books then Write(store, Err(NotFoundPage))
    else if store.books[pk].owner != user then Write(store, Err(WrongCredential))
    else Write(BookTable(store.books - {pk}, store.nextId), Ok(pk))
  }

  /** A created book can be read back by its creator, with the fields the request supplied. */
  lemma CreateThenGet(store: Store, user: int, input: BookInput)
    requires CreateBook(store, user, input).response.Ok?
    ensures var w := CreateBook(store, user, input);
      && GetBook(w.store, user, w.response.value) == Ok(Overlay(Defaults(user), input))
      && w.response.value in ListBooks(w.store, user).value
  {
  }

  /** After the owner deletes a book, reading it answers 404 and the other books are as before. */
  lemma DeleteThenGet(store: Store, user: int, pk: int, other: int)
    requires DeleteBook(store, user, pk).response.Ok?
    requires other != pk
    ensures var w := DeleteBook(store, user, pk);
      && GetBook(w.store, user, pk).Err?
      && GetBook(w.store, user, other) == GetBook(store, user, other)
  {
  }

  /** An update the owner repeats changes nothing the second time. */
  lemma UpdateIdempotent(store: Store, user: int, pk: int, input: BookInput)
    requires UpdateBook(store, user, pk, input).response.Ok?
    ensures var w := UpdateBook(store, user, pk, input);
      UpdateBook(w.store, user, pk, input).store == w.store
  {
  }

  /**
   * Another user can neither observe nor change a book: a read answers 404 as for a
   * missing key, and a write or delete leaves the table unchanged.
   */
  lemma StrangerIsLockedOut(store: Store, user: int, pk: int, input: BookInput)
    requires pk in store.books && store.books[pk].owner != user
    ensures GetBook(store, user, pk).Err? && GetBook(store, user, pk).error.NotFound?
    ensures UpdateBook(store, user, pk, input).store == store
    ensures DeleteBook(store, user, pk).store == store
  {
  }
}

=== FILE: calendar.dfy ===
/**
 * The proleptic Gregorian calendar as Python's `datetime` uses it, in the one
 * time zone every timestamp is already expressed in.
 */
module Calendar {
  import opened Common

  predicate IsLeap(y: int) {
    y % 4 == 0 && (y % 100 != 0 || y % 400 == 0)
  }

  /** `calendar.monthrange(y, m)[1]`. */
  function DaysInMonth(y: int, m: int): (n: int)
    requires 1 <= m <= 12
    ensures 28 <= n <= 31
    ensures n == 29 <==> m == 2 && IsLeap(y)
  {
    if m == 2 then (if IsLeap(y) then 29 else 28)
    else if m == 4 || m == 6 || m == 9 || m == 11 then 30
    else 31
  }

  datatype CivilDate = CivilDate(year: int, month: int, day: int)

  predicate ValidDate(d: CivilDate) {
    1 <= d.month <= 12 && 1 <= d.day <= DaysInMonth(d.year, d.month)
  }

  /** A calendar day, the value of `datetime.date()`. */
  type Date = d: CivilDate | ValidDate(d) witness CivilDate(2000, 1, 1)

  /** Seconds since midnight. */
  type Second = s: int | 0 <= s < 86400

  /** A timestamp: its day and the second within that day. */
  datatype DateTime = DateTime(date: Date, sec: Second)

  function Midnight(d: Date): DateTime {
    DateTime(d, 0)
  }

  // ---------------------------------------------------------------- order

  /** `a` is a strictly earlier day than `b`. */
  predicate DateBefore(a: Date, b: Date) {
    a.year < b.year
    || (a.year == b.year && (a.month < b.month || (a.month == b.month && a.day < b.day)))
  }

  /** `a` is strictly earlier than `b`. */
  predicate Earlier(a: DateTime, b: DateTime) {
    DateBefore(a.date, b.date) || (a.date == b.date && a.sec < b.sec)
  }

  predicate AtOrBefore(a: DateTime, b: DateTime) {
    Earlier(a, b) || a == b
  }

  /** `Earlier` is a strict total order. */
  lemma EarlierTotal(a: DateTime, b: DateTime)
    ensures Earlier(a, b) || a == b || Earlier(b, a)
    ensures !(Earlier(a, b) && Earlier(b, a))
  {
  }

  lemma EarlierTransitive(a: DateTime, b: DateTime, c: DateTime)
    requires Earlier(a, b) && Earlier(b, c)
    ensures Earlier(a, c)
  {
  }

  lemma DateBeforeTransitive(a: Date, b: Date, c: Date)
    requires DateBefore(a, b) && DateBefore(b, c)
    ensures DateBefore(a, c)
  {
  }

  // ---------------------------------------------------------------- day numbers

  /** Days from 0001-01-01 to January 1st of year `y`. */
  function DaysBeforeYear(y: int): int {
    var p := y - 1;
    365 * p + p / 4 - p / 100 + p / 400
  }

  /** Days from January 1st to the first of month `m` (m = 13 gives the year length). */
  function DaysBeforeMonth(y: int, m: int): int
    requires 1 <= m <= 13
  {
    [0, 31, 59, 90, 120, 151, 181, 212, 243, 273, 304, 334, 365][m - 1]
    + (if m > 2 && IsLeap(y) then 1 else 0)
  }

  /** Days since 0001-01-01, Python's `toordinal() - 1`. */
  function DayNumber(d: Date): int {
    DaysBeforeYear(d.year) + DaysBeforeMonth(d.year, d.month) + d.day - 1
  }

  /** `date.weekday()`: Monday is 0 and Sunday is 6 (0001-01-01 was a Monday). */
  function Weekday(d: Date): int {
    DayNumber(d) % 7
  }

  lemma FloorStep(y: int)
    ensures y / 4 - (y - 1) / 4 == (if y % 4 == 0 then 1 else 0)
    ensures y / 100 - (y - 1) / 100 == (if y % 100 == 0 then 1 else 0)
    ensures y / 400 - (y - 1) / 400 == (if y % 400 == 0 then 1 else 0)
  {
  }

  lemma DivisorChain(y: int)
    ensures y % 400 == 0 ==> y % 100 == 0
    ensures y % 100 == 0 ==> y % 4 == 0
  {
    if y % 400 == 0 {
      var j := y / 400 * 4;
      assert y == 100 * j;
      HundredMultiple(j);
    }
    if y % 100 == 0 {
      var j := y / 100 * 25;
      assert y == 4 * j;
      FourMultiple(j);
    }
  }

  lemma HundredMultiple(j: int)
    ensures (100 * j) % 100 == 0
  {
  }

  lemma FourMultiple(j: int)
    ensures (4 * j) % 4 == 0
  {
  }

  lemma {:induction false} YearLength(y: int)
    ensures DaysBeforeMonth(y, 13) == (if IsLeap(y) then 366 else 365)
    ensures DaysBeforeYear(y + 1) == DaysBeforeYear(y) + DaysBeforeMonth(y, 13)
  {
    FloorStep(y);
    DivisorChain(y);
    var p := y - 1;
    assert DaysBeforeYear(y + 1) == 365 * y + y / 4 - y / 100 + y / 400;
    assert DaysBeforeYear(y) == 365 * p + p / 4 - p / 100 + p / 400;
    var leap := (if y % 4 == 0 then 1 else 0) - (if y % 100 == 0 then 1 else 0)
                + (if y % 400 == 0 then 1 else 0);
    assert DaysBeforeYear(y + 1) - DaysBeforeYear(y) == 365 + leap;
    assert leap == (if IsLeap(y) then 1 else 0);
  }

  /** The following day. */
  function NextDay(d: Date): (r: Date)
    ensures DayNumber(r) == DayNumber(d) + 1
    ensures DateBefore(d, r)
  {
    if d.day < DaysInMonth(d.year, d.month) then CivilDate(d.year, d.month, d.day + 1)
    else if d.month < 12 then
      DaysBeforeMonthStep(d.year, d.month);
      CivilDate(d.year, d.month + 1, 1)
    else
      YearLength(d.year);
      CivilDate(d.year + 1, 1, 1)
  }

  /** The preceding day. */
  function PrevDay(d: Date): (r: Date)
    ensures DayNumber(r) == DayNumber(d) - 1
    ensures DateBefore(r, d)
  {
    if d.day > 1 then CivilDate(d.year, d.month, d.day - 1)
    else if d.month > 1 then
      DaysBeforeMonthStep(d.year, d.month - 1);
      CivilDate(d.year, d.month - 1, DaysInMonth(d.year, d.month - 1))
    else
      YearLength(d.year - 1);
      CivilDate(d.year - 1, 12, 31)
  }

  /** `d + timedelta(days=n)`. */
  function AddDays(d: Date, n: int): (r: Date)
    ensures DayNumber(r) == DayNumber(d) + n
    decreases if n < 0 then -n else n
  {
    if n == 0 then d
    else if n > 0 then AddDays(NextDay(d), n - 1)
    else AddDays(PrevDay(d), n + 1)
  }

  lemma DaysBeforeMonthStep(y: int, m: int)
    requires 1 <= m <= 12
    ensures DaysBeforeMonth(y, m) + DaysInMonth(y, m) == DaysBeforeMonth(y, m + 1)
  {
  }

  lemma DaysBeforeMonthMonotone(y: int, m1: int, m2: int)
    requires 1 <= m1 < m2 <= 13
    ensures DaysBeforeMonth(y, m1) + DaysInMonth(y, m1) <= DaysBeforeMonth(y, m2)
  {
  }

  lemma {:induction false} DaysBeforeYearMonotone(y1: int, y2: int)
    requires y1 < y2
    ensures DaysBeforeYear(y1) + DaysBeforeMonth(y1, 13) <= DaysBeforeYear(y2)
    decreases y2 - y1
  {
    YearLength(y1);
    if y1 + 1 < y2 {
      DaysBeforeYearMonotone(y1 + 1, y2);
      YearLength(y1 + 1);
    }
  }

  /** Day numbers order days exactly as the calendar does. */
  lemma {:induction false} DayNumberOrder(a: Date, b: Date)
    ensures DateBefore(a, b) <==> DayNumber(a) < DayNumber(b)
    ensures a == b <==> DayNumber(a) == DayNumber(b)
  {
    if a.year < b.year {
      DaysBeforeYearMonotone(a.year, b.year);
      DaysBeforeMonthMonotone(a.year, a.month, 13);
    } else if b.year < a.year {
      DaysBeforeYearMonotone(b.year, a.year);
      DaysBeforeMonthMonotone(b.year, b.month, 13);
    } else if a.month < b.month {
      DaysBeforeMonthMonotone(a.year, a.month, b.month);
    } else if b.month < a.month {
      DaysBeforeMonthMonotone(b.year, b.month, a.month);
    }
  }

  /**
   * The Monday that `strptime(f"{year}-W{week}-1", "%Y-W%W-%w")` yields: week 1 starts
   * on the year's first Monday and week 0 is the (possibly partial) week before it.
   */
  function WeekStart(year: int, week: int): (r: Date)
    requires 0 <= week <= 53
    ensures Weekday(r) == 0
    ensures week == 0 ==>
      DayNumber(CivilDate(year, 1, 1)) - 6 <= DayNumber(r) <= DayNumber(CivilDate(year, 1, 1))
    ensures week >= 1 ==>
      var first := DayNumber(CivilDate(year, 1, 1)) + 7 * (week - 1);
      first <= DayNumber(r) <= first + 6
  {
    var jan1 := CivilDate(year, 1, 1);
    var first := Weekday(jan1);
    var week0 := (7 - first) % 7;
    var offset := if week == 0 then -first else week0 + 7 * (week - 1);
    var n := DayNumber(jan1);
    MondayOffset(n, week);
    var r := AddDays(jan1, offset);
    assert DayNumber(r) == n + offset;
    assert week == 0 ==> n + offset == n - n % 7;
    assert week != 0 ==> n + offset == n + (7 - n % 7) % 7 + 7 * (week - 1);
    r
  }

  /** Seven consecutive days hold one Monday, so the window above pins the week's start. */
  lemma MondayInWindowUnique(a: Date, b: Date, lo: int)
    requires Weekday(a) == 0 && Weekday(b) == 0
    requires lo <= DayNumber(a) <= lo + 6 && lo <= DayNumber(b) <= lo + 6
    ensures a == b
  {
    var x, y := DayNumber(a), DayNumber(b);
    assert x == 7 * (x / 7) && y == 7 * (y / 7);
    assert -7 < 7 * (x / 7 - y / 7) < 7;
    assert x / 7 == y / 7;
    DayNumberOrder(a, b);
  }

  /** The weeks of 2023: 1 January was a Sunday, so week 0 starts in 2022. */
  lemma WeekStartExamples()
    ensures WeekStart(2023, 0) == CivilDate(2022, 12, 26)
    ensures WeekStart(2023, 1) == CivilDate(2023, 1, 2)
    ensures WeekStart(2024, 1) == CivilDate(2024, 1, 1)
  {
    var jan2023, jan2024 := CivilDate(2023, 1, 1), CivilDate(2024, 1, 1);
    assert DayNumber(jan2023) == 738520;
    assert DayNumber(jan2024) == 738885;
    assert DayNumber(CivilDate(2022, 12, 26)) == 738514;
    assert DayNumber(CivilDate(2023, 1, 2)) == 738521;
    MondayInWindowUnique(WeekStart(2023, 0), CivilDate(2022, 12, 26), 738514);
    MondayInWindowUnique(WeekStart(2023, 1), CivilDate(2023, 1, 2), 738520);
    MondayInWindowUnique(WeekStart(2024, 1), CivilDate(2024, 1, 1), 738885);
  }

  lemma MondayOffset(n: int, week: int)
    requires 0 <= week
    ensures (n - n % 7) % 7 == 0
    ensures (n + (7 - n % 7) % 7 + 7 * (week - 1)) % 7 == 0
  {
    var q := n / 7;
    assert n - n % 7 == 7 * q;
    if n % 7 == 0 {
      assert n + (7 - n % 7) % 7 + 7 * (week - 1) == 7 * (q + week - 1);
    } else {
      assert n + (7 - n % 7) % 7 + 7 * (week - 1) == 7 * (q + week);
    }
  }

  /**
   * The week `year@week` may name: `%Y` matches exactly four digits and `%W` a number
   * from 0 to 53, so any other pair makes `strptime` raise.
   */
  predicate ValidWeek(year: int, week: int) {
    1000 <= year <= 9999 && 0 <= week <= 53
  }

  // ---------------------------------------------------------------- parsing

  /** The text has the shape YYYY-MM-DD, every field made of decimal digits. */
  predicate IsoShape(s: string) {
    |s| == 10 && s[4] == '-' && s[7] == '-'
    && AllDigits(s[..4]) && AllDigits(s[5..7]) && AllDigits(s[8..])
  }

  /**
   * `strptime(s, "%Y-%m-%d")` on the canonical form: four-digit year, two-digit month
   * and day, naming a real calendar day. Year 0 lies outside `datetime`'s range
   * (1..9999) and is refused like any other invalid date.
   */
  function ParseIsoDate(s: string): (r: Option<Date>)
    ensures r.Some? <==>
      && IsoShape(s)
      && DigitsValue(s[..4]) >= 1
      && ValidDate(CivilDate(DigitsValue(s[..4]), DigitsValue(s[5..7]), DigitsValue(s[8..])))
    ensures r.Some? ==>
      r.value == CivilDate(DigitsValue(s[..4]), DigitsValue(s[5..7]), DigitsValue(s[8..]))
    ensures r.Some? ==> 1 <= r.value.year <= 9999
  {
    if IsoShape(s) then
      var d := CivilDate(DigitsValue(s[..4]), DigitsValue(s[5..7]), DigitsValue(s[8..]));
      FourDigitsBelow(s[..4]);
      if d.year >= 1 && ValidDate(d) then Some(d) else None
    else None
  }

  /** Four decimal digits read at most 9999. */
  lemma FourDigitsBelow(s: string)
    requires |s| == 4 && AllDigits(s)
    ensures DigitsValue(s) <= 9999
  {
    var a, b, c := s[..1], s[..2], s[..3];
    assert c == s[..|s| - 1] && b == c[..|c| - 1] && a == b[..|b| - 1] && a[..0] == [];
    assert DigitsValue(a) <= 9;
    assert DigitsValue(b) <= 99;
    assert DigitsValue(c) <= 999;
  }
}

=== FILE: category_report.dfy ===
/**
 * `CategoriedRecordView.list` (record/views/category.py): one pass over the records
 * builds nested tallies by type, category and subcategory, each record adding the
 * absolute value of its amount; the tallies keep their keys in first-seen order,
 * as the view's nested dictionaries do.
 */
module CategoryReport {
  import opened Common
  import opened Ledger

  // ---------------------------------------------------------------- reference sums

  /** A level of the report: a type, a category of a type, or a subcategory of one. */
  datatype Key =
    | TypeKey(kind: string)
    | CatKey(kind: string, category: string)
    | SubKey(kind: string, category: string, sub: string)

  predicate Under(r: Record, k: Key) {
    match k
    case TypeKey(t) => r.kind == t
    case CatKey(t, c) => r.kind == t && r.category == c
    case SubKey(t, c, s) => r.kind == t && r.category == c && r.subcategory == s
  }

  /** Sum of |amount| over the records under `k`. */
  function KeySum(rs: seq<Record>, k: Key): nat {
    if rs == [] then 0
    else KeySum(rs[..|rs| - 1], k) + (if Under(rs[|rs| - 1], k) then Abs(rs[|rs| - 1].amount) else 0)
  }

  /** Number of records under `k`. */
  function KeyCount(rs: seq<Record>, k: Key): nat {
    if rs == [] then 0
    else KeyCount(rs[..|rs| - 1], k) + (if Under(rs[|rs| - 1], k) then 1 else 0)
  }

  predicate Occurs(rs: seq<Record>, k: Key) {
    exists i :: 0 <= i < |rs| && Under(rs[i], k)
  }

  /** Index of the first record under `k`. */
  function FirstAt(rs: seq<Record>, k: Key): (i: nat)
    requires Occurs(rs, k)
    ensures i < |rs| && Under(rs[i], k)
    ensures forall j :: 0 <= j < i ==> !Under(rs[j], k)
  {
    if Under(rs[0], k) then 0
    else
      assert Occurs(rs[1..], k) by {
        var i :| 0 <= i < |rs| && Under(rs[i], k);
        assert rs[1..][i - 1] == rs[i];
      }
      1 + FirstAt(rs[1..], k)
  }

  /** How the sums, counts and occurrences change when one more record is read. */
  lemma SnocSums(rs: seq<Record>, r: Record, k: Key)
    ensures KeySum(rs + [r], k) == KeySum(rs, k) + (if Under(r, k) then Abs(r.amount) else 0)
    ensures KeyCount(rs + [r], k) == KeyCount(rs, k) + (if Under(r, k) then 1 else 0)
    ensures Occurs(rs + [r], k) <==> Occurs(rs, k) || Under(r, k)
  {
    var s := rs + [r];
    assert s[..|rs|] == rs;
    assert s[|rs|] == r;
    assert forall j :: 0 <= j < |rs| ==> s[j] == rs[j];
  }

  /** A key's first record stays first; a key seen for the first time starts at the new record. */
  lemma SnocFirst(rs: seq<Record>, r: Record, k: Key)
    ensures Occurs(rs, k) ==> Occurs(rs + [r], k) && FirstAt(rs + [r], k) == FirstAt(rs, k)
    ensures !Occurs(rs, k) && Under(r, k) ==> Occurs(rs + [r], k) && FirstAt(rs + [r], k) == |rs|
  {
    var s := rs + [r];
    assert forall j :: 0 <= j < |rs| ==> s[j] == rs[j];
    assert s[|rs|] == r;
    if Occurs(rs, k) {
      var b := FirstAt(rs, k);
      assert Under(s[b], k);
    } else if Under(r, k) {
      assert Under(s[|rs|], k);
    }
  }

  /** A key no record falls under sums and counts to 0. */
  lemma {:induction false} AbsentIsZero(rs: seq<Record>, k: Key)
    requires !Occurs(rs, k)
    ensures KeySum(rs, k) == 0 && KeyCount(rs, k) == 0
  {
    if rs != [] {
      var p := rs[..|rs| - 1];
      assert !Under(rs[|rs| - 1], k);
      assert forall i :: 0 <= i < |p| ==> p[i] == rs[i];
      AbsentIsZero(p, k);
    }
  }

  /** A record under a subcategory is under its category, and one under a category is under its type. */
  lemma Nested(rs: seq<Record>, t: string, c: string, s: string)
    ensures Occurs(rs, SubKey(t, c, s)) ==> Occurs(rs, CatKey(t, c))
    ensures Occurs(rs, CatKey(t, c)) ==> Occurs(rs, TypeKey(t))
  {
    if Occurs(rs, SubKey(t, c, s)) {
      var i :| 0 <= i < |rs| && Under(rs[i], SubKey(t, c, s));
      assert Under(rs[i], CatKey(t, c));
    }
    if Occurs(rs, CatKey(t, c)) {
      var i :| 0 <= i < |rs| && Under(rs[i], CatKey(t, c));
      assert Under(rs[i], TypeKey(t));
    }
  }

  // ---------------------------------------------------------------- first-seen order

  /** Every key of `ks` occurs, and the keys are listed by the index of their first record. */
  ghost predicate InFirstOrder(rs: seq<Record>, ks: seq<Key>) {
    && (forall i :: 0 <= i < |ks| ==> Occurs(rs, ks[i]))
    && (forall i, j :: 0 <= i < j < |ks| ==> FirstAt(rs, ks[i]) < FirstAt(rs, ks[j]))
  }

  lemma OrderKeep(rs: seq<Record>, r: Record, ks: seq<Key>)
    requires InFirstOrder(rs, ks)
    ensures InFirstOrder(rs + [r], ks)
  {
    forall i | 0 <= i < |ks|
      ensures Occurs(rs + [r], ks[i]) && FirstAt(rs + [r], ks[i]) == FirstAt(rs, ks[i])
    {
      SnocFirst(rs, r, ks[i]);
    }
  }

  lemma OrderExtend(rs: seq<Record>, r: Record, ks: seq<Key>, k: Key)
    requires InFirstOrder(rs, ks) && !Occurs(rs, k) && Under(r, k)
    ensures InFirstOrder(rs + [r], ks + [k])
  {
    OrderKeep(rs, r, ks);
    SnocFirst(rs, r, k);
    forall i | 0 <= i < |ks| ensures FirstAt(rs + [r], ks[i]) < |rs| {
      SnocFirst(rs, r, ks[i]);
    }
  }

  function TypeKeys(o: seq<string>): (ks: seq<Key>)
    ensures |ks| == |o| && forall i :: 0 <= i < |o| ==> ks[i] == TypeKey(o[i])
  {
    if o == [] then [] else TypeKeys(o[..|o| - 1]) + [TypeKey(o[|o| - 1])]
  }

  function CatKeys(t: string, o: seq<string>): (ks: seq<Key>)
    ensures |ks| == |o| && forall i :: 0 <= i < |o| ==> ks[i] == CatKey(t, o[i])
  {
    if o == [] then [] else CatKeys(t, o[..|o| - 1]) + [CatKey(t, o[|o| - 1])]
  }

  function SubKeys(t: string, c: string, o: seq<string>): (ks: seq<Key>)
    ensures |ks| == |o| && forall i :: 0 <= i < |o| ==> ks[i] == SubKey(t, c, o[i])
  {
    if o == [] then [] else SubKeys(t, c, o[..|o| - 1]) + [SubKey(t, c, o[|o| - 1])]
  }

  // ---------------------------------------------------------------- tallies

  datatype Counter = Counter(total: nat, count: nat)
  datatype CatTally = CatTally(total: nat, count: nat, subOrder: seq<string>, subs: map<string, Counter>)
  datatype TypeTally = TypeTally(total: nat, catOrder: seq<string>, cats: map<string, CatTally>)
  datatype Report = Report(order: seq<string>, types: map<string, TypeTally>)

  const EmptyCat := CatTally(0, 0, [], map[])
  const EmptyType := TypeTally(0, [], map[])
  const EmptyReport := Report([], map[])

  /** Lines 36-37: the subcategory entry, created on first use, gains the amount and one record. */
  function BumpSub(m: map<string, Counter>, s: string, a: nat): map<string, Counter> {
    var prev := if s in m then m[s] else Counter(0, 0);
    m[s := Counter(prev.total + a, prev.count + 1)]
  }

  /** Lines 34-37: the category's own counters and its subcategory. */
  function AddToCat(ct: CatTally, s: string, a: nat): CatTally {
    CatTally(ct.total + a, ct.count + 1,
             if s in ct.subs then ct.subOrder else ct.subOrder + [s],
             BumpSub(ct.subs, s, a))
  }

  /** The category entry of a type, created on first use, with the record added. */
  function BumpCat(m: map<string, CatTally>, c: string, s: string, a: nat): map<string, CatTally> {
    var ct := if c in m then m[c] else EmptyCat;
    m[c := AddToCat(ct, s, a)]
  }

  /** Lines 33-37 below the type entry. */
  function AddToType(tt: TypeTally, c: string, s: string, a: nat): TypeTally {
    TypeTally(tt.total + a,
              if c in tt.cats then tt.catOrder else tt.catOrder + [c],
              BumpCat(tt.cats, c, s, a))
  }

  /** Line 33: the type entry, created on first use, with the record added. */
  function BumpType(m: map<string, TypeTally>, r: Record): map<string, TypeTally> {
    var tt := if r.kind in m then m[r.kind] else EmptyType;
    m[r.kind := AddToType(tt, r.category, r.subcategory, Abs(r.amount))]
  }

  /** One iteration of the loop over the queryset. */
  function AddRecord(rep: Report, r: Record): Report {
    Report(if r.kind in rep.types then rep.order else rep.order + [r.kind], BumpType(rep.types, r))
  }

  // ---------------------------------------------------------------- accuracy

  /** The subcategory entries of `t`/`c` are exactly the occurring subcategories, with exact counters. */
  ghost predicate SubsExact(m: map<string, Counter>, rs: seq<Record>, t: string, c: string) {
    forall s ::
      && (s in m <==> Occurs(rs, SubKey(t, c, s)))
      && (s in m ==> m[s] == Counter(KeySum(rs, SubKey(t, c, s)), KeyCount(rs, SubKey(t, c, s))))
  }

  /** A category's counters and subcategories are exactly those of the records read. */
  ghost predicate CatAccurate(ct: CatTally, rs: seq<Record>, t: string, c: string) {
    && ct.total == KeySum(rs, CatKey(t, c))
    && ct.count == KeyCount(rs, CatKey(t, c))
    && SubsExact(ct.subs, rs, t, c)
    && InFirstOrder(rs, SubKeys(t, c, ct.subOrder))
  }

  ghost predicate CatsExact(m: map<string, CatTally>, rs: seq<Record>, t: string) {
    forall c ::
      && (c in m <==> Occurs(rs, CatKey(t, c)))
      && (c in m ==> CatAccurate(m[c], rs, t, c))
  }

  ghost predicate TypeAccurate(tt: TypeTally, rs: seq<Record>, t: string) {
    && tt.total == KeySum(rs, TypeKey(t))
    && CatsExact(tt.cats, rs, t)
    && InFirstOrder(rs, CatKeys(t, tt.catOrder))
  }

  ghost predicate TypesExact(m: map<string, TypeTally>, rs: seq<Record>) {
    forall t ::
      && (t in m <==> Occurs(rs, TypeKey(t)))
      && (t in m ==> TypeAccurate(m[t], rs, t))
  }

  /** The report holds exactly the types that occur, each with exact tallies, in first-seen order. */
  ghost predicate Accurate(rep: Report, rs: seq<Record>) {
    TypesExact(rep.types, rs) && InFirstOrder(rs, TypeKeys(rep.order))
  }

  lemma SubsStep(m: map<string, Counter>, rs: seq<Record>, r: Record)
    requires SubsExact(m, rs, r.kind, r.category)
    ensures SubsExact(BumpSub(m, r.subcategory, Abs(r.amount)), rs + [r], r.kind, r.category)
  {
    var t, c := r.kind, r.category;
    var n := BumpSub(m, r.subcategory, Abs(r.amount));
    forall x
      ensures && (x in n <==> Occurs(rs + [r], SubKey(t, c, x)))
              && (x in n ==> n[x] == Counter(KeySum(rs + [r], SubKey(t, c, x)), KeyCount(rs + [r], SubKey(t, c, x))))
    {
      SnocSums(rs, r, SubKey(t, c, x));
      if x !in m {
        AbsentIsZero(rs, SubKey(t, c, x));
      }
    }
  }

  lemma SubsFrame(m: map<string, Counter>, rs: seq<Record>, r: Record, t: string, c: string)
    requires SubsExact(m, rs, t, c) && !Under(r, CatKey(t, c))
    ensures SubsExact(m, rs + [r], t, c)
  {
    forall x
      ensures && (x in m <==> Occurs(rs + [r], SubKey(t, c, x)))
              && (x in m ==> m[x] == Counter(KeySum(rs + [r], SubKey(t, c, x)), KeyCount(rs + [r], SubKey(t, c, x))))
    {
      SnocSums(rs, r, SubKey(t, c, x));
    }
  }

  lemma CatStep(ct: CatTally, rs: seq<Record>, r: Record)
    requires CatAccurate(ct, rs, r.kind, r.category)
    ensures CatAccurate(AddToCat(ct, r.subcategory, Abs(r.amount)), rs + [r], r.kind, r.category)
  {
    var t, c, s := r.kind, r.category, r.subcategory;
    SnocSums(rs, r, CatKey(t, c));
    SubsStep(ct.subs, rs, r);
    if s in ct.subs {
      OrderKeep(rs, r, SubKeys(t, c, ct.subOrder));
    } else {
      OrderExtend(rs, r, SubKeys(t, c, ct.subOrder), SubKey(t, c, s));
      assert SubKeys(t, c, ct.subOrder + [s]) == SubKeys(t, c, ct.subOrder) + [SubKey(t, c, s)];
    }
  }

  lemma CatFrame(ct: CatTally, rs: seq<Record>, r: Record, t: string, c: string)
    requires CatAccurate(ct, rs, t, c) && !Under(r, CatKey(t, c))
    ensures CatAccurate(ct, rs + [r], t, c)
  {
    SnocSums(rs, r, CatKey(t, c));
    SubsFrame(ct.subs, rs, r, t, c);
    OrderKeep(rs, r, SubKeys(t, c, ct.subOrder));
  }

  lemma EmptyCatAccurate(rs: seq<Record>, t: string, c: string)
    requires !Occurs(rs, CatKey(t, c))
    ensures CatAccurate(EmptyCat, rs, t, c)
  {
    AbsentIsZero(rs, CatKey(t, c));
    forall s ensures !Occurs(rs, SubKey(t, c, s)) {
      Nested(rs, t, c, s);
    }
  }

  lemma CatsStep(m: map<string, CatTally>, rs: seq<Record>, r: Record)
    requires CatsExact(m, rs, r.kind)
    ensures CatsExact(BumpCat(m, r.category, r.subcategory, Abs(r.amount)), rs + [r], r.kind)
  {
    var t, c := r.kind, r.category;
    var ct := if c in m then m[c] else EmptyCat;
    if c !in m {
      EmptyCatAccurate(rs, t, c);
    }
    CatStep(ct, rs, r);
    var n := BumpCat(m, c, r.subcategory, Abs(r.amount));
    forall x
      ensures && (x in n <==> Occurs(rs + [r], CatKey(t, x)))
              && (x in n ==> CatAccurate(n[x], rs + [r], t, x))
    {
      SnocSums(rs, r, CatKey(t, x));
      if x == c {
        assert n[x] == AddToCat(ct, r.subcategory, Abs(r.amount));
      } else {
        assert !Under(r, CatKey(t, x));
        if x in m {
          CatFrame(m[x], rs, r, t, x);
          assert n[x] == m[x];
        }
      }
    }
  }

  lemma CatsFrame(m: map<string, CatTally>, rs: seq<Record>, r: Record, t: string)
    requires CatsExact(m, rs, t) && r.kind != t
    ensures CatsExact(m, rs + [r], t)
  {
    forall x
      ensures && (x in m <==> Occurs(rs + [r], CatKey(t, x)))
              && (x in m ==> CatAccurate(m[x], rs + [r], t, x))
    {
      SnocSums(rs, r, CatKey(t, x));
      if x in m {
        CatFrame(m[x], rs, r, t, x);
      }
    }
  }

  lemma TypeStep(tt: TypeTally, rs: seq<Record>, r: Record)
    requires TypeAccurate(tt, rs, r.kind)
    ensures TypeAccurate(AddToType(tt, r.category, r.subcategory, Abs(r.amount)), rs + [r], r.kind)
  {
    var t, c := r.kind, r.category;
    var n := AddToType(tt, c, r.subcategory, Abs(r.amount));
    SnocSums(rs, r, TypeKey(t));
    assert n.total == KeySum(rs + [r], TypeKey(t));
    CatsStep(tt.cats, rs, r);
    assert CatsExact(n.cats, rs + [r], t);
    assert c in tt.cats <==> Occurs(rs, CatKey(t, c));
    CatOrderStep(tt, rs, r);
  }

  lemma CatOrderStep(tt: TypeTally, rs: seq<Record>, r: Record)
    requires InFirstOrder(rs, CatKeys(r.kind, tt.catOrder))
    requires r.category in tt.cats <==> Occurs(rs, CatKey(r.kind, r.category))
    ensures InFirstOrder(rs + [r], CatKeys(r.kind, AddToType(tt, r.category, r.subcategory, Abs(r.amount)).catOrder))
  {
    var t, c := r.kind, r.category;
    if c in tt.cats {
      OrderKeep(rs, r, CatKeys(t, tt.catOrder));
    } else {
      OrderExtend(rs, r, CatKeys(t, tt.catOrder), CatKey(t, c));
      assert CatKeys(t, tt.catOrder + [c]) == CatKeys(t, tt.catOrder) + [CatKey(t, c)];
    }
  }

  lemma TypeFrame(tt: TypeTally, rs: seq<Record>, r: Record, t: string)
    requires TypeAccurate(tt, rs, t) && r.kind != t
    ensures TypeAccurate(tt, rs + [r], t)
  {
    SnocSums(rs, r, TypeKey(t));
    CatsFrame(tt.cats, rs, r, t);
    OrderKeep(rs, r, CatKeys(t, tt.catOrder));
  }

  lemma EmptyTypeAccurate(rs: seq<Record>, t: string)
    requires !Occurs(rs, TypeKey(t))
    ensures TypeAccurate(EmptyType, rs, t)
  {
    AbsentIsZero(rs, TypeKey(t));
    forall c ensures !Occurs(rs, CatKey(t, c)) {
      Nested(rs, t, c, "");
    }
  }

  lemma TypesStep(m: map<string, TypeTally>, rs: seq<Record>, r: Record)
    requires TypesExact(m, rs)
    ensures TypesExact(BumpType(m, r), rs + [r])
  {
    var t := r.kind;
    var tt := if t in m then m[t] else EmptyType;
    if t !in m {
      EmptyTypeAccurate(rs, t);
    }
    TypeStep(tt, rs, r);
    var n := BumpType(m, r);
    forall x
      ensures && (x in n <==> Occurs(rs + [r], TypeKey(x)))
              && (x in n ==> TypeAccurate(n[x], rs + [r], x))
    {
      SnocSums(rs, r, TypeKey(x));
      if x == t {
        assert n[x] == AddToType(tt, r.category, r.subcategory, Abs(r.amount));
      } else if x in m {
        TypeFrame(m[x], rs, r, x);
        assert n[x] == m[x];
      }
    }
  }

  lemma TypeOrderStep(rep: Report, rs: seq<Record>, r: Record)
    requires InFirstOrder(rs, TypeKeys(rep.order))
    requires r.kind in rep.types <==> Occurs(rs, TypeKey(r.kind))
    ensures InFirstOrder(rs + [r], TypeKeys(AddRecord(rep, r).order))
  {
    var t := r.kind;
    if t in rep.types {
      OrderKeep(rs, r, TypeKeys(rep.order));
    } else {
      OrderExtend(rs, r, TypeKeys(rep.order), TypeKey(t));
      assert TypeKeys(rep.order + [t]) == TypeKeys(rep.order) + [TypeKey(t)];
    }
  }

  lemma ReportStep(rep: Report, rs: seq<Record>, r: Record)
    requires Accurate(rep, rs)
    ensures Accurate(AddRecord(rep, r), rs + [r])
  {
    TypesStep(rep.types, rs, r);
    TypeOrderStep(rep, rs, r);
  }

  // ---------------------------------------------------------------- consistency

  /** Sum of `f` over the entries of `m` listed in `o`. */
  function SumOver<V>(o: seq<string>, m: map<string, V>, f: V -> nat): nat {
    if o == [] then 0 else SumOver(o[..|o| - 1], m, f) + (if o[|o| - 1] in m then f(m[o[|o| - 1]]) else 0)
  }

  lemma {:induction false} SumOverFrame<V>(o: seq<string>, m: map<string, V>, f: V -> nat, x: string, v: V)
    requires x !in o
    ensures SumOver(o, m[x := v], f) == SumOver(o, m, f)
  {
    if o != [] {
      var p := o[..|o| - 1];
      assert forall i :: 0 <= i < |p| ==> p[i] == o[i];
      SumOverFrame(p, m, f, x, v);
    }
  }

  lemma {:induction false} SumOverReplace<V>(o: seq<string>, m: map<string, V>, f: V -> nat, x: string, v: V)
    requires x in m && x in o && Distinct(o)
    ensures SumOver(o, m[x := v], f) + f(m[x]) == SumOver(o, m, f) + f(v)
  {
    var p := o[..|o| - 1];
    assert forall i :: 0 <= i < |p| ==> p[i] == o[i];
    if o[|o| - 1] == x {
      assert forall i :: 0 <= i < |p| ==> p[i] != x;
      SumOverFrame(p, m, f, x, v);
    } else {
      var i :| 0 <= i < |o| && o[i] == x;
      assert p[i] == x;
      SumOverReplace(p, m, f, x, v);
    }
  }

  lemma SumOverAppend<V>(o: seq<string>, m: map<string, V>, f: V -> nat, x: string, v: V)
    requires x !in o
    ensures SumOver(o + [x], m[x := v], f) == SumOver(o, m, f) + f(v)
  {
    assert (o + [x])[..|o|] == o;
    SumOverFrame(o, m, f, x, v);
  }

  function CounterTotal(c: Counter): nat { c.total }
  function CounterCount(c: Counter): nat { c.count }
  function CatTotal(ct: CatTally): nat { ct.total }

  /** The key order lists each key of the map exactly once. */
  ghost predicate Lists<V>(o: seq<string>, m: map<string, V>) {
    Distinct(o) && forall x :: x in o <==> x in m
  }

  /** Subcategory totals and counts add up to the category's. */
  ghost predicate CatConsistent(ct: CatTally) {
    && Lists(ct.subOrder, ct.subs)
    && ct.total == SumOver(ct.subOrder, ct.subs, CounterTotal)
    && ct.count == SumOver(ct.subOrder, ct.subs, CounterCount)
  }

  /** Category totals add up to the type's. */
  ghost predicate TypeConsistent(tt: TypeTally) {
    && Lists(tt.catOrder, tt.cats)
    && tt.total == SumOver(tt.catOrder, tt.cats, CatTotal)
    && CatsConsistent(tt.cats)
  }

  ghost predicate CatsConsistent(m: map<string, CatTally>) {
    forall c :: c in m ==> CatConsistent(m[c])
  }

  ghost predicate Consistent(rep: Report) {
    && Lists(rep.order, rep.types)
    && (forall t :: t in rep.types ==> TypeConsistent(rep.types[t]))
  }

  /** Adding an entry keeps the order listing the keys, appending the key when it is new. */
  lemma ListsStep<V>(o: seq<string>, m: map<string, V>, x: string, v: V)
    requires Lists(o, m)
    ensures Lists(if x in m then o else o + [x], m[x := v])
  {
  }

  /** Adding or replacing one entry changes the listed sum by the difference. */
  lemma SumOverStep<V>(o: seq<string>, m: map<string, V>, f: V -> nat, x: string, v: V)
    requires Lists(o, m)
    ensures SumOver(if x in m then o else o + [x], m[x := v], f)
            == SumOver(o, m, f) + f(v) - (if x in m then f(m[x]) else 0)
  {
    if x in m {
      SumOverReplace(o, m, f, x, v);
    } else {
      SumOverAppend(o, m, f, x, v);
    }
  }

  lemma SubTotalStep(ct: CatTally, s: string, a: nat)
    requires Lists(ct.subOrder, ct.subs)
    requires ct.total == SumOver(ct.subOrder, ct.subs, CounterTotal)
    ensures AddToCat(ct, s, a).total == SumOver(AddToCat(ct, s, a).subOrder, AddToCat(ct, s, a).subs, CounterTotal)
  {
    var prev := if s in ct.subs then ct.subs[s] else Counter(0, 0);
    var v := Counter(prev.total + a, prev.count + 1);
    assert AddToCat(ct, s, a).subs == ct.subs[s := v];
    SumOverStep(ct.subOrder, ct.subs, CounterTotal, s, v);
  }

  lemma SubCountStep(ct: CatTally, s: string, a: nat)
    requires Lists(ct.subOrder, ct.subs)
    requires ct.count == SumOver(ct.subOrder, ct.subs, CounterCount)
    ensures AddToCat(ct, s, a).count == SumOver(AddToCat(ct, s, a).subOrder, AddToCat(ct, s, a).subs, CounterCount)
  {
    var prev := if s in ct.subs then ct.subs[s] else Counter(0, 0);
    var v := Counter(prev.total + a, prev.count + 1);
    assert AddToCat(ct, s, a).subs == ct.subs[s := v];
    SumOverStep(ct.subOrder, ct.subs, CounterCount, s, v);
  }

  lemma CatStepConsistent(ct: CatTally, s: string, a: nat)
    requires CatConsistent(ct)
    ensures CatConsistent(AddToCat(ct, s, a))
  {
    var prev := if s in ct.subs then ct.subs[s] else Counter(0, 0);
    ListsStep(ct.subOrder, ct.subs, s, Counter(prev.total + a, prev.count + 1));
    SubTotalStep(ct, s, a);
    SubCountStep(ct, s, a);
  }

  lemma CatsStepConsistent(m: map<string, CatTally>, c: string, s: string, a: nat)
    requires CatsConsistent(m)
    ensures CatsConsistent(BumpCat(m, c, s, a))
  {
    var ct := if c in m then m[c] else EmptyCat;
    CatStepConsistent(ct, s, a);
  }

  lemma TypeSumStep(tt: TypeTally, c: string, s: string, a: nat)
    requires Lists(tt.catOrder, tt.cats)
    requires tt.total == SumOver(tt.catOrder, tt.cats, CatTotal)
    ensures AddToType(tt, c, s, a).total == SumOver(AddToType(tt, c, s, a).catOrder, AddToType(tt, c, s, a).cats, CatTotal)
  {
    var ct := if c in tt.cats then tt.cats[c] else EmptyCat;
    var v := AddToCat(ct, s, a);
    assert AddToType(tt, c, s, a).cats == tt.cats[c := v];
    SumOverStep(tt.catOrder, tt.cats, CatTotal, c, v);
  }

  lemma TypeStepConsistent(tt: TypeTally, c: string, s: string, a: nat)
    requires TypeConsistent(tt)
    ensures TypeConsistent(AddToType(tt, c, s, a))
  {
    var ct := if c in tt.cats then tt.cats[c] else EmptyCat;
    TypeSumStep(tt, c, s, a);
    CatsStepConsistent(tt.cats, c, s, a);
    ListsStep(tt.catOrder, tt.cats, c, AddToCat(ct, s, a));
  }

  lemma ReportStepConsistent(rep: Report, r: Record)
    requires Consistent(rep)
    ensures Consistent(AddRecord(rep, r))
  {
    var tt := if r.kind in rep.types then rep.types[r.kind] else EmptyType;
    TypeStepConsistent(tt, r.category, r.subcategory, Abs(r.amount));
    ListsStep(rep.order, rep.types, r.kind, AddToType(tt, r.category, r.subcategory, Abs(r.amount)));
  }

  // ---------------------------------------------------------------- the view

  /**
   * The loop of lines 27-37 over the queryset, in queryset order: the tallies are
   * exact, listed in first-seen order, and each level adds up to the level above.
   */
  function Tally(rs: seq<Record>): (rep: Report)
    ensures Accurate(rep, rs)
    ensures Consistent(rep)
  {
    if rs == [] then EmptyReport
    else
      var p, r := rs[..|rs| - 1], rs[|rs| - 1];
      assert p + [r] == rs;
      var prev := Tally(p);
      ReportStep(prev, p, r);
      ReportStepConsistent(prev, r);
      AddRecord(prev, r)
  }

  /**
   * Some category's total is 0: the share computations of lines 47-48 and 59-60 then
   * divide a Decimal by zero, which raises.
   */
  predicate HasZeroCategory(rep: Report) {
    exists t, c :: t in rep.types && c in rep.types[t].cats && rep.types[t].cats[c].total == 0
  }

  /** A category whose records all have amount 0 occurs. */
  ghost predicate ZeroCategoryOccurs(rs: seq<Record>) {
    exists i :: 0 <= i < |rs| && KeySum(rs, CatKey(rs[i].kind, rs[i].category)) == 0
  }

  lemma ZeroCategoryIff(rs: seq<Record>, rep: Report)
    requires Accurate(rep, rs)
    ensures HasZeroCategory(rep) <==> ZeroCategoryOccurs(rs)
  {
    if HasZeroCategory(rep) {
      var t, c :| t in rep.types && c in rep.types[t].cats && rep.types[t].cats[c].total == 0;
      assert Occurs(rs, CatKey(t, c));
      var i :| 0 <= i < |rs| && Under(rs[i], CatKey(t, c));
      assert KeySum(rs, CatKey(rs[i].kind, rs[i].category)) == 0;
    }
    if ZeroCategoryOccurs(rs) {
      var i :| 0 <= i < |rs| && KeySum(rs, CatKey(rs[i].kind, rs[i].category)) == 0;
      var t, c := rs[i].kind, rs[i].category;
      assert Under(rs[i], CatKey(t, c));
      Nested(rs, t, c, "");
      assert t in rep.types;
      assert c in rep.types[t].cats;
    }
  }

  /**
   * `CategoriedRecordView.list`: the tallies, or a 500 exactly when a category occurs
   * whose records all have amount 0.
   */
  function CategoryView(rs: seq<Record>): (r: Result<Report>)
    ensures r.Err? <==> ZeroCategoryOccurs(rs)
    ensures r.Err? ==> r.error.ServerError?
    ensures r.Ok? ==> Accurate(r.value, rs) && Consistent(r.value)
  {
    var rep := Tally(rs);
    ZeroCategoryIff(rs, rep);
    if HasZeroCategory(rep) then Err(ServerError("division by zero")) else Ok(rep)
  }

  /** Every record contributes |amount|: a record and its negation tally the same. */
  lemma SignIgnored(rs: seq<Record>, r: Record, k: Key)
    ensures KeySum(rs + [r], k) == KeySum(rs + [r.(amount := -r.amount)], k)
  {
    SnocSums(rs, r, k);
    SnocSums(rs, r.(amount := -r.amount), k);
  }

  /**
   * A type's entry exists exactly when the type occurs; its total is the sum of
   * |amount| over its records, and its listed categories' totals add up to it.
   */
  lemma TypeTotalIsPartition(rs: seq<Record>, t: string)
    ensures t in Tally(rs).types <==> Occurs(rs, TypeKey(t))
    ensures t in Tally(rs).types ==>
      var tt := Tally(rs).types[t];
      && tt.total == KeySum(rs, TypeKey(t))
      && tt.total == SumOver(tt.catOrder, tt.cats, CatTotal)
      && (forall c :: c in tt.catOrder <==> Occurs(rs, CatKey(t, c)))
  {
  }
}

=== FILE: combined_view.dfy ===
/**
 * `CombinedListView.get_queryset` (record/views/combined.py): the requester's records
 * and transfers of one book, narrowed by asset, filter, search and date parameters,
 * merged newest first and grouped by day.
 */
module CombinedView {
  import opened Common
  import opened Calendar
  import opened Ledger
  import opened Sorting
  import opened Grouping
  import opened Filters

  /** The query parameters; the `asset` values are taken to be readable ids. */
  datatype CombinedQuery = CombinedQuery(
    bookId: Option<int>,
    assetIds: seq<int>,
    filters: FilterParams,
    search: Option<string>)

  /** `book__user=user, book__id=book_id`: the row's book exists, is `bookId` and is the user's. */
  predicate OwnBook(book: int, books: map<int, Book>, user: int, bookId: Option<int>) {
    Some(book) == bookId && book in books && books[book].owner == user
  }

  /** `asset__id__in=asset_ids`, applied only when asset ids are given. */
  predicate RecordAssetOk(r: Record, ids: seq<int>) {
    ids == [] || (r.asset.Some? && r.asset.value in ids)
  }

  /** `from_asset__id__in=ids | to_asset__id__in=ids`, applied only when ids are given. */
  predicate TransferAssetOk(t: Transfer, ids: seq<int>) {
    ids == [] || (t.fromAsset.Some? && t.fromAsset.value in ids) || (t.toAsset.Some? && t.toAsset.value in ids)
  }

  /**
   * The `search` match: `icontains` on note, amount, category or subcategory.
   * `amountText` is the database's text rendering of a DECIMAL(12, 2) amount.
   */
  predicate RecordMatches(r: Record, q: string, amountText: int -> string) {
    ContainsIgnoreCase(r.note, q) || ContainsIgnoreCase(amountText(r.amount), q)
    || ContainsIgnoreCase(r.category, q) || ContainsIgnoreCase(r.subcategory, q)
  }

  predicate TransferMatches(t: Transfer, q: string, amountText: int -> string) {
    ContainsIgnoreCase(t.note, q) || ContainsIgnoreCase(amountText(t.amount), q)
  }

  /** A `type` other than 'transfer', or `is_marked_tax_return=true`, empties the transfers. */
  predicate TransfersDropped(p: FilterParams) {
    (Present(p.kind) && p.kind.value != "transfer") || p.taxReturn == Some("true")
  }

  /** The record rows the view keeps. */
  predicate RecordKept(r: Record, q: CombinedQuery, books: map<int, Book>, user: int, amountText: int -> string) {
    && OwnBook(r.book, books, user, q.bookId)
    && RecordAssetOk(r, q.assetIds)
    && (forall f :: f in FiltersOf(q.filters) ==> Admits(f, r))
    && (Present(q.search) ==> RecordMatches(r, q.search.value, amountText))
  }

  /** The transfer rows the view keeps once both date bounds parse. */
  predicate TransferKept(t: Transfer, q: CombinedQuery, books: map<int, Book>, user: int,
                         amountText: int -> string, after: Option<Date>, before: Option<Date>) {
    && OwnBook(t.book, books, user, q.bookId)
    && TransferAssetOk(t, q.assetIds)
    && !TransfersDropped(q.filters)
    && (Present(q.search) ==> TransferMatches(t, q.search.value, amountText))
    && (after.Some? ==> AtOrBefore(Midnight(after.value), t.date))
    && (before.Some? ==> AtOrBefore(t.date, Midnight(before.value)))
  }

  /**
   * A transfer date bound: absent or empty means none; a value the ORM cannot read
   * as a date makes the query raise, which the client sees as a 500. The ORM's
   * `parse_datetime`/`parse_date` also read non-canonical forms, which this bound does not.
   */
  function TransferBound(p: Option<string>): (r: Result<Option<Date>>)
    ensures !Present(p) ==> r == Ok(None)
    ensures Present(p) ==> (r.Ok? <==> ParseIsoDate(p.value).Some?)
    ensures r.Ok? && r.value.Some? ==> Present(p) && ParseIsoDate(p.value) == r.value
    ensures r.Err? ==> r.error.ServerError?
  {
    if !Present(p) then Ok(None)
    else match ParseIsoDate(p.value)
      case Some(d) => Ok(Some(d))
      case None => Err(ServerError("invalid date"))
  }

  function KeptRecords(rs: seq<Record>, q: CombinedQuery, books: map<int, Book>, user: int,
                       amountText: int -> string): (out: seq<Record>)
    ensures forall r :: r in out <==> r in rs && RecordKept(r, q, books, user, amountText)
    ensures IsSubsequence(out, rs)
  {
    var base := Keep(rs, (r: Record) => OwnBook(r.book, books, user, q.bookId) && RecordAssetOk(r, q.assetIds));
    var filtered := FilterRecords(q.filters, base);
    var searched := if Present(q.search) then Keep(filtered, r => RecordMatches(r, q.search.value, amountText))
                    else filtered;
    KeepIsSubsequence(rs, (r: Record) => OwnBook(r.book, books, user, q.bookId) && RecordAssetOk(r, q.assetIds));
    assert IsSubsequence(searched, base) by {
      if Present(q.search) {
        KeepIsSubsequence(filtered, r => RecordMatches(r, q.search.value, amountText));
        SubsequenceTransitive(searched, filtered, base);
      }
    }
    SubsequenceTransitive(searched, base, rs);
    searched
  }

  function KeptTransfers(ts: seq<Transfer>, q: CombinedQuery, books: map<int, Book>, user: int,
                         amountText: int -> string, after: Option<Date>, before: Option<Date>): (out: seq<Transfer>)
    ensures forall t :: t in out <==> t in ts && TransferKept(t, q, books, user, amountText, after, before)
    ensures IsSubsequence(out, ts)
  {
    KeepIsSubsequence(ts, t => TransferKept(t, q, books, user, amountText, after, before));
    Keep(ts, t => TransferKept(t, q, books, user, amountText, after, before))
  }

  /**
   * The view's list of day groups: kept records then kept transfers, stably sorted
   * newest first and grouped by calendar day.
   */
  function Combined(q: CombinedQuery, books: map<int, Book>, user: int, rs: seq<Record>, ts: seq<Transfer>,
                    amountText: int -> string): (r: Result<seq<DayGroup>>)
    ensures r.Err? <==> TransferBound(q.filters.dateAfter).Err? || TransferBound(q.filters.dateBefore).Err?
    ensures r.Err? ==> r.error.ServerError?
    ensures r.Ok? ==>
      var after, before := TransferBound(q.filters.dateAfter).value, TransferBound(q.filters.dateBefore).value;
      var out := Flatten(r.value);
      var keptR := KeptRecords(rs, q, books, user, amountText);
      var keptT := KeptTransfers(ts, q, books, user, amountText, after, before);
      && Sorted(out, true)
      && multiset(out) == multiset(Merge(keptR, keptT))
      && (forall t :: DatedAt(out, t) == DatedAt(RecordEntries(keptR), t) + DatedAt(TransferEntries(keptT), t))
      && (forall e :: e in out <==>
            || (e.Rec? && e.r in rs && RecordKept(e.r, q, books, user, amountText))
            || (e.Xfer? && e.t in ts && TransferKept(e.t, q, books, user, amountText, after, before)))
      && (forall g :: g in r.value ==> WellFormed(g))
      && (forall i, j :: 0 <= i < j < |r.value| ==> DateBefore(r.value[j].date, r.value[i].date))
      && (TransfersDropped(q.filters) ==> forall e :: e in out ==> e.Rec?)
  {
    var a := TransferBound(q.filters.dateAfter);
    var b := TransferBound(q.filters.dateBefore);
    if a.Err? then Err(a.error)
    else if b.Err? then Err(b.error)
    else
      var keptR := KeptRecords(rs, q, books, user, amountText);
      var keptT := KeptTransfers(ts, q, books, user, amountText, a.value, b.value);
      var merged := Merge(keptR, keptT);
      var sorted := SortByDate(merged, true);
      assert forall e :: e in sorted <==> e in multiset(merged);
      forall t ensures DatedAt(sorted, t) == DatedAt(RecordEntries(keptR), t) + DatedAt(TransferEntries(keptT), t) {
        SortStable(merged, true, t);
        DatedAtAppend(RecordEntries(keptR), TransferEntries(keptT), t);
      }
      GroupDatesDecreasing(sorted);
      Ok(GroupByDate(sorted))
  }

  /** Each day of the result appears in exactly one group, which holds all its entries. */
  lemma DayInOneGroup(gs: seq<DayGroup>, e: Entry)
    requires forall g :: g in gs ==> WellFormed(g)
    requires forall i, j :: 0 <= i < j < |gs| ==> DateBefore(gs[j].date, gs[i].date)
    requires e in Flatten(gs)
    ensures exists i :: 0 <= i < |gs| && e in gs[i].entries && gs[i].date == e.Date().date
    ensures forall i, j :: 0 <= i < |gs| && 0 <= j < |gs| && gs[i].date == gs[j].date ==> i == j
  {
    FlattenMembership(gs, e);
    var g :| g in gs && e in g.entries && g.date == e.Date().date;
    var i :| 0 <= i < |gs| && gs[i] == g;
    forall i, j | 0 <= i < j < |gs|
      ensures gs[i].date != gs[j].date && gs[j].date != gs[i].date
    {
      assert DateBefore(gs[j].date, gs[i].date);
    }
  }

  /** Per-day totals count records only: a transfer never adds to either sum. */
  lemma TransfersNeverCounted(g: DayGroup)
    requires WellFormed(g)
    requires forall i :: 0 <= i < |g.entries| ==> g.entries[i].Xfer?
    ensures g.income == 0 && g.expense == 0
  {
    SumOfKindIgnoresOthers(g.entries, "income");
    SumOfKindIgnoresOthers(g.entries, "expense");
  }
}

=== FILE: common.dfy ===
/** Shared vocabulary: optional values, HTTP-level outcomes and string helpers. */
module Common {

  /** A value that may be absent (a missing query parameter, a null column). */
  datatype Option<+T> = None | Some(value: T) {
    function GetOr(default: T): T {
      match this
      case Some(v) => v
      case None => default
    }
  }

  /** The rejection classes a view answers with. */
  datatype Failure =
    | BadRequest(msg: string)     // 400
    | Unauthorized(msg: string)   // 401
    | NotFound(msg: string)       // 404
    | ServerError(msg: string)    // 500

  /** The answer of a view: a payload or a rejection. */
  datatype Result<+T> = Ok(value: T) | Err(error: Failure)

  /** Python truthiness of an optional query parameter: absent and "" are both false. */
  predicate Present(p: Option<string>) {
    p.Some? && p.value != ""
  }

  function Abs(x: int): (r: int)
    ensures r >= 0 && (r == x || r == -x)
  {
    if x < 0 then -x else x
  }

  // ---------------------------------------------------------------- strings

  predicate StartsWith(s: string, prefix: string) {
    |prefix| <= |s| && s[..|prefix|] == prefix
  }

  /** `needle` occurs in `hay` starting at position `i`. */
  predicate OccursAt(hay: string, needle: string, i: int) {
    0 <= i && i + |needle| <= |hay| && hay[i..i + |needle|] == needle
  }

  /** Python's `needle in hay`. */
  predicate Contains(hay: string, needle: string) {
    exists i | 0 <= i <= |hay| :: OccursAt(hay, needle, i)
  }

  function LowerChar(c: char): char {
    if 'A' <= c <= 'Z' then (c as int + 32) as char else c
  }

  /** ASCII lower-casing (str.lower restricted to ASCII letters). */
  function Lower(s: string): (r: string)
    ensures |r| == |s|
    ensures forall i :: 0 <= i < |s| ==> r[i] == LowerChar(s[i])
  {
    if s == [] then [] else [LowerChar(s[0])] + Lower(s[1..])
  }

  /** Case-insensitive containment, the `icontains` lookup. */
  predicate ContainsIgnoreCase(hay: string, needle: string) {
    Contains(Lower(hay), Lower(needle))
  }

  /** Text before the first occurrence of `c`, or all of `s`: Python's `s.split(c)[0]`. */
  function Before(s: string, c: char): (r: string)
    ensures StartsWith(s, r)
    ensures c !in r
    ensures r == s || (|r| < |s| && s[|r|] == c)
  {
    if s == [] then []
    else if s[0] == c then []
    else [s[0]] + Before(s[1..], c)
  }

  /** Text after the last occurrence of `c`, or all of `s`: Python's `s.split(c)[-1]`. */
  function AfterLast(s: string, c: char): (r: string)
    ensures |r| <= |s| && s[|s| - |r|..] == r
    ensures c !in r
    ensures r == s || s[|s| - |r| - 1] == c
  {
    if s == [] then []
    else if s[|s| - 1] == c then []
    else AfterLast(s[..|s| - 1], c) + [s[|s| - 1]]
  }

  /** Number of positions where `c` occurs; `s.split(c)` has one more part than this. */
  function CountChar(s: string, c: char): nat {
    if s == [] then 0 else (if s[0] == c then 1 else 0) + CountChar(s[1..], c)
  }

  lemma {:induction false} CountCharZero(s: string, c: char)
    ensures CountChar(s, c) == 0 <==> c !in s
  {
    if s != [] {
      CountCharZero(s[1..], c);
      assert s == [s[0]] + s[1..];
    }
  }

  /** Python's `s.split(c)` when it yields exactly two parts, i.e. `c` occurs exactly once. */
  function SplitOnce(s: string, c: char): (r: Option<(string, string)>)
    ensures r.Some? <==> CountChar(s, c) == 1
    ensures r.Some? ==> s == r.value.0 + [c] + r.value.1 && c !in r.value.0 && c !in r.value.1
  {
    if s == [] then None
    else if s[0] == c then
      CountCharZero(s[1..], c);
      if c in s[1..] then None else Some(([], s[1..]))
    else
      match SplitOnce(s[1..], c)
      case None => None
      case Some(p) => Some(([s[0]] + p.0, p.1))
  }

  // ---------------------------------------------------------------- digits

  predicate IsDigit(c: char) {
    '0' <= c <= '9'
  }

  predicate AllDigits(s: string) {
    forall i :: 0 <= i < |s| ==> IsDigit(s[i])
  }

  /** Value of a run of decimal digits, most significant first. */
  function DigitsValue(s: string): (n: nat)
    requires AllDigits(s)
  {
    if s == [] then 0 else DigitsValue(s[..|s| - 1]) * 10 + (s[|s| - 1] as int - '0' as int)
  }

  /** Decimal rendering of a natural number (Python's `str(n)` for n >= 0). */
  function NatToString(n: nat): (s: string)
    ensures |s| > 0 && AllDigits(s)
    ensures DigitsValue(s) == n
    ensures |s| == 1 || s[0] != '0'
  {
    if n < 10 then [('0' as int + n) as char]
    else
      var s := NatToString(n / 10) + [('0' as int + n % 10) as char];
      assert s[..|s| - 1] == NatToString(n / 10);
      s
  }

  /** Python's `str(i)` for any integer. */
  function IntToString(i: int): string {
    if i < 0 then "-" + NatToString(-i) else NatToString(i)
  }

  /**
   * Python's `int(s)` on text made of an optional sign and decimal digits.
   * Surrounding whitespace and digit-group underscores, which Python also accepts,
   * are not modelled.
   */
  function ParseInt(s: string): (r: Option<int>)
    ensures r.Some? <==>
      (s != [] && AllDigits(s)) || (|s| > 1 && (s[0] == '+' || s[0] == '-') && AllDigits(s[1..]))
    ensures AllDigits(s) && s != [] ==> r == Some(DigitsValue(s))
    ensures r.Some? && s[0] == '+' ==> r.value == DigitsValue(s[1..])
    ensures r.Some? && s[0] == '-' ==> r.value == 0 - DigitsValue(s[1..]) as int
  {
    if |s| > 0 && AllDigits(s) then Some(DigitsValue(s))
    else if |s| > 1 && s[0] == '+' && AllDigits(s[1..]) then Some(DigitsValue(s[1..]))
    else if |s| > 1 && s[0] == '-' && AllDigits(s[1..]) then Some(0 - DigitsValue(s[1..]) as int)
    else None
  }

  /** `int(str(i)) == i`. */
  lemma IntToStringRoundTrip(i: int)
    ensures ParseInt(IntToString(i)) == Some(i)
  {
    if i < 0 {
      var d := NatToString(-i);
      var s := "-" + d;
      assert s[1..] == d;
      assert !AllDigits(s) by { assert s[0] == '-'; }
    }
  }

  /** Distinct integers print differently. */
  lemma IntToStringInjective(a: int, b: int)
    requires IntToString(a) == IntToString(b)
    ensures a == b
  {
    IntToStringRoundTrip(a);
    IntToStringRoundTrip(b);
  }

  // ---------------------------------------------------------------- sequences

  /** `a` can be obtained from `b` by deleting elements. */
  predicate IsSubsequence<T(==)>(a: seq<T>, b: seq<T>)
    decreases |b|
  {
    if a == [] then true
    else if b == [] then false
    else if a[0] == b[0] then IsSubsequence(a[1..], b[1..])
    else IsSubsequence(a, b[1..])
  }

  predicate Distinct<T(==)>(s: seq<T>) {
    forall i, j :: 0 <= i < j < |s| ==> s[i] != s[j]
  }

  /** The elements of `s` satisfying `p`, in order: a queryset `.filter(...)`. */
  function Keep<T(!new)>(s: seq<T>, p: T -> bool): (r: seq<T>)
    ensures |r| <= |s|
    ensures forall x :: x in r <==> x in s && p(x)
    ensures forall i :: 0 <= i < |r| ==> p(r[i])
  {
    if s == [] then [] else (if p(s[0]) then [s[0]] else []) + Keep(s[1..], p)
  }

  lemma EmptyOrHasFirst<T>(xs: seq<T>)
    ensures xs == [] || xs[0] in xs
  {
  }

  /** A sequence with no members is empty. */
  lemma NoMemberEmpty<T>(xs: seq<T>)
    requires forall x :: x !in xs
    ensures xs == []
  {
    EmptyOrHasFirst(xs);
  }

  lemma {:induction false} KeepIsSubsequence<T(!new)>(s: seq<T>, p: T -> bool)
    ensures IsSubsequence(Keep(s, p), s)
  {
    if s != [] {
      KeepIsSubsequence(s[1..], p);
      if p(s[0]) {
        assert Keep(s, p) == [s[0]] + Keep(s[1..], p);
        assert Keep(s, p)[1..] == Keep(s[1..], p);
      } else {
        assert Keep(s, p) == Keep(s[1..], p);
        SubsequenceOfTail(Keep(s, p), s);
      }
    }
  }

  lemma {:induction false} SubsequenceOfTail<T>(a: seq<T>, b: seq<T>)
    requires b != [] && IsSubsequence(a, b[1..])
    ensures IsSubsequence(a, b)
    decreases |a| + |b|
  {
    if a != [] && a[0] == b[0] {
      // a[1..] is a subsequence of b[1..] because a is.
      SubsequenceDropHead(a, b[1..]);
    }
  }

  lemma {:induction false} SubsequenceDropHead<T>(a: seq<T>, b: seq<T>)
    requires a != [] && IsSubsequence(a, b)
    ensures IsSubsequence(a[1..], b)
    decreases |a| + |b|
  {
    if b != [] {
      if a[0] == b[0] {
        if a[1..] != [] {
          SubsequenceOfTail(a[1..], b);
        }
      } else {
        SubsequenceDropHead(a, b[1..]);
        if a[1..] != [] {
          SubsequenceOfTail(a[1..], b);
        }
      }
    }
  }

  /** Filtering twice with the same condition is filtering once. */
  lemma {:induction false} KeepIdempotent<T(!new)>(s: seq<T>, p: T -> bool)
    ensures Keep(Keep(s, p), p) == Keep(s, p)
  {
    if s != [] {
      KeepIdempotent(s[1..], p);
      var k := Keep(s[1..], p);
      if p(s[0]) {
        assert Keep(s, p) == [s[0]] + k;
        assert ([s[0]] + k)[1..] == k;
        assert Keep([s[0]] + k, p) == [s[0]] + Keep(k, p);
      } else {
        assert Keep(s, p) == k;
      }
    }
  }

  lemma {:induction false} KeepAppend<T(!new)>(a: seq<T>, b: seq<T>, p: T -> bool)
    ensures Keep(a + b, p) == Keep(a, p) + Keep(b, p)
  {
    if a == [] {
      assert a + b == b;
    } else {
      assert (a + b)[1..] == a[1..] + b;
      KeepAppend(a[1..], b, p);
      assert (a + b)[0] == a[0];
    }
  }

  /** Filtering by `p` and then by `q` is filtering by both at once. */
  lemma {:induction false} KeepKeep<T(!new)>(s: seq<T>, p: T -> bool, q: T -> bool, pq: T -> bool)
    requires forall x :: pq(x) == (p(x) && q(x))
    ensures Keep(Keep(s, p), q) == Keep(s, pq)
  {
    if s != [] {
      KeepKeep(s[1..], p, q, pq);
      var k := Keep(s[1..], p);
      if p(s[0]) {
        assert Keep(s, p) == [s[0]] + k;
        assert ([s[0]] + k)[1..] == k;
      } else {
        assert Keep(s, p) == k;
      }
    }
  }

  /**
   * The position of the first element satisfying `p`: the row `.first()` returns from
   * a query over a table kept in primary-key order.
   */
  function FirstIndex<T>(s: seq<T>, p: T -> bool): (r: Option<nat>)
    ensures r.Some? ==> r.value < |s| && p(s[r.value])
    ensures r.Some? ==> forall j :: 0 <= j < r.value ==> !p(s[j])
    ensures r.None? <==> forall j :: 0 <= j < |s| ==> !p(s[j])
  {
    if s == [] then None
    else if p(s[0]) then Some(0)
    else match FirstIndex(s[1..], p)
      case None => None
      case Some(k) => Some(k + 1)
  }

  /** Python's `sum(...)` over a sequence of integers. */
  function Sum(s: seq<int>): int {
    if s == [] then 0 else s[0] + Sum(s[1..])
  }

  /** Keeping every element changes nothing. */
  lemma {:induction false} KeepAll<T(!new)>(s: seq<T>)
    ensures Keep(s, x => true) == s
  {
    if s != [] {
      KeepAll(s[1..]);
      assert s == [s[0]] + s[1..];
    }
  }

  /** Keep depends only on the values of its predicate. */
  lemma {:induction false} KeepSame<T(!new)>(s: seq<T>, p: T -> bool, q: T -> bool)
    requires forall x :: p(x) == q(x)
    ensures Keep(s, p) == Keep(s, q)
  {
    if s != [] {
      KeepSame(s[1..], p, q);
    }
  }

  /** Being a subsequence is transitive. */
  lemma {:induction false} SubsequenceTransitive<T>(a: seq<T>, b: seq<T>, c: seq<T>)
    requires IsSubsequence(a, b) && IsSubsequence(b, c)
    ensures IsSubsequence(a, c)
    decreases |c|
  {
    if a != [] && c != [] {
      if b[0] == c[0] {
        if a[0] == b[0] {
          SubsequenceTransitive(a[1..], b[1..], c[1..]);
        } else {
          SubsequenceTransitive(a, b[1..], c[1..]);
          SubsequenceOfTail(a, c);
        }
      } else {
        SubsequenceTransitive(a, b, c[1..]);
        SubsequenceOfTail(a, c);
      }
    }
  }
}

=== FILE: email_token.dfy ===
/**
 * The email verification token generator (user/utils.py:40-64). A token is the
 * timestamp in base 36, a '-', and a keyed hash of the value built from the user;
 * on top of the base check of the hash, a token more than 30 minutes old is refused.
 * The base check and the clock are inputs.
 */
module EmailToken {
  import opened Common

  /** `str(b)` for a Python bool. */
  function BoolText(b: bool): (s: string)
    ensures s == "True" || s == "False"
    ensures s == "True" <==> b
    ensures |s| == if b then 4 else 5
  {
    if b then "True" else "False"
  }

  /** `_make_hash_value`: the user's key, then the timestamp, then the active flag, as text. */
  function HashValue(pk: int, timestamp: int, isActive: bool): (s: string)
    ensures StartsWith(s, IntToString(pk))
    ensures |s| >= 4 && s[|s| - 4] == if isActive then 'T' else 'a'
  {
    var u := IntToString(pk) + IntToString(timestamp);
    FlagAtEnd(u, isActive);
    u + BoolText(isActive)
  }

  /**
   * For one timestamp, the hash value tells users and their active flag apart, so a
   * token made for one user does not check for another.
   */
  lemma HashValueDeterminesUser(pk1: int, pk2: int, timestamp: int, active1: bool, active2: bool)
    requires HashValue(pk1, timestamp, active1) == HashValue(pk2, timestamp, active2)
    ensures pk1 == pk2 && active1 == active2
  {
    var t := IntToString(timestamp);
    var x := IntToString(pk1);
    var y := IntToString(pk2);
    assert (x + t) + BoolText(active1) == (y + t) + BoolText(active2);
    FlagAtEnd(x + t, active1);
    FlagAtEnd(y + t, active2);
    assert |x| == |y|;
    PrefixEqual(x, y, t + BoolText(active1));
    IntToStringInjective(pk1, pk2);
  }

  /** The fourth character from the end tells "True" from "False". */
  lemma FlagAtEnd(u: string, b: bool)
    ensures var s := u + BoolText(b); s[|s| - 4] == if b then 'T' else 'a'
  {
    var s := u + BoolText(b);
    assert s[|s| - 4] == BoolText(b)[|BoolText(b)| - 4];
  }

  lemma PrefixEqual(x: string, y: string, w: string)
    requires |x| == |y| && x + w == y + w
    ensures x == y
  {
    assert x == (x + w)[..|x|];
    assert y == (y + w)[..|y|];
  }

  // ---------------------------------------------------------------- base 36

  /** A base-36 digit of either case. */
  function Digit36(c: char): (r: Option<nat>)
    ensures r.Some? ==> r.value < 36
    ensures c == '-' ==> r.None?
  {
    if '0' <= c <= '9' then Some(c as int - '0' as int)
    else if 'a' <= c <= 'z' then Some(c as int - 'a' as int + 10)
    else if 'A' <= c <= 'Z' then Some(c as int - 'A' as int + 10)
    else None
  }

  /** The lower-case digit `int_to_base36` writes. */
  function Char36(d: nat): (c: char)
    requires d < 36
    ensures Digit36(c) == Some(d)
  {
    if d < 10 then ('0' as int + d) as char else ('a' as int + d - 10) as char
  }

  /** The value of a run of base-36 digits, most significant first. */
  function Base36Value(s: string): (r: Option<nat>)
    ensures r.Some? ==> forall i :: 0 <= i < |s| ==> Digit36(s[i]).Some?
  {
    if s == [] then Some(0)
    else
      match Base36Value(s[..|s| - 1])
      case None => None
      case Some(v) =>
        match Digit36(s[|s| - 1])
        case None => None
        case Some(d) =>
          assert forall i :: 0 <= i < |s| - 1 ==> s[i] == s[..|s| - 1][i];
          Some(v * 36 + d)
  }

  /** `base36_to_int`: more than 13 characters, or a character that is not a digit, raises. */
  function Base36ToInt(s: string): (r: Option<nat>)
    ensures |s| > 13 || s == [] ==> r.None?
    ensures r.Some? ==> Base36Value(s) == r
  {
    if |s| > 13 || s == [] then None else Base36Value(s)
  }

  /** `int_to_base36`: reading the digits back gives the number. */
  function IntToBase36(n: nat): (s: string)
    ensures |s| > 0
    ensures Base36Value(s) == Some(n)
    ensures '-' !in s
  {
    if n < 36 then [Char36(n)]
    else
      var p := IntToBase36(n / 36);
      var s := p + [Char36(n % 36)];
      assert s[..|s| - 1] == p;
      s
  }

  function Pow36(k: nat): (r: nat)
    ensures r >= 1
  {
    if k == 0 then 1 else 36 * Pow36(k - 1)
  }

  /** A number below 36^k takes at most k digits. */
  lemma {:induction false} Base36Length(n: nat, k: nat)
    requires 1 <= k && n < Pow36(k)
    ensures |IntToBase36(n)| <= k
  {
    if n >= 36 {
      assert Pow36(1) == 36;
      assert n / 36 < Pow36(k - 1) by {
        assert n < 36 * Pow36(k - 1);
      }
      Base36Length(n / 36, k - 1);
    }
  }

  /** Every timestamp below 36^13 survives the round trip through the token's text. */
  lemma Base36RoundTrip(n: nat)
    requires n < Pow36(13)
    ensures Base36ToInt(IntToBase36(n)) == Some(n)
  {
    Base36Length(n, 13);
  }

  // ---------------------------------------------------------------- check_token

  /** The token's age limit in seconds. */
  const MaxAge := 1800

  /**
   * `check_token`: the base check must pass, the token must split at '-' into
   * exactly two parts, the first must be a base-36 timestamp, and the token may be
   * at most 1800 seconds old at `now`.
   */
  function CheckToken(baseOk: bool, token: string, now: int): (ok: bool)
    ensures !baseOk ==> !ok
    ensures CountChar(token, '-') != 1 ==> !ok
    ensures ok ==> Base36ToInt(SplitOnce(token, '-').value.0).Some?
    ensures ok ==> now - Base36ToInt(SplitOnce(token, '-').value.0).value <= MaxAge
  {
    baseOk &&
    match SplitOnce(token, '-')
    case None => false
    case Some(parts) =>
      match Base36ToInt(parts.0)
      case None => false
      case Some(ts) => now - ts <= MaxAge
  }

  /** Splitting at a character that occurs once gives back the two sides. */
  lemma {:induction false} SplitAtDash(a: string, b: string)
    requires '-' !in a && '-' !in b
    ensures SplitOnce(a + "-" + b, '-') == Some((a, b))
  {
    var s := a + "-" + b;
    if a == [] {
      assert s == "-" + b && s[1..] == b;
    } else {
      assert s[0] == a[0];
      assert s[1..] == a[1..] + "-" + b;
      SplitAtDash(a[1..], b);
      assert [a[0]] + a[1..] == a;
    }
  }

  /**
   * A token made at `ts` whose base check passes is accepted exactly while it is at
   * most 1800 seconds old: still at 1800 seconds, no longer at 1801.
   */
  lemma ExpiryWindow(ts: nat, hash: string, now: int)
    requires ts < Pow36(13) && '-' !in hash
    ensures CheckToken(true, IntToBase36(ts) + "-" + hash, now) <==> now - ts <= MaxAge
  {
    SplitAtDash(IntToBase36(ts), hash);
    Base36RoundTrip(ts);
  }

  /** A token without a '-' is refused whatever its age and its base check. */
  lemma MalformedRefused(baseOk: bool, token: string, now: int)
    requires '-' !in token
    ensures !CheckToken(baseOk, token, now)
  {
    CountCharZero(token, '-');
  }
}

=== FILE: facebook_auth.dfy ===
/**
 * Sign in with Facebook (user/views/facebook_auth.py) once the Graph API has answered:
 * the shared create-or-overwrite flow with provider "facebook", where an overwritten
 * account also downloads its picture again. The Graph call is an input.
 */
module FacebookAuth {
  import opened Common
  import opened Accounts
  import opened SocialSignIn

  /** The Graph API's answer: an exception's text, an error object, or the profile fields. */
  datatype Graph =
    | GraphFailed(text: string)
    | GraphError
    | GraphProfile(email: Option<string>, name: string, id: string, picture: Option<string>)

  const InvalidFacebookToken := BadRequest("Invalid Facebook token")

  /** Lines 38-45: the profile, its email defaulted to `{id}@facebook.com`. */
  function ProfileOf(g: Graph): (p: Profile)
    requires g.GraphProfile?
    ensures Present(g.email) ==> p.email == g.email.value
    ensures !Present(g.email) ==> p.email == g.id + "@facebook.com"
    ensures p.name == g.name && p.sub == g.id && p.picture == g.picture
  {
    Profile(if Present(g.email) then g.email.value else g.id + "@facebook.com", g.name, g.id, g.picture)
  }

  /**
   * `facebook_auth`: an error object answers 400 and a failed call 500 with its text,
   * both with nothing written; a profile signs in through the shared flow.
   */
  function FacebookSignIn(t: Tables, accountId: Option<string>, g: Graph, hex: Hex10, fetch: Fetch): (r: SignIn)
    ensures g.GraphError? ==> r == SignIn(t, Err(InvalidFacebookToken))
    ensures g.GraphFailed? ==> r == SignIn(t, Err(ServerError(g.text)))
    ensures r.response.Ok? ==> g.GraphProfile?
    ensures r.response.Ok? ==>
      && r.response.value.status == "verified"
      && r.response.value.email == ProfileOf(g).email
      && r.response.value.nickname == g.name
  {
    match g
    case GraphFailed(text) => SignIn(t, Err(ServerError(text)))
    case GraphError => SignIn(t, Err(InvalidFacebookToken))
    case GraphProfile(_, _, _, _) => SignInWith(t, "facebook", accountId, ProfileOf(g), hex, fetch, true)
  }

  /**
   * An existing account becomes the Facebook account of the profile, and its avatar
   * is replaced exactly when the picture download answers 200.
   */
  lemma FacebookTakesOver(t: Tables, accountId: Option<string>, g: Graph, hex: Hex10, fetch: Fetch, k: nat, i: nat)
    requires g.GraphProfile?
    requires UserByEmail(t, ProfileOf(g).email) == Some(k) && AccountOf(t, t.users[k].id) == Some(i)
    requires FacebookSignIn(t, accountId, g, hex, fetch).response.Ok?
    ensures var r := FacebookSignIn(t, accountId, g, hex, fetch);
      && r.tables.users == t.users
      && r.tables.accounts[i].provider == Some("facebook")
      && r.tables.accounts[i].socialId == Some(g.id)
      && r.tables.accounts[i].avatar ==
           if Present(g.picture) && fetch.Fetched? && fetch.status == 200 then fetch.content else t.accounts[i].avatar
  {
    ExistingAccountOverwritten(t, "facebook", accountId, ProfileOf(g), hex, fetch, true, k, i);
  }

  /** A success leaves the verified Facebook account of the profile under the reported key. */
  lemma FacebookLinks(t: Tables, accountId: Option<string>, g: Graph, hex: Hex10, fetch: Fetch)
    requires Valid(t)
    requires FacebookSignIn(t, accountId, g, hex, fetch).response.Ok?
    ensures var r := FacebookSignIn(t, accountId, g, hex, fetch);
      Valid(r.tables) && LinkedTo(r.tables, r.response.value.id, "facebook", ProfileOf(g))
  {
    SignInLinks(t, "facebook", accountId, ProfileOf(g), hex, fetch, true);
    SignInKeepsValid(t, "facebook", accountId, ProfileOf(g), hex, fetch, true);
  }
}

=== FILE: filters.dfy ===
/**
 * `CombinedFilter` (record/filters.py): the query-string filters applied to the
 * records of the combined listing. Each filter keeps rows of type 'transfer'
 * whatever its value; the two date filters compare against midnight of the day.
 */
module Filters {
  import opened Common
  import opened Calendar
  import opened Ledger

  datatype RecordFilter =
    | ByType(kind: string)
    | ByTaxReturn(flag: bool)
    | ByCategory(category: string)
    | FromDay(day: Date)
    | UntilDay(day: Date)

  /** The row condition each filter stands for. */
  predicate Admits(f: RecordFilter, r: Record) {
    match f
    case ByType(v) => r.kind == v || r.kind == "transfer"
    case ByTaxReturn(v) => r.taxReturn == v || r.kind == "transfer"
    case ByCategory(v) => r.category == v || r.kind == "transfer"
    case FromDay(d) => AtOrBefore(Midnight(d), r.date)
    case UntilDay(d) => AtOrBefore(r.date, Midnight(d))
  }

  /** `queryset.filter(...)` with one filter: the admitted rows, in their order. */
  function Apply(f: RecordFilter, rs: seq<Record>): (out: seq<Record>)
    ensures forall r :: r in out <==> r in rs && Admits(f, r)
    ensures IsSubsequence(out, rs)
  {
    KeepIsSubsequence(rs, r => Admits(f, r));
    Keep(rs, r => Admits(f, r))
  }

  /** Applying a filter a second time changes nothing. */
  lemma ApplyIdempotent(f: RecordFilter, rs: seq<Record>)
    ensures Apply(f, Apply(f, rs)) == Apply(f, rs)
  {
    KeepIdempotent(rs, r => Admits(f, r));
  }

  /** A filter admits a whole concatenation piecewise. */
  lemma ApplyAppend(f: RecordFilter, a: seq<Record>, b: seq<Record>)
    ensures Apply(f, a + b) == Apply(f, a) + Apply(f, b)
  {
    KeepAppend(a, b, r => Admits(f, r));
  }

  /** Filters applied one after another, first to last. */
  function ApplyAll(fs: seq<RecordFilter>, rs: seq<Record>): (out: seq<Record>)
    ensures forall r :: r in out <==> r in rs && forall f :: f in fs ==> Admits(f, r)
    ensures IsSubsequence(out, rs)
    decreases |fs|
  {
    if fs == [] then
      KeepIsSubsequence(rs, r => true);
      assert Keep(rs, r => true) == rs by { KeepAll(rs); }
      rs
    else
      var mid := Apply(fs[0], rs);
      var out := ApplyAll(fs[1..], mid);
      assert forall f :: f in fs <==> f == fs[0] || f in fs[1..] by {
        assert fs == [fs[0]] + fs[1..];
      }
      SubsequenceTransitive(out, mid, rs);
      out
  }

  /**
   * `django.forms.NullBooleanSelect` then `NullBooleanField`: the spellings Django maps
   * to a boolean; any other value leaves the filter unset.
   */
  function ParseNullBoolean(p: Option<string>): (r: Option<bool>)
    ensures p.None? ==> r.None?
    ensures r == Some(true) <==> p.Some? && p.value in {"True", "true", "2"}
    ensures r == Some(false) <==> p.Some? && p.value in {"False", "false", "3"}
  {
    match p
    case None => None
    case Some(v) =>
      if v == "True" || v == "true" || v == "2" then Some(true)
      else if v == "False" || v == "false" || v == "3" then Some(false)
      else None
  }

  /** The raw query parameters `CombinedFilter` reads. */
  datatype FilterParams = FilterParams(
    kind: Option<string>,
    taxReturn: Option<string>,
    category: Option<string>,
    dateAfter: Option<string>,
    dateBefore: Option<string>)

  /** The filter `f` is switched on by the parameters `p`. */
  predicate Requested(p: FilterParams, f: RecordFilter) {
    match f
    case ByType(v) => Present(p.kind) && p.kind.value == v
    case ByTaxReturn(b) => ParseNullBoolean(p.taxReturn) == Some(b)
    case ByCategory(v) => Present(p.category) && p.category.value == v
    case FromDay(d) => p.dateAfter.Some? && ParseIsoDate(p.dateAfter.value) == Some(d)
    case UntilDay(d) => p.dateBefore.Some? && ParseIsoDate(p.dateBefore.value) == Some(d)
  }

  function DateFilterOf(p: Option<string>, after: bool): (fs: seq<RecordFilter>)
    ensures forall f :: f in fs <==>
      p.Some? && ParseIsoDate(p.value).Some?
      && f == (if after then FromDay(ParseIsoDate(p.value).value) else UntilDay(ParseIsoDate(p.value).value))
  {
    match p
    case None => []
    case Some(s) =>
      match ParseIsoDate(s)
      case None => []
      case Some(d) => if after then [FromDay(d)] else [UntilDay(d)]
  }

  /**
   * The filters a request switches on, in declaration order. Empty values are skipped,
   * and a value the form field cannot clean is dropped rather than rejected.
   */
  function FiltersOf(p: FilterParams): (fs: seq<RecordFilter>)
    ensures forall f :: f in fs <==> Requested(p, f)
  {
    var a := if Present(p.kind) then [ByType(p.kind.value)] else [];
    var b := match ParseNullBoolean(p.taxReturn) case Some(v) => [ByTaxReturn(v)] case None => [];
    var c := if Present(p.category) then [ByCategory(p.category.value)] else [];
    var d := DateFilterOf(p.dateAfter, true);
    var e := DateFilterOf(p.dateBefore, false);
    assert forall f :: f in a + b + c + d + e <==> f in a || f in b || f in c || f in d || f in e;
    a + b + c + d + e
  }

  /** `CombinedFilter(params, queryset=rs).qs`: the rows every requested filter admits. */
  function FilterRecords(p: FilterParams, rs: seq<Record>): (out: seq<Record>)
    ensures forall r :: r in out <==> r in rs && forall f :: Requested(p, f) ==> Admits(f, r)
    ensures IsSubsequence(out, rs)
  {
    ApplyAll(FiltersOf(p), rs)
  }

  /** All rows every filter in `fs` admits. */
  predicate AdmitsAll(fs: seq<RecordFilter>, r: Record) {
    forall f :: f in fs ==> Admits(f, r)
  }

  /** Chaining the filters is one filter by their conjunction. */
  lemma {:induction false} ApplyAllIsKeep(fs: seq<RecordFilter>, rs: seq<Record>)
    ensures ApplyAll(fs, rs) == Keep(rs, r => AdmitsAll(fs, r))
    decreases |fs|
  {
    if fs == [] {
      KeepAll(rs);
      assert forall r :: AdmitsAll(fs, r) == true;
      KeepSame(rs, r => AdmitsAll(fs, r), x => true);
    } else {
      var rest := fs[1..];
      ApplyAllIsKeep(rest, Apply(fs[0], rs));
      assert fs == [fs[0]] + rest;
      assert forall r :: AdmitsAll(fs, r) == (Admits(fs[0], r) && AdmitsAll(rest, r));
      KeepKeep(rs, r => Admits(fs[0], r), r => AdmitsAll(rest, r), r => AdmitsAll(fs, r));
    }
  }

  /** Filtering twice with the same parameters is filtering once. */
  lemma FilterRecordsIdempotent(p: FilterParams, rs: seq<Record>)
    ensures FilterRecords(p, FilterRecords(p, rs)) == FilterRecords(p, rs)
  {
    var fs := FiltersOf(p);
    ApplyAllIsKeep(fs, rs);
    ApplyAllIsKeep(fs, ApplyAll(fs, rs));
    KeepIdempotent(rs, r => AdmitsAll(fs, r));
  }

  /** Without any filter parameter the queryset is returned as it is. */
  lemma NoParamsNoFilter(rs: seq<Record>)
    ensures FilterRecords(FilterParams(None, None, None, None, None), rs) == rs
  {
    assert FiltersOf(FilterParams(None, None, None, None, None)) == [];
  }
}

=== FILE: google_auth.dfy ===
/**
 * Sign in with Google (user/views/google_auth.py) once the ID token has been checked:
 * the shared create-or-overwrite flow with provider "google", where an overwritten
 * account keeps its avatar. The token check is an input.
 */
module GoogleAuth {
  import opened Common
  import opened Accounts
  import opened SocialSignIn

  /** The claims of a valid ID token. */
  datatype Claims = Claims(email: string, name: string, sub: string, picture: Option<string>)

  /** The token check: rejected with `ValueError`, failed with another exception, or passed. */
  datatype Verification = InvalidToken | VerifyFailed(text: string) | Verified(claims: Claims)

  const InvalidTokenError := BadRequest("Invalid token")

  /** The profile a valid token's claims describe. */
  function ProfileOfClaims(c: Claims): Profile {
    Profile(c.email, c.name, c.sub, c.picture)
  }

  /**
   * `google_auth`: an invalid token answers 400 and any other failure of the check
   * answers 500 with the exception's text, both with nothing written; a valid token
   * signs in through the shared flow, and the answer is the verified account. The
   * view's `except ValueError` also catches a picture download that raises one, so
   * that download answers the same 400 "Invalid token", while the user and account
   * inserted before it stay, as no transaction wraps the view.
   */
  function GoogleSignIn(t: Tables, accountId: Option<string>, v: Verification, hex: Hex10, fetch: Fetch): (r: SignIn)
    ensures v.InvalidToken? ==> r == SignIn(t, Err(InvalidTokenError))
    ensures v.VerifyFailed? ==> r == SignIn(t, Err(ServerError(v.text)))
    ensures v.Verified? && Downloads(t, ProfileOfClaims(v.claims), false) && fetch.FetchFailed? ==>
      && r.response == (if fetch.valueError then Err(InvalidTokenError) else Err(ServerError(fetch.text)))
      && r.tables == AddAccount(AddUser(t, v.claims.email, v.claims.email),
                                ProviderAccount(t.nextUser, "google", accountId, ProfileOfClaims(v.claims), hex))
    ensures v.Verified? && !(Downloads(t, ProfileOfClaims(v.claims), false) && fetch.FetchFailed? && fetch.valueError) ==>
      r == SignInWith(t, "google", accountId, ProfileOfClaims(v.claims), hex, fetch, false)
    ensures r.response.Ok? ==> v.Verified?
    ensures r.response.Ok? ==>
      && r.response.value.status == "verified"
      && r.response.value.email == v.claims.email
      && r.response.value.nickname == v.claims.name
  {
    match v
    case InvalidToken => SignIn(t, Err(InvalidTokenError))
    case VerifyFailed(text) => SignIn(t, Err(ServerError(text)))
    case Verified(c) =>
      var p := ProfileOfClaims(c);
      var r := SignInWith(t, "google", accountId, p, hex, fetch, false);
      if Downloads(t, p, false) && fetch.FetchFailed? && fetch.valueError then SignIn(r.tables, Err(InvalidTokenError))
      else r
  }

  /** A malformed picture URL of a new user answers "Invalid token", but the new user and account stay. */
  lemma BadPictureUrlKeepsInserts(t: Tables, accountId: Option<string>, c: Claims, hex: Hex10, text: string)
    requires UserByEmail(t, c.email).None? && UserByName(t, c.email).None? && Present(c.picture)
    ensures var r := GoogleSignIn(t, accountId, Verified(c), hex, FetchFailed(text, true));
      && r.response == Err(InvalidTokenError)
      && |r.tables.users| == |t.users| + 1 && |r.tables.accounts| == |t.accounts| + 1
  {
  }

  /**
   * An existing account becomes the Google account of the token's subject whatever
   * provider it had, and its avatar is left as it was.
   */
  lemma GoogleTakesOver(t: Tables, accountId: Option<string>, c: Claims, hex: Hex10, fetch: Fetch, k: nat, i: nat)
    requires UserByEmail(t, c.email) == Some(k) && AccountOf(t, t.users[k].id) == Some(i)
    ensures var r := GoogleSignIn(t, accountId, Verified(c), hex, fetch);
      && r.response.Ok?
      && r.response.value.id == t.accounts[i].id
      && r.tables.users == t.users
      && r.tables.accounts == t.accounts[i := t.accounts[i].(nickname := c.name, provider := Some("google"),
                                                              socialId := Some(c.sub), status := "verified")]
  {
  }

  /** A success leaves the verified Google account of the subject under the reported key. */
  lemma GoogleLinks(t: Tables, accountId: Option<string>, v: Verification, hex: Hex10, fetch: Fetch)
    requires Valid(t)
    requires GoogleSignIn(t, accountId, v, hex, fetch).response.Ok?
    ensures var r := GoogleSignIn(t, accountId, v, hex, fetch);
      && Valid(r.tables)
      && LinkedTo(r.tables, r.response.value.id, "google",
                  Profile(v.claims.email, v.claims.name, v.claims.sub, v.claims.picture))
  {
    var p := ProfileOfClaims(v.claims);
    SignInLinks(t, "google", accountId, p, hex, fetch, false);
    SignInKeepsValid(t, "google", accountId, p, hex, fetch, false);
  }
}

=== FILE: grouping.dfy ===
/**
 * `group_records_by_date` (and the identical loop of the combined listing): split a
 * list into maximal runs of consecutive entries dated the same day, and total the
 * income and expense amounts of each run.
 */
module Grouping {
  import opened Calendar
  import opened Ledger
  import opened Sorting

  /** One run: its day, its entries in order, and the income and expense totals. */
  datatype DayGroup = DayGroup(date: Date, entries: seq<Entry>, income: int, expense: int)

  function Flatten(gs: seq<DayGroup>): seq<Entry> {
    if gs == [] then [] else gs[0].entries + Flatten(gs[1..])
  }

  /** A group is non-empty, every entry falls on its day, and its totals are exact. */
  predicate WellFormed(g: DayGroup) {
    && |g.entries| > 0
    && (forall e :: e in g.entries ==> e.Date().date == g.date)
    && g.income == SumOfKind(g.entries, "income")
    && g.expense == SumOfKind(g.entries, "expense")
  }

  /** Adjacent groups are on different days. */
  predicate Maximal(gs: seq<DayGroup>) {
    forall i :: 0 <= i < |gs| - 1 ==> gs[i].date != gs[i + 1].date
  }

  function Contribution(e: Entry, kind: string): int {
    if e.Kind() == kind then e.Amount() else 0
  }

  /** The group `g` with `e` added at its front and its totals updated. */
  function Prepend(e: Entry, g: DayGroup): DayGroup {
    DayGroup(g.date, [e] + g.entries,
             Contribution(e, "income") + g.income, Contribution(e, "expense") + g.expense)
  }

  lemma PrependWellFormed(e: Entry, g: DayGroup)
    requires WellFormed(g) && e.Date().date == g.date
    ensures WellFormed(Prepend(e, g))
  {
    assert ([e] + g.entries)[1..] == g.entries;
  }

  lemma FlattenCons(g: DayGroup, gs: seq<DayGroup>)
    ensures Flatten([g] + gs) == g.entries + Flatten(gs)
  {
    assert ([g] + gs)[1..] == gs;
  }

  /** The group holding only `e`. */
  function Single(e: Entry): DayGroup {
    DayGroup(e.Date().date, [e], Contribution(e, "income"), Contribution(e, "expense"))
  }

  /** An entry of the first group's day joins that group. */
  function JoinFront(e: Entry, rest: seq<DayGroup>): (gs: seq<DayGroup>)
    requires rest != [] && rest[0].date == e.Date().date
    requires forall g :: g in rest ==> WellFormed(g)
    requires Maximal(rest)
    ensures Flatten(gs) == [e] + Flatten(rest)
    ensures forall g :: g in gs ==> WellFormed(g)
    ensures Maximal(gs)
    ensures |gs| == |rest| && gs[0].date == e.Date().date
  {
    JoinedFlatten(e, rest);
    JoinedShape(e, rest);
    [Prepend(e, rest[0])] + rest[1..]
  }

  lemma JoinedFlatten(e: Entry, rest: seq<DayGroup>)
    requires rest != []
    ensures Flatten([Prepend(e, rest[0])] + rest[1..]) == [e] + Flatten(rest)
  {
    var g, tail := rest[0], rest[1..];
    assert rest == [g] + tail;
    FlattenCons(g, tail);
    FlattenCons(Prepend(e, g), tail);
    Associative([e], g.entries, Flatten(tail));
  }

  lemma Associative(a: seq<Entry>, b: seq<Entry>, c: seq<Entry>)
    ensures (a + b) + c == a + (b + c)
  {
  }

  lemma JoinedShape(e: Entry, rest: seq<DayGroup>)
    requires rest != [] && rest[0].date == e.Date().date
    requires forall g :: g in rest ==> WellFormed(g)
    requires Maximal(rest)
    ensures forall g :: g in [Prepend(e, rest[0])] + rest[1..] ==> WellFormed(g)
    ensures Maximal([Prepend(e, rest[0])] + rest[1..])
  {
    var gs := [Prepend(e, rest[0])] + rest[1..];
    assert rest[0] in rest;
    PrependWellFormed(e, rest[0]);
    assert forall k :: 0 < k < |gs| ==> gs[k] == rest[k];
    assert forall k :: 0 <= k < |gs| ==> gs[k].date == rest[k].date;
  }

  lemma SingleWellFormed(e: Entry)
    ensures WellFormed(Single(e))
  {
    assert [e][1..] == [];
  }

  /** An entry of another day opens a group of its own. */
  function StartGroup(e: Entry, rest: seq<DayGroup>): (gs: seq<DayGroup>)
    requires rest == [] || rest[0].date != e.Date().date
    requires forall g :: g in rest ==> WellFormed(g)
    requires Maximal(rest)
    ensures Flatten(gs) == [e] + Flatten(rest)
    ensures forall g :: g in gs ==> WellFormed(g)
    ensures Maximal(gs)
    ensures |gs| == |rest| + 1 && gs[0].date == e.Date().date
  {
    SingleWellFormed(e);
    FlattenCons(Single(e), rest);
    [Single(e)] + rest
  }

  function GroupByDate(s: seq<Entry>): (gs: seq<DayGroup>)
    ensures Flatten(gs) == s
    ensures forall g :: g in gs ==> WellFormed(g)
    ensures Maximal(gs)
    ensures s != [] ==> gs != [] && gs[0].date == s[0].Date().date
    ensures s == [] ==> gs == []
    ensures |gs| <= |s|
  {
    if s == [] then []
    else
      var e := s[0];
      var rest := GroupByDate(s[1..]);
      assert s == [e] + s[1..];
      if rest != [] && rest[0].date == e.Date().date then JoinFront(e, rest)
      else StartGroup(e, rest)
  }

  /** Every input entry lands in some group of its own day. */
  lemma {:induction false} FlattenMembership(gs: seq<DayGroup>, x: Entry)
    requires forall g :: g in gs ==> WellFormed(g)
    requires x in Flatten(gs)
    ensures exists g :: g in gs && x in g.entries && g.date == x.Date().date
  {
    if x in gs[0].entries {
      assert gs[0] in gs;
    } else {
      FlattenMembership(gs[1..], x);
      var g :| g in gs[1..] && x in g.entries && g.date == x.Date().date;
      assert g in gs;
    }
  }

  /**
   * Grouping a list sorted newest first yields groups whose days strictly decrease,
   * so no day appears in two groups.
   */
  lemma {:induction false} GroupDatesDecreasing(s: seq<Entry>)
    requires Sorted(s, true)
    ensures forall i, j :: 0 <= i < j < |GroupByDate(s)| ==>
              DateBefore(GroupByDate(s)[j].date, GroupByDate(s)[i].date)
  {
    if s != [] {
      var e := s[0];
      var rest := GroupByDate(s[1..]);
      assert Sorted(s[1..], true);
      GroupDatesDecreasing(s[1..]);
      var gs := GroupByDate(s);
      if !(rest != [] && rest[0].date == e.Date().date) && rest != [] {
        // a new group starts: its day is later than the next entry's day
        assert s[1] == s[1..][0];
        assert !Ahead(s[1], s[0], true);
        assert DateBefore(rest[0].date, e.Date().date);
        forall i, j | 0 <= i < j < |gs|
          ensures DateBefore(gs[j].date, gs[i].date)
        {
          if i == 0 && j > 1 {
            DateBeforeTransitive(gs[j].date, rest[0].date, e.Date().date);
          }
        }
      }
    }
  }
}

=== FILE: ledger.dfy ===
/**
 * The ledger's rows: books, asset groups, assets, records and transfers.
 * Amounts are integer cents (the columns are DECIMAL(12, 2)).
 */
module Ledger {
  import opened Common
  import opened Calendar

  /** A book (ledger) owned by one user. */
  datatype Book = Book(owner: int, name: string, note: string, monthlyGoal: Option<int>)

  /**
   * An income or expense entry. `kind` is the `type` column; `scheduled` marks the
   * Record part of a ScheduledRecord template (multi-table inheritance).
   */
  datatype Record = Record(
    id: int,
    book: int,
    asset: Option<int>,
    kind: string,
    category: string,
    subcategory: string,
    note: string,
    amount: int,
    date: DateTime,
    taxReturn: bool,
    scheduled: bool)

  /** A move of `amount` from one asset to another. */
  datatype Transfer = Transfer(
    id: int,
    book: int,
    fromAsset: Option<int>,
    toAsset: Option<int>,
    amount: int,
    note: string,
    date: DateTime)

  /** One element of the merged record/transfer listings. */
  datatype Entry = Rec(r: Record) | Xfer(t: Transfer) {
    function Date(): DateTime {
      match this
      case Rec(r) => r.date
      case Xfer(t) => t.date
    }

    /** The `type` a listing shows; a serialized transfer is taken to show "transfer". */
    function Kind(): string {
      match this
      case Rec(r) => r.kind
      case Xfer(_) => "transfer"
    }

    function Amount(): int {
      match this
      case Rec(r) => r.amount
      case Xfer(t) => t.amount
    }
  }

  function RecordEntries(rs: seq<Record>): (es: seq<Entry>)
    ensures |es| == |rs|
    ensures forall i :: 0 <= i < |rs| ==> es[i] == Rec(rs[i])
  {
    if rs == [] then [] else [Rec(rs[0])] + RecordEntries(rs[1..])
  }

  function TransferEntries(ts: seq<Transfer>): (es: seq<Entry>)
    ensures |es| == |ts|
    ensures forall i :: 0 <= i < |ts| ==> es[i] == Xfer(ts[i])
  {
    if ts == [] then [] else [Xfer(ts[0])] + TransferEntries(ts[1..])
  }

  /** `chain(records, transfers)`: records first, then transfers. */
  function Merge(rs: seq<Record>, ts: seq<Transfer>): (es: seq<Entry>)
    ensures |es| == |rs| + |ts|
    ensures forall e :: e in es <==> (e.Rec? && e.r in rs) || (e.Xfer? && e.t in ts)
  {
    var a, b := RecordEntries(rs), TransferEntries(ts);
    assert forall e :: e in a <==> e.Rec? && e.r in rs by {
      forall e | e in a ensures e.Rec? && e.r in rs {
        var i :| 0 <= i < |a| && a[i] == e;
      }
      forall e: Entry | e.Rec? && e.r in rs ensures e in a {
        var i :| 0 <= i < |rs| && rs[i] == e.r;
        assert a[i] == e;
      }
    }
    assert forall e :: e in b <==> e.Xfer? && e.t in ts by {
      forall e | e in b ensures e.Xfer? && e.t in ts {
        var i :| 0 <= i < |b| && b[i] == e;
      }
      forall e: Entry | e.Xfer? && e.t in ts ensures e in b {
        var i :| 0 <= i < |ts| && ts[i] == e.t;
        assert b[i] == e;
      }
    }
    a + b
  }

  /** Sum of the amounts of the entries whose type is `kind`. */
  function SumOfKind(es: seq<Entry>, kind: string): int {
    if es == [] then 0
    else (if es[0].Kind() == kind then es[0].Amount() else 0) + SumOfKind(es[1..], kind)
  }

  lemma {:induction false} SumOfKindAppend(a: seq<Entry>, b: seq<Entry>, kind: string)
    ensures SumOfKind(a + b, kind) == SumOfKind(a, kind) + SumOfKind(b, kind)
  {
    if a == [] {
      assert a + b == b;
    } else {
      assert (a + b)[1..] == a[1..] + b;
      SumOfKindAppend(a[1..], b, kind);
    }
  }

  /** Entries that no listing sums (transfers, or records of any other type) add nothing. */
  lemma {:induction false} SumOfKindIgnoresOthers(es: seq<Entry>, kind: string)
    requires forall i :: 0 <= i < |es| ==> es[i].Kind() != kind
    ensures SumOfKind(es, kind) == 0
  {
    if es != [] {
      SumOfKindIgnoresOthers(es[1..], kind);
    }
  }
}

=== FILE: monthly.dfy ===
/**
 * `MonthlyDataView.get_queryset` (record/views/monthly.py): the plain records (not
 * scheduled-record templates) of one book or of all books, grouped by calendar
 * month in ascending order, with the income and expense sums of each month. A sum
 * over no rows is SQL NULL, so a month without income shows no income figure.
 */
module Monthly {
  import opened Common
  import opened Calendar
  import opened Ledger

  datatype Month = Month(year: int, month: int)

  /** `TruncMonth('date')`. */
  function MonthOf(r: Record): Month {
    Month(r.date.date.year, r.date.date.month)
  }

  predicate MonthBefore(a: Month, b: Month) {
    a.year < b.year || (a.year == b.year && a.month < b.month)
  }

  /** Strictly ascending months: `order_by('month')` over distinct groups. */
  predicate Ascending(ms: seq<Month>) {
    forall i, j :: 0 <= i < j < |ms| ==> MonthBefore(ms[i], ms[j])
  }

  predicate InMonth(rs: seq<Record>, m: Month) {
    exists i :: 0 <= i < |rs| && MonthOf(rs[i]) == m
  }

  /** Lines 17-23: template rows are dropped, then the book filter applies when given. */
  function Selected(rs: seq<Record>, bookId: Option<int>): (out: seq<Record>)
    ensures forall r :: r in out <==> r in rs && !r.scheduled && (bookId.Some? ==> r.book == bookId.value)
  {
    Keep(rs, (r: Record) => !r.scheduled && (bookId.Some? ==> r.book == bookId.value))
  }

  /** Adds `m` to an ascending list of months unless it is there. */
  function InsertMonth(m: Month, ms: seq<Month>): (out: seq<Month>)
    requires Ascending(ms)
    ensures Ascending(out)
    ensures forall x :: x in out <==> x == m || x in ms
  {
    if ms == [] then [m]
    else if m == ms[0] then ms
    else if MonthBefore(m, ms[0]) then [m] + ms
    else
      var rest := InsertMonth(m, ms[1..]);
      assert forall x :: x in ms <==> x == ms[0] || x in ms[1..] by {
        assert ms == [ms[0]] + ms[1..];
      }
      assert forall j :: 0 <= j < |rest| ==> MonthBefore(ms[0], rest[j]) by {
        assert forall j :: 0 <= j < |rest| ==> rest[j] in rest;
        assert forall x :: x in ms[1..] ==> MonthBefore(ms[0], x);
      }
      [ms[0]] + rest
  }

  /** The months that hold at least one record, ascending. */
  function Months(rs: seq<Record>): (ms: seq<Month>)
    ensures Ascending(ms)
    ensures forall m :: m in ms <==> InMonth(rs, m)
  {
    if rs == [] then []
    else
      var p := rs[..|rs| - 1];
      var ms := InsertMonth(MonthOf(rs[|rs| - 1]), Months(p));
      assert forall m :: InMonth(rs, m) <==> InMonth(p, m) || MonthOf(rs[|rs| - 1]) == m by {
        assert forall i :: 0 <= i < |p| ==> p[i] == rs[i];
      }
      ms
  }

  /** `Sum('amount', filter=Q(type=kind))` inside month `m`, taking an empty sum as 0. */
  function KindSum(rs: seq<Record>, m: Month, kind: string): int {
    if rs == [] then 0
    else KindSum(rs[..|rs| - 1], m, kind)
         + (if MonthOf(rs[|rs| - 1]) == m && rs[|rs| - 1].kind == kind then rs[|rs| - 1].amount else 0)
  }

  predicate HasKind(rs: seq<Record>, m: Month, kind: string) {
    exists i :: 0 <= i < |rs| && MonthOf(rs[i]) == m && rs[i].kind == kind
  }

  /** The aggregate as the database returns it: NULL when no row of that type is in the month. */
  function MonthTotal(rs: seq<Record>, m: Month, kind: string): Option<int> {
    if HasKind(rs, m, kind) then Some(KindSum(rs, m, kind)) else None
  }

  datatype MonthRow = MonthRow(month: Month, income: Option<int>, expense: Option<int>)

  /**
   * The view's rows: one per month holding a selected record, ascending, with the
   * month's income and expense sums.
   */
  function MonthlyData(rs: seq<Record>, bookId: Option<int>): (rows: seq<MonthRow>)
    ensures Ascending(seq(|rows|, i requires 0 <= i < |rows| => rows[i].month))
    ensures forall m :: (exists i :: 0 <= i < |rows| && rows[i].month == m) <==> InMonth(Selected(rs, bookId), m)
    ensures forall i :: 0 <= i < |rows| ==>
      && rows[i].income == MonthTotal(Selected(rs, bookId), rows[i].month, "income")
      && rows[i].expense == MonthTotal(Selected(rs, bookId), rows[i].month, "expense")
  {
    var sel := Selected(rs, bookId);
    var ms := Months(sel);
    var rows := seq(|ms|, i requires 0 <= i < |ms| =>
                      MonthRow(ms[i], MonthTotal(sel, ms[i], "income"), MonthTotal(sel, ms[i], "expense")));
    assert seq(|rows|, i requires 0 <= i < |rows| => rows[i].month) == ms;
    assert forall m :: (exists i :: 0 <= i < |rows| && rows[i].month == m) <==> m in ms;
    rows
  }

  // ---------------------------------------------------------------- partition

  /** A month's figure as a number, NULL read as 0. */
  function Figure(v: Option<int>): int {
    v.GetOr(0)
  }

  /** Sum of `kind` amounts over all records. */
  function KindTotal(rs: seq<Record>, kind: string): int {
    if rs == [] then 0
    else KindTotal(rs[..|rs| - 1], kind) + (if rs[|rs| - 1].kind == kind then rs[|rs| - 1].amount else 0)
  }

  /** Sum of the per-month sums over the listed months. */
  function SumMonths(ms: seq<Month>, rs: seq<Record>, kind: string): int {
    if ms == [] then 0 else SumMonths(ms[..|ms| - 1], rs, kind) + KindSum(rs, ms[|ms| - 1], kind)
  }

  lemma {:induction false} SumMonthsSnoc(ms: seq<Month>, rs: seq<Record>, r: Record, kind: string)
    requires Ascending(ms)
    ensures SumMonths(ms, rs + [r], kind) ==
      SumMonths(ms, rs, kind) + (if MonthOf(r) in ms && r.kind == kind then r.amount else 0)
  {
    assert (rs + [r])[..|rs|] == rs;
    if ms != [] {
      var p := ms[..|ms| - 1];
      assert Ascending(p);
      SumMonthsSnoc(p, rs, r, kind);
      assert forall x :: x in ms <==> x in p || x == ms[|ms| - 1] by {
        assert ms == p + [ms[|ms| - 1]];
      }
      assert forall i :: 0 <= i < |p| ==> p[i] != ms[|ms| - 1] by {
        assert forall i :: 0 <= i < |p| ==> p[i] == ms[i];
      }
    }
  }

  /**
   * The months partition the records: the per-month sums over the listed months add
   * up to the total of the records of that type.
   */
  lemma {:induction false} MonthsPartition(rs: seq<Record>, kind: string, ms: seq<Month>)
    requires Ascending(ms)
    requires forall i :: 0 <= i < |rs| ==> MonthOf(rs[i]) in ms
    ensures SumMonths(ms, rs, kind) == KindTotal(rs, kind)
  {
    if rs == [] {
      ZeroMonths(ms, rs, kind);
    } else {
      var p := rs[..|rs| - 1];
      assert p + [rs[|rs| - 1]] == rs;
      MonthsPartition(p, kind, ms);
      SumMonthsSnoc(ms, p, rs[|rs| - 1], kind);
    }
  }

  lemma {:induction false} ZeroMonths(ms: seq<Month>, rs: seq<Record>, kind: string)
    requires rs == []
    ensures SumMonths(ms, rs, kind) == 0
  {
    if ms != [] {
      ZeroMonths(ms[..|ms| - 1], rs, kind);
    }
  }

  /** The income figures of the rows, NULL read as 0. */
  function IncomeColumn(rows: seq<MonthRow>): int {
    if rows == [] then 0 else IncomeColumn(rows[..|rows| - 1]) + Figure(rows[|rows| - 1].income)
  }

  /** The expense figures of the rows, NULL read as 0. */
  function ExpenseColumn(rows: seq<MonthRow>): int {
    if rows == [] then 0 else ExpenseColumn(rows[..|rows| - 1]) + Figure(rows[|rows| - 1].expense)
  }

  /** A NULL figure stands for a sum of zero. */
  lemma FigureIsSum(rs: seq<Record>, m: Month, kind: string)
    ensures Figure(MonthTotal(rs, m, kind)) == KindSum(rs, m, kind)
  {
    if !HasKind(rs, m, kind) {
      NoKindIsZero(rs, m, kind);
    }
  }

  lemma {:induction false} ColumnsAreSums(rows: seq<MonthRow>, sel: seq<Record>, ms: seq<Month>)
    requires |rows| == |ms|
    requires forall i :: 0 <= i < |rows| ==>
      && rows[i].month == ms[i]
      && rows[i].income == MonthTotal(sel, ms[i], "income")
      && rows[i].expense == MonthTotal(sel, ms[i], "expense")
    ensures IncomeColumn(rows) == SumMonths(ms, sel, "income")
    ensures ExpenseColumn(rows) == SumMonths(ms, sel, "expense")
  {
    if rows != [] {
      var n := |rows| - 1;
      ColumnsAreSums(rows[..n], sel, ms[..n]);
      FigureIsSum(sel, ms[n], "income");
      FigureIsSum(sel, ms[n], "expense");
    }
  }

  /**
   * The months partition the selected records: the income column adds up to the
   * income of all selected records, and the expense column to their expense.
   */
  lemma RowsAddUp(rs: seq<Record>, bookId: Option<int>)
    ensures IncomeColumn(MonthlyData(rs, bookId)) == KindTotal(Selected(rs, bookId), "income")
    ensures ExpenseColumn(MonthlyData(rs, bookId)) == KindTotal(Selected(rs, bookId), "expense")
  {
    var sel := Selected(rs, bookId);
    var ms := Months(sel);
    var rows := MonthlyData(rs, bookId);
    assert forall i :: 0 <= i < |sel| ==> MonthOf(sel[i]) in ms;
    MonthsPartition(sel, "income", ms);
    MonthsPartition(sel, "expense", ms);
    assert |rows| == |ms| && forall i :: 0 <= i < |rows| ==> rows[i].month == ms[i];
    ColumnsAreSums(rows, sel, ms);
  }

  lemma {:induction false} NoKindIsZero(rs: seq<Record>, m: Month, kind: string)
    requires !HasKind(rs, m, kind)
    ensures KindSum(rs, m, kind) == 0
  {
    if rs != [] {
      var p := rs[..|rs| - 1];
      assert forall i :: 0 <= i < |p| ==> p[i] == rs[i];
      NoKindIsZero(p, m, kind);
    }
  }

  /** A record of neither type adds to neither sum of any month. */
  lemma OtherTypesIgnored(rs: seq<Record>, r: Record, m: Month)
    requires r.kind != "income" && r.kind != "expense"
    ensures KindSum(rs + [r], m, "income") == KindSum(rs, m, "income")
    ensures KindSum(rs + [r], m, "expense") == KindSum(rs, m, "expense")
    ensures MonthTotal(rs + [r], m, "income") == MonthTotal(rs, m, "income")
    ensures MonthTotal(rs + [r], m, "expense") == MonthTotal(rs, m, "expense")
  {
    var s := rs + [r];
    assert s[..|rs|] == rs;
    assert forall i :: 0 <= i < |rs| ==> s[i] == rs[i];
    assert s[|rs|] == r;
  }
}

=== FILE: permissions.dfy ===
/**
 * `IsOwner` (record/permissions.py): the request-level check always grants, and the
 * object-level check grants exactly the owner of the object's book. The permission's
 * debug output is not modelled.
 */
module Permissions {
  import opened Common
  import opened Ledger
  import opened BookViews

  /** `has_permission`: every request passes; objects are checked later. */
  function HasPermission(user: int, view: string): (granted: bool)
    ensures granted
  {
    true
  }

  /**
   * `has_object_permission` for an object whose book is `book`: a book that cannot be
   * loaded denies; otherwise the book's owner must be the requester. The view and the
   * HTTP method play no part.
   */
  function HasObjectPermission(books: map<int, Book>, book: int, user: int, view: string, verb: string)
    : (granted: bool)
    ensures granted <==> book in books && books[book].owner == user
    ensures book !in books ==> !granted
  {
    if book !in books then false else books[book].owner == user
  }

  /** The object check agrees with the book endpoints: granted exactly when the owner could read the book. */
  lemma PermissionMatchesGet(store: Store, book: int, user: int, view: string, verb: string)
    ensures HasObjectPermission(store.books, book, user, view, verb) <==> GetBook(store, user, book).Ok?
  {
  }

  /** Granted on a record's book means granted on every object of that book, whatever the view. */
  lemma SameBookSameAnswer(books: map<int, Book>, r: Record, t: Transfer, user: int, v1: string, m1: string,
                           v2: string, m2: string)
    requires r.book == t.book
    ensures HasObjectPermission(books, r.book, user, v1, m1) == HasObjectPermission(books, t.book, user, v2, m2)
  {
  }

  /** Two different users are never both granted on the same object. */
  lemma OneOwner(books: map<int, Book>, book: int, u1: int, u2: int, view: string, verb: string)
    requires HasObjectPermission(books, book, u1, view, verb) && HasObjectPermission(books, book, u2, view, verb)
    ensures u1 == u2
  {
  }
}

=== FILE: record_views.dfy ===
/**
 * `all_records_view` and `tax_only_records_view` (record/views.py): a date window
 * given as two YYYY-MM-DD strings, records (and transfers) of one book inside it,
 * sorted by date and optionally grouped by day.
 */
module RecordViews {
  import opened Common
  import opened Calendar
  import opened Ledger
  import opened Sorting
  import opened Grouping

  /** The query parameters both views read. */
  datatype Query = Query(
    bookId: Option<int>,
    startDate: Option<string>,
    endDate: Option<string>,
    groupByDate: Option<string>,
    isDecreasing: Option<string>)

  /** The body of a successful answer: a flat list, or the per-day groups. */
  datatype Listing = Flat(entries: seq<Entry>) | Grouped(groups: seq<DayGroup>)

  /** The entries of a listing in the order they are shown. */
  function Listed(l: Listing): seq<Entry> {
    match l
    case Flat(es) => es
    case Grouped(gs) => Flatten(gs)
  }

  const MissingDates := "Both start_date and end_date are required."
  const BadDateFormat := "Invalid date format. Use YYYY-MM-DD."
  const NoRecord := "No record found"

  /** `params.get(name, 'false').lower() in ['true', 'yes', 't']`. */
  function Flag(p: Option<string>): (b: bool)
    ensures p.None? ==> !b
    ensures b ==> |p.value| == 1 || |p.value| == 3 || |p.value| == 4
  {
    var v := Lower(p.GetOr("false"));
    v == "true" || v == "yes" || v == "t"
  }

  /** The flag ignores letter case: `TRUE`, `Yes` and `T` all switch it on. */
  lemma FlagIgnoresCase(s: string)
    ensures Flag(Some(s)) == Flag(Some(Lower(s)))
    ensures Flag(Some("TRUE")) && Flag(Some("Yes")) && Flag(Some("T"))
    ensures !Flag(Some("1")) && !Flag(Some("")) && !Flag(Some("on"))
  {
    LowerIdempotent(s);
  }

  lemma LowerIdempotent(s: string)
    ensures Lower(Lower(s)) == Lower(s)
  {
  }

  /**
   * Both bounds are required (a missing or empty one is a 400), and both must parse
   * as YYYY-MM-DD (otherwise a 400 too).
   */
  function ParseWindow(start: Option<string>, end: Option<string>): (r: Result<(Date, Date)>)
    ensures !Present(start) || !Present(end) ==> r == Err(BadRequest(MissingDates))
    ensures Present(start) && Present(end) ==>
      (r.Ok? <==> ParseIsoDate(start.value).Some? && ParseIsoDate(end.value).Some?)
    ensures r.Ok? ==>
      Present(start) && Present(end)
      && r.value == (ParseIsoDate(start.value).value, ParseIsoDate(end.value).value)
    ensures r.Err? ==> r.error.BadRequest?
  {
    if !Present(start) || !Present(end) then Err(BadRequest(MissingDates))
    else
      match (ParseIsoDate(start.value), ParseIsoDate(end.value))
      case (Some(lo), Some(hi)) => Ok((lo, hi))
      case _ => Err(BadRequest(BadDateFormat))
  }

  /** `date__range=[start, end]` with both bounds at midnight: inclusive at both ends. */
  predicate InWindow(t: DateTime, lo: Date, hi: Date) {
    AtOrBefore(Midnight(lo), t) && AtOrBefore(t, Midnight(hi))
  }

  /** The end bound is the first instant of the end day: later times that day fall outside. */
  lemma WindowEndsAtMidnight(lo: Date, hi: Date, sec: Second)
    requires lo == hi || DateBefore(lo, hi)
    ensures InWindow(DateTime(hi, 0), lo, hi)
    ensures sec > 0 ==> !InWindow(DateTime(hi, sec), lo, hi)
    ensures InWindow(DateTime(lo, sec), lo, hi) <==> lo != hi || sec == 0
  {
  }

  /** `Record.objects.filter(book__id=book_id, date__range=...)`; no book id matches nothing. */
  predicate RecordSelected(r: Record, bookId: Option<int>, lo: Date, hi: Date) {
    Some(r.book) == bookId && InWindow(r.date, lo, hi)
  }

  predicate TransferSelected(t: Transfer, bookId: Option<int>, lo: Date, hi: Date) {
    Some(t.book) == bookId && InWindow(t.date, lo, hi)
  }

  /** The record lookup as a test on one row. */
  function RecordFilter(bookId: Option<int>, lo: Date, hi: Date): Record -> bool {
    r => RecordSelected(r, bookId, lo, hi)
  }

  function SelectRecords(rs: seq<Record>, bookId: Option<int>, lo: Date, hi: Date): (out: seq<Record>)
    ensures forall r :: r in out <==> r in rs && RecordSelected(r, bookId, lo, hi)
    ensures IsSubsequence(out, rs)
  {
    KeepIsSubsequence(rs, RecordFilter(bookId, lo, hi));
    Keep(rs, RecordFilter(bookId, lo, hi))
  }

  function SelectTransfers(ts: seq<Transfer>, bookId: Option<int>, lo: Date, hi: Date): (out: seq<Transfer>)
    ensures forall t :: t in out <==> t in ts && TransferSelected(t, bookId, lo, hi)
    ensures IsSubsequence(out, ts)
  {
    KeepIsSubsequence(ts, t => TransferSelected(t, bookId, lo, hi));
    Keep(ts, t => TransferSelected(t, bookId, lo, hi))
  }

  /** Every timestamp's entries keep their input order through the sort. */
  lemma SortStableAll(s: seq<Entry>, desc: bool)
    ensures forall t :: DatedAt(SortByDate(s, desc), t) == DatedAt(s, t)
  {
    forall t ensures DatedAt(SortByDate(s, desc), t) == DatedAt(s, t) {
      SortStable(s, desc, t);
    }
  }

  /** Shapes a sorted list as the response body. */
  function Shape(sorted: seq<Entry>, grouped: bool): (l: Listing)
    ensures Listed(l) == sorted
    ensures l.Grouped? <==> grouped
    ensures l.Grouped? ==> l.groups == GroupByDate(sorted)
  {
    if grouped then Grouped(GroupByDate(sorted)) else Flat(sorted)
  }

  /**
   * `all_records_view`: the records and then the transfers of the book inside the
   * window, stably sorted by date (descending when `is_decreasing`), grouped by day
   * when `group_by_date`.
   */
  function AllRecords(q: Query, rs: seq<Record>, ts: seq<Transfer>): (r: Result<Listing>)
    ensures r.Err? <==> ParseWindow(q.startDate, q.endDate).Err?
    ensures r.Err? ==> r.error == ParseWindow(q.startDate, q.endDate).error
    ensures r.Ok? ==>
      var (lo, hi) := ParseWindow(q.startDate, q.endDate).value;
      var out := Listed(r.value);
      var chosenR := SelectRecords(rs, q.bookId, lo, hi);
      var chosenT := SelectTransfers(ts, q.bookId, lo, hi);
      && Sorted(out, Flag(q.isDecreasing))
      && multiset(out) == multiset(Merge(chosenR, chosenT))
      && (forall e :: e in out <==>
            || (e.Rec? && e.r in rs && RecordSelected(e.r, q.bookId, lo, hi))
            || (e.Xfer? && e.t in ts && TransferSelected(e.t, q.bookId, lo, hi)))
      && (forall t :: DatedAt(out, t) == DatedAt(RecordEntries(chosenR), t) + DatedAt(TransferEntries(chosenT), t))
      && (r.value.Grouped? <==> Flag(q.groupByDate))
      && (r.value.Grouped? ==> r.value.groups == GroupByDate(out))
  {
    match ParseWindow(q.startDate, q.endDate)
    case Err(f) => Err(f)
    case Ok((lo, hi)) =>
      var chosenR := SelectRecords(rs, q.bookId, lo, hi);
      var chosenT := SelectTransfers(ts, q.bookId, lo, hi);
      var merged := Merge(chosenR, chosenT);
      var sorted := SortByDate(merged, Flag(q.isDecreasing));
      SortStableAll(merged, Flag(q.isDecreasing));
      forall t ensures DatedAt(merged, t) == DatedAt(RecordEntries(chosenR), t) + DatedAt(TransferEntries(chosenT), t) {
        DatedAtAppend(RecordEntries(chosenR), TransferEntries(chosenT), t);
      }
      assert forall e :: e in sorted <==> e in multiset(merged);
      Ok(Shape(sorted, Flag(q.groupByDate)))
  }

  /** A record marked for the tax return, of the book, inside the window. */
  predicate TaxSelected(r: Record, bookId: Option<int>, lo: Date, hi: Date) {
    RecordSelected(r, bookId, lo, hi) && r.taxReturn
  }

  /** The tax lookup as a test on one row. */
  function TaxFilter(bookId: Option<int>, lo: Date, hi: Date): Record -> bool {
    r => TaxSelected(r, bookId, lo, hi)
  }

  /** `is_marked_tax_return=True` as a test on one row. */
  function Marked(): Record -> bool {
    (r: Record) => r.taxReturn
  }

  /**
   * Records sorted by date and shaped as the response body: a permutation of the
   * records, each timestamp's records in their given order.
   */
  function RecordListing(chosen: seq<Record>, desc: bool, grouped: bool): (l: Listing)
    ensures |Listed(l)| == |chosen| && Sorted(Listed(l), desc)
    ensures multiset(Listed(l)) == multiset(RecordEntries(chosen))
    ensures forall e :: e in Listed(l) <==> e.Rec? && e.r in chosen
    ensures forall t :: DatedAt(Listed(l), t) == DatedAt(RecordEntries(chosen), t)
    ensures l.Grouped? <==> grouped
    ensures l.Grouped? ==> l.groups == GroupByDate(Listed(l))
  {
    var es := RecordEntries(chosen);
    assert forall e :: e in es <==> e.Rec? && e.r in chosen by {
      forall e | e in es ensures e.Rec? && e.r in chosen {
        var i :| 0 <= i < |es| && es[i] == e;
      }
      forall e: Entry | e.Rec? && e.r in chosen ensures e in es {
        var i :| 0 <= i < |chosen| && chosen[i] == e.r;
        assert es[i] == e;
      }
    }
    var sorted := SortByDate(es, desc);
    SortStableAll(es, desc);
    assert forall e :: e in sorted <==> e in multiset(sorted);
    Shape(sorted, grouped)
  }

  function SelectTax(rs: seq<Record>, bookId: Option<int>, lo: Date, hi: Date): (out: seq<Record>)
    ensures forall r :: r in out <==> r in rs && TaxSelected(r, bookId, lo, hi)
    ensures IsSubsequence(out, rs)
  {
    KeepIsSubsequence(rs, TaxFilter(bookId, lo, hi));
    Keep(rs, TaxFilter(bookId, lo, hi))
  }

  /**
   * The tax lookup is the record lookup of `all_records_view` narrowed to marked
   * records, with their table order kept.
   */
  lemma TaxIsMarkedSelection(rs: seq<Record>, bookId: Option<int>, lo: Date, hi: Date)
    ensures SelectTax(rs, bookId, lo, hi) == Keep(SelectRecords(rs, bookId, lo, hi), Marked())
  {
    KeepKeep(rs, RecordFilter(bookId, lo, hi), Marked(), TaxFilter(bookId, lo, hi));
  }

  /**
   * `tax_only_records_view`: the book's tax-return records inside the window ordered by
   * date, or a 404 when there are none.
   */
  function TaxOnly(q: Query, rs: seq<Record>): (r: Result<Listing>)
    ensures ParseWindow(q.startDate, q.endDate).Err? ==> r == Err(ParseWindow(q.startDate, q.endDate).error)
    ensures ParseWindow(q.startDate, q.endDate).Ok? ==>
      var (lo, hi) := ParseWindow(q.startDate, q.endDate).value;
      var chosen := SelectTax(rs, q.bookId, lo, hi);
      && (r.Err? ==> r == Err(NotFound(NoRecord)))
      && (r.Err? <==> forall x :: x in rs ==> !TaxSelected(x, q.bookId, lo, hi))
      && (r.Ok? ==>
            var out := Listed(r.value);
            && out != []
            && Sorted(out, Flag(q.isDecreasing))
            && multiset(out) == multiset(RecordEntries(chosen))
            && (forall e :: e in out <==> e.Rec? && e.r in rs && TaxSelected(e.r, q.bookId, lo, hi))
            && (forall t :: DatedAt(out, t) == DatedAt(RecordEntries(chosen), t))
            && (r.value.Grouped? <==> Flag(q.groupByDate))
            && (r.value.Grouped? ==> r.value.groups == GroupByDate(out)))
  {
    match ParseWindow(q.startDate, q.endDate)
    case Err(f) => Err(f)
    case Ok((lo, hi)) =>
      var chosen := SelectTax(rs, q.bookId, lo, hi);
      if chosen == [] then
        Err(NotFound(NoRecord))
      else
        assert chosen[0] in chosen;
        Ok(RecordListing(chosen, Flag(q.isDecreasing), Flag(q.groupByDate)))
  }
}

=== FILE: scheduled_views.dfy ===
/**
 * The scheduled-record endpoints (record/views/scheduled.py): listing with the
 * `status` and `frequency` query filters, and the pause, resume and execute actions
 * on one schedule. `pause` and `resume` are the schedule's own transitions and enter
 * as parameters; executing queues the schedule's id for processing.
 */
module ScheduledViews {
  import opened Common
  import opened Calendar
  import opened Schedules

  /** `ScheduledRecordList.get_queryset`: each non-empty filter narrows the listing. */
  function ListSchedules(store: seq<Schedule>, status: Option<string>, frequency: Option<string>)
    : (out: seq<Schedule>)
    ensures forall s :: s in out <==>
      && s in store
      && (Present(status) ==> s.status.Name() == status.value)
      && (Present(frequency) ==> s.frequency.Name() == frequency.value)
    ensures IsSubsequence(out, store)
  {
    var a := if Present(status) then Keep(store, (s: Schedule) => s.status.Name() == status.value) else store;
    var b := if Present(frequency) then Keep(a, (s: Schedule) => s.frequency.Name() == frequency.value) else a;
    assert IsSubsequence(a, store) by {
      if Present(status) {
        KeepIsSubsequence(store, (s: Schedule) => s.status.Name() == status.value);
      } else {
        KeepAll(store);
        KeepIsSubsequence(store, (s: Schedule) => true);
      }
    }
    assert IsSubsequence(b, a) by {
      if Present(frequency) {
        KeepIsSubsequence(a, (s: Schedule) => s.frequency.Name() == frequency.value);
      } else {
        KeepAll(a);
        KeepIsSubsequence(a, (s: Schedule) => true);
      }
    }
    SubsequenceTransitive(b, a, store);
    b
  }

  /** Without filters every schedule is listed, in table order. */
  lemma ListWithoutFilters(store: seq<Schedule>, status: Option<string>, frequency: Option<string>)
    requires !Present(status) && !Present(frequency)
    ensures ListSchedules(store, status, frequency) == store
  {
  }

  /** The two filters together are one filter by their conjunction. */
  lemma ListIsConjunction(store: seq<Schedule>, st: string, fr: string)
    requires st != [] && fr != []
    ensures ListSchedules(store, Some(st), Some(fr))
      == Keep(store, (s: Schedule) => s.status.Name() == st && s.frequency.Name() == fr)
  {
    KeepKeep(store, (s: Schedule) => s.status.Name() == st, (s: Schedule) => s.frequency.Name() == fr,
             (s: Schedule) => s.status.Name() == st && s.frequency.Name() == fr);
  }

  /** An action's effect: the schedules, the processing queue and the response. */
  datatype Action = Action(store: seq<Schedule>, queue: seq<int>, response: Result<string>)

  const ScheduleNotFound := NotFound("Schedule not found")
  const CannotExecute := BadRequest("Cannot execute inactive schedule")

  /** The success message of a transition, "Schedule {pk} paused successfully" and the like. */
  function Done(pk: int, done: string): string {
    "Schedule " + IntToString(pk) + " " + done + " successfully"
  }

  /**
   * The shared shape of pause and resume: a missing schedule answers 404 and changes
   * nothing; a lookup that finds several rows is not caught and answers 500.
   */
  function Transition(store: seq<Schedule>, queue: seq<int>, pk: int, step: Schedule -> Schedule, done: string)
    : (r: Action)
    ensures r.queue == queue
    ensures r.response == Err(ScheduleNotFound) <==> forall i :: 0 <= i < |store| ==> store[i].id != pk
    ensures r.response.Err? ==> r.store == store
    ensures r.response.Err? && r.response != Err(ScheduleNotFound) ==> r.response.error.ServerError?
    ensures r.response.Ok? <==> Find(store, pk).Found?
    ensures r.response.Ok? ==>
      && r.response.value == Done(pk, done)
      && r.store == store[Find(store, pk).index := step(store[Find(store, pk).index])]
  {
    match Find(store, pk)
    case Missing => Action(store, queue, Err(ScheduleNotFound))
    case Ambiguous => Action(store, queue, Err(ServerError("MultipleObjectsReturned")))
    case Found(i) =>
      Action(store[i := step(store[i])], queue, Ok(Done(pk, done)))
  }

  /** `ScheduledRecordPause.post`. */
  function Pause(store: seq<Schedule>, queue: seq<int>, pk: int, pause: Schedule -> Schedule): (r: Action)
    ensures r.queue == queue
    ensures !Find(store, pk).Found? ==> r.response.Err? && r.store == store
    ensures r.response == Err(ScheduleNotFound) <==> Find(store, pk).Missing?
    ensures r.response.Err? && r.response != Err(ScheduleNotFound) <==> Find(store, pk).Ambiguous?
    ensures Find(store, pk).Found? ==>
      && r.response == Ok(Done(pk, "paused"))
      && r.store == store[Find(store, pk).index := pause(store[Find(store, pk).index])]
  {
    Transition(store, queue, pk, pause, "paused")
  }

  /**
   * `ScheduledRecordResume.post`: the same action as pause, with the resume transition.
   * A missing schedule is a 404, a key several rows share is an uncaught 500, and a
   * found one is resumed in place with every other row and the queue unchanged.
   */
  function Resume(store: seq<Schedule>, queue: seq<int>, pk: int, resume: Schedule -> Schedule): (r: Action)
    ensures r.queue == queue
    ensures r.response == Err(ScheduleNotFound) <==> Find(store, pk).Missing?
    ensures r.response.Err? && r.response != Err(ScheduleNotFound) <==> Find(store, pk).Ambiguous?
    ensures r.response.Err? ==> r.store == store && (r.response.error.NotFound? || r.response.error.ServerError?)
    ensures forall i: nat :: Find(store, pk) == Found(i) ==>
      r.response == Ok(Done(pk, "resumed")) && r.store == store[i := resume(store[i])]
  {
    Transition(store, queue, pk, resume, "resumed")
  }

  /**
   * Pausing and then resuming a schedule gives the table back, whenever the two
   * transitions keep the schedule's id and resume undoes pause.
   */
  lemma PauseThenResume(store: seq<Schedule>, queue: seq<int>, pk: int,
                        pause: Schedule -> Schedule, resume: Schedule -> Schedule)
    requires forall s :: pause(s).id == s.id
    requires forall s :: resume(pause(s)) == s
    requires Find(store, pk).Found?
    ensures Resume(Pause(store, queue, pk, pause).store, queue, pk, resume).response.Ok?
    ensures Resume(Pause(store, queue, pk, pause).store, queue, pk, resume).store == store
  {
    var i := Find(store, pk).index;
    var paused := Pause(store, queue, pk, pause).store;
    assert forall j :: 0 <= j < |store| ==> paused[j].id == store[j].id;
    assert paused[i].id == pk;
    assert Find(paused, pk) == Found(i);
  }

  /**
   * `ScheduledRecordExecute.post`: only an active schedule is queued, and it is queued
   * whether or not it is due; nothing else changes.
   */
  function Execute(store: seq<Schedule>, queue: seq<int>, pk: int): (r: Action)
    ensures r.store == store
    ensures r.response == Err(ScheduleNotFound) <==> forall i :: 0 <= i < |store| ==> store[i].id != pk
    ensures r.response == Err(CannotExecute) <==> Find(store, pk).Found? && store[Find(store, pk).index].status != Active
    ensures r.response.Ok? <==> Find(store, pk).Found? && store[Find(store, pk).index].status == Active
    ensures r.response.Ok? ==> r.queue == queue + [pk]
    ensures r.response.Err? ==> r.queue == queue
  {
    match Find(store, pk)
    case Missing => Action(store, queue, Err(ScheduleNotFound))
    case Ambiguous => Action(store, queue, Err(ServerError("MultipleObjectsReturned")))
    case Found(i) =>
      if store[i].status != Active then Action(store, queue, Err(CannotExecute))
      else Action(store, queue + [store[i].id], Ok("Schedule " + IntToString(pk) + " execution triggered"))
  }

  /** Executing twice queues the schedule twice: the action is not guarded by `is_due`. */
  lemma ExecuteTwice(store: seq<Schedule>, queue: seq<int>, pk: int)
    requires Execute(store, queue, pk).response.Ok?
    ensures var r := Execute(store, queue, pk);
      Execute(r.store, r.queue, pk).queue == queue + [pk, pk]
  {
  }

  /**
   * A paused schedule cannot be executed, and it is not picked up by the sweep: the
   * two dispatch paths agree on what counts as active.
   */
  lemma InactiveNeverDispatched(store: seq<Schedule>, queue: seq<int>, pk: int, now: DateTime)
    requires Find(store, pk).Found? && store[Find(store, pk).index].status != Active
    ensures Execute(store, queue, pk).queue == queue
    ensures !DueAt(store[Find(store, pk).index], now)
  {
  }
}

=== FILE: schedules.dfy ===
/**
 * Scheduled-record dispatch (record/tasks.py): the periodic sweep that queues the
 * due schedules, the processing of one queued schedule, and the periodic-task table
 * entry each schedule keeps. The schedule's own recurrence rules (`is_due`,
 * `update_next_occurrence`) are not part of this model and enter as parameters.
 */
module Schedules {
  import opened Common
  import opened Calendar

  /** The `frequency` choices. */
  datatype Frequency = Daily | Weekly | Monthly | Annually {
    function Name(): string {
      match this
      case Daily => "daily"
      case Weekly => "weekly"
      case Monthly => "monthly"
      case Annually => "annually"
    }
  }

  /** The `status` choices; a new schedule is `Active`. */
  datatype Status = Active | Paused | Completed {
    function Name(): string {
      match this
      case Active => "active"
      case Paused => "paused"
      case Completed => "completed"
    }
  }

  /** `num_of_days`: between 1 and 365 days. */
  type DayCount = n: int | 1 <= n <= 365 witness 1

  /** A `week_days` entry: Monday is 0 and Sunday is 6. */
  type WeekDay = d: int | 0 <= d <= 6

  datatype Schedule = Schedule(
    id: int,
    frequency: Frequency,
    startDate: DateTime,
    nextOccurrence: DateTime,
    endDate: Option<DateTime>,
    status: Status,
    lastRun: Option<DateTime>,
    numOfDays: DayCount,
    weekDays: seq<WeekDay>,
    monthDay: Option<int>)

  // ---------------------------------------------------------------- lookup

  /** `ScheduledRecord.objects.get(id=...)`: no row, exactly one row, or several. */
  datatype Lookup = Missing | Found(index: nat) | Ambiguous

  function Find(store: seq<Schedule>, id: int): (r: Lookup)
    ensures r.Missing? <==> forall i :: 0 <= i < |store| ==> store[i].id != id
    ensures r.Found? ==> r.index < |store| && store[r.index].id == id
    ensures r.Found? ==> forall j :: 0 <= j < |store| && store[j].id == id ==> j == r.index
    ensures r.Ambiguous? <==> exists i, j :: 0 <= i < j < |store| && store[i].id == id && store[j].id == id
  {
    if store == [] then Missing
    else
      var rest := Find(store[1..], id);
      assert forall i :: 0 < i < |store| ==> store[i] == store[1..][i - 1];
      if store[0].id == id then
        if rest.Missing? then Found(0)
        else
          assert exists j :: 0 < j < |store| && store[j].id == id by {
            if rest.Found? {
              assert store[rest.index + 1].id == id;
            } else {
              var i, j :| 0 <= i < j < |store[1..]| && store[1..][i].id == id && store[1..][j].id == id;
              assert store[i + 1].id == id;
            }
          }
          Ambiguous
      else
        match rest
        case Missing => Missing
        case Found(i) => Found(i + 1)
        case Ambiguous =>
          var i, j :| 0 <= i < j < |store[1..]| && store[1..][i].id == id && store[1..][j].id == id;
          assert store[i + 1].id == id && store[j + 1].id == id;
          Ambiguous
  }

  // ---------------------------------------------------------------- sweep

  /** The sweep's filter: `status='active', next_occurrence__lte=now`. */
  predicate DueAt(s: Schedule, now: DateTime) {
    s.status == Active && AtOrBefore(s.nextOccurrence, now)
  }

  /** `DueAt` as the filter the sweep applies. */
  function DueFilter(now: DateTime): Schedule -> bool {
    s => DueAt(s, now)
  }

  function IdsOf(ss: seq<Schedule>): (ids: seq<int>)
    ensures |ids| == |ss| && forall i :: 0 <= i < |ss| ==> ids[i] == ss[i].id
  {
    seq(|ss|, i requires 0 <= i < |ss| => ss[i].id)
  }

  /** One more schedule in table order adds its id when it is due. */
  lemma DueStep(store: seq<Schedule>, i: nat, now: DateTime)
    requires i < |store|
    ensures IdsOf(Keep(store[..i + 1], DueFilter(now))) ==
      IdsOf(Keep(store[..i], DueFilter(now))) + if DueAt(store[i], now) then [store[i].id] else []
  {
    var p := DueFilter(now);
    assert store[..i + 1] == store[..i] + [store[i]];
    KeepAppend(store[..i], [store[i]], p);
    assert [store[i]][1..] == [];
    assert Keep([store[i]], p) == if DueAt(store[i], now) then [store[i]] else [];
  }

  /** The ids of the due schedules are exactly those of some due schedule. */
  lemma DueIds(store: seq<Schedule>, now: DateTime)
    ensures forall id :: id in IdsOf(Keep(store, DueFilter(now))) <==> exists s :: s in store && s.id == id && DueAt(s, now)
  {
    var due := Keep(store, DueFilter(now));
    var queue := IdsOf(due);
    forall id | id in queue ensures exists s :: s in store && s.id == id && DueAt(s, now) {
      var k :| 0 <= k < |queue| && queue[k] == id;
      assert due[k] in due;
    }
    forall id | exists s :: s in store && s.id == id && DueAt(s, now) ensures id in queue {
      var s :| s in store && s.id == id && DueAt(s, now);
      assert s in due;
      var k :| 0 <= k < |due| && due[k] == s;
      assert queue[k] == id;
    }
  }

  /**
   * `check_due_records`: queues `process_scheduled_record` once for each due schedule,
   * in table order, and reports how many were due.
   */
  method CheckDueRecords(store: seq<Schedule>, now: DateTime) returns (queue: seq<int>, message: string)
    ensures queue == IdsOf(Keep(store, DueFilter(now)))
    ensures forall id :: id in queue <==> exists s :: s in store && s.id == id && DueAt(s, now)
    ensures message == "Checked " + IntToString(|queue|) + " due records"
  {
    queue := [];
    var i := 0;
    while i < |store|
      invariant 0 <= i <= |store|
      invariant queue == IdsOf(Keep(store[..i], DueFilter(now)))
    {
      DueStep(store, i, now);
      if DueAt(store[i], now) {
        queue := queue + [store[i].id];
      }
      i := i + 1;
    }
    assert store[..i] == store;
    DueIds(store, now);
    message := "Checked " + IntToString(|queue|) + " due records";
  }

  /** With distinct schedule ids, the sweep queues no id twice. */
  lemma {:induction false} SweepQueuesOnce(store: seq<Schedule>, now: DateTime)
    requires Distinct(IdsOf(store))
    ensures Distinct(IdsOf(Keep(store, DueFilter(now))))
  {
    if store != [] {
      var tail := store[1..];
      assert Distinct(IdsOf(tail)) by {
        assert forall i :: 0 <= i < |tail| ==> IdsOf(tail)[i] == IdsOf(store)[i + 1];
      }
      SweepQueuesOnce(tail, now);
      if DueAt(store[0], now) {
        var rest := Keep(tail, DueFilter(now));
        assert forall s :: s in tail ==> s.id != store[0].id by {
          assert forall k :: 0 <= k < |tail| ==> tail[k] == store[k + 1] && IdsOf(store)[k + 1] == tail[k].id;
        }
        DistinctCons(store[0], rest);
      }
    }
  }

  lemma DistinctCons(x: Schedule, rest: seq<Schedule>)
    requires Distinct(IdsOf(rest))
    requires forall s :: s in rest ==> s.id != x.id
    ensures Distinct(IdsOf([x] + rest))
  {
    var ids := IdsOf([x] + rest);
    assert forall k :: 0 < k < |ids| ==> ids[k] == IdsOf(rest)[k - 1] && rest[k - 1] in rest;
  }

  // ---------------------------------------------------------------- processing

  datatype Outcome = NoSuchRecord | NotDue | Processed | Failed

  datatype Processing = Processing(store: seq<Schedule>, outcome: Outcome, message: string)

  /** What `update_next_occurrence()` does: the advanced schedule, or the text of the exception it raises. */
  datatype Advance = Advanced(next: Schedule) | Raised(text: string)

  /**
   * `process_scheduled_record`: a missing schedule is reported, a schedule that is not
   * due is left as it is, and a due one is advanced once. Any other exception is
   * caught and reported with its text: a lookup that finds several rows raises with
   * `lookupError`, and advancing may raise too, in which case nothing is saved.
   */
  function Process(store: seq<Schedule>, id: int, isDue: Schedule -> bool, advance: Schedule -> Advance,
                   lookupError: string): (r: Processing)
    ensures |r.store| == |store|
    ensures r.outcome == Processed <==>
      Find(store, id).Found? && isDue(store[Find(store, id).index]) && advance(store[Find(store, id).index]).Advanced?
    ensures r.outcome == NoSuchRecord <==> forall i :: 0 <= i < |store| ==> store[i].id != id
    ensures r.outcome == Failed <==>
      || (exists i, j :: 0 <= i < j < |store| && store[i].id == id && store[j].id == id)
      || (Find(store, id).Found? && isDue(store[Find(store, id).index]) && advance(store[Find(store, id).index]).Raised?)
    ensures r.outcome != Processed ==> r.store == store
    ensures r.outcome == Processed ==>
      && |r.store| == |store|
      && forall i :: 0 <= i < |store| ==>
           r.store[i] == (if store[i].id == id && advance(store[i]).Advanced? then advance(store[i]).next else store[i])
    ensures r.outcome == NoSuchRecord ==> r.message == "Record " + IntToString(id) + " not found"
    ensures r.outcome == NotDue ==> r.message == "Record " + IntToString(id) + " is not due yet or is inactive"
    ensures r.outcome == Processed ==> r.message == "Successfully processed record " + IntToString(id)
    ensures r.outcome == Failed && Find(store, id).Ambiguous? ==>
      r.message == "Error processing record " + IntToString(id) + ": " + lookupError
    ensures r.outcome == Failed && Find(store, id).Found? && advance(store[Find(store, id).index]).Raised? ==>
      r.message == "Error processing record " + IntToString(id) + ": " + advance(store[Find(store, id).index]).text
  {
    var name := IntToString(id);
    match Find(store, id)
    case Missing => Processing(store, NoSuchRecord, "Record " + name + " not found")
    case Ambiguous => Processing(store, Failed, "Error processing record " + name + ": " + lookupError)
    case Found(i) =>
      if !isDue(store[i]) then Processing(store, NotDue, "Record " + name + " is not due yet or is inactive")
      else
        match advance(store[i])
        case Raised(text) => Processing(store, Failed, "Error processing record " + name + ": " + text)
        case Advanced(next) => Processing(store[i := next], Processed, "Successfully processed record " + name)
  }

  /** A schedule that is not due stays not due: processing it again changes nothing either. */
  lemma NotDueIsStable(store: seq<Schedule>, id: int, isDue: Schedule -> bool, advance: Schedule -> Advance,
                       lookupError: string)
    requires Process(store, id, isDue, advance, lookupError).outcome == NotDue
    ensures var r := Process(store, id, isDue, advance, lookupError);
      Process(r.store, id, isDue, advance, lookupError) == r
  {
  }

  /** An advance that raises is reported with its text, and nothing is saved. */
  lemma RaisingAdvanceSavesNothing(store: seq<Schedule>, i: nat, isDue: Schedule -> bool,
                                   advance: Schedule -> Advance, lookupError: string)
    requires i < |store| && Find(store, store[i].id) == Found(i)
    requires isDue(store[i]) && advance(store[i]).Raised?
    ensures var r := Process(store, store[i].id, isDue, advance, lookupError);
      && r == Processing(store, Failed, "Error processing record " + IntToString(store[i].id) + ": " + advance(store[i]).text)
  {
  }

  // ---------------------------------------------------------------- periodic tasks

  /** A row of the periodic-task table, whose names are unique; the interval is in days. */
  datatype PeriodicTask = PeriodicTask(
    name: string, task: string, everyDays: nat, args: seq<int>, startTime: DateTime, enabled: bool)

  const TaskPath := "your_app.tasks.process_scheduled_record"

  /** The task name of schedule `id`. */
  function TaskName(id: int): string {
    "process_record_" + IntToString(id)
  }

  lemma TaskNameInjective(a: int, b: int)
    requires TaskName(a) == TaskName(b)
    ensures a == b
  {
    assert TaskName(a)[15..] == IntToString(a);
    assert TaskName(b)[15..] == IntToString(b);
    IntToStringInjective(a, b);
  }

  /** `create_interval_schedule`: the number of days between runs; no interval for another value. */
  function IntervalDays(frequency: string): (days: Option<nat>)
    ensures days.Some? <==> exists f: Frequency :: f.Name() == frequency
    ensures days.Some? ==> days.value in {1, 7, 30, 365}
  {
    if frequency == Daily.Name() then Some(1)
    else if frequency == Weekly.Name() then Some(7)
    else if frequency == Monthly.Name() then Some(30)
    else if frequency == Annually.Name() then Some(365)
    else
      assert forall f: Frequency :: f.Name() != frequency;
      None
  }

  /** Each frequency has its interval: daily 1, weekly 7, monthly 30, annually 365 days. */
  lemma IntervalOfEachFrequency()
    ensures IntervalDays(Daily.Name()) == Some(1)
    ensures IntervalDays(Weekly.Name()) == Some(7)
    ensures IntervalDays(Monthly.Name()) == Some(30)
    ensures IntervalDays(Annually.Name()) == Some(365)
  {
  }

  /** The interval of a schedule's own frequency; every choice has one. */
  function Every(f: Frequency): (days: nat)
    ensures IntervalDays(f.Name()) == Some(days)
  {
    IntervalDays(f.Name()).value
  }

  /**
   * `create_or_update_periodic_task`: the schedule's task is removed first; an active
   * schedule then gets a fresh one that runs it from its start date at its interval.
   */
  function SyncTask(tasks: map<string, PeriodicTask>, s: Schedule): (r: map<string, PeriodicTask>)
    ensures forall n :: n != TaskName(s.id) ==> (n in r <==> n in tasks)
    ensures forall n :: n != TaskName(s.id) && n in tasks ==> r[n] == tasks[n]
    ensures TaskName(s.id) in r <==> s.status == Active
    ensures s.status == Active ==>
      r[TaskName(s.id)] == PeriodicTask(TaskName(s.id), TaskPath, Every(s.frequency), [s.id], s.startDate, true)
  {
    var name := TaskName(s.id);
    var cleared := tasks - {name};
    if s.status != Active then cleared
    else cleared[name := PeriodicTask(name, TaskPath, Every(s.frequency), [s.id], s.startDate, true)]
  }

  /** Syncing a schedule twice is syncing it once. */
  lemma SyncIdempotent(tasks: map<string, PeriodicTask>, s: Schedule)
    ensures SyncTask(SyncTask(tasks, s), s) == SyncTask(tasks, s)
  {
  }

  /** Syncing one schedule never touches the task of a schedule with another id. */
  lemma SyncKeepsOthers(tasks: map<string, PeriodicTask>, s: Schedule, other: int)
    requires other != s.id
    ensures TaskName(other) in SyncTask(tasks, s) <==> TaskName(other) in tasks
    ensures TaskName(other) in tasks ==> SyncTask(tasks, s)[TaskName(other)] == tasks[TaskName(other)]
  {
    if TaskName(other) == TaskName(s.id) {
      TaskNameInjective(other, s.id);
    }
  }

  /** Schedules with different ids can be synced in either order. */
  lemma SyncCommutes(tasks: map<string, PeriodicTask>, a: Schedule, b: Schedule)
    requires a.id != b.id
    ensures SyncTask(SyncTask(tasks, a), b) == SyncTask(SyncTask(tasks, b), a)
  {
    if TaskName(a.id) == TaskName(b.id) {
      TaskNameInjective(a.id, b.id);
    }
  }
}

=== FILE: social_sign_in.dfy ===
/**
 * The create-or-overwrite flow the Google and Facebook sign-ins share
 * (user/views/google_auth.py:39-106, user/views/facebook_auth.py:47-121). A profile
 * whose email no user has creates a user named by that email and a verified account
 * of the provider, then stores the profile picture when its download answers 200.
 * A known user gets an account with the provider's defaults, or has their account
 * overwritten to the provider whatever it was linked to before. Neither view uses a
 * transaction, so a failure after the inserts leaves them in place.
 */
module SocialSignIn {
  import opened Common
  import opened Base64
  import opened Accounts

  /** The identity as the provider reports it, the email already defaulted. */
  datatype Profile = Profile(email: string, name: string, sub: string, picture: Option<string>)

  /**
   * The outcome of downloading the picture: a status and body, or the exception raised,
   * with its text and whether it is a `ValueError` (as requests' `MissingSchema`,
   * `InvalidSchema` and `InvalidURL` for a malformed picture URL are).
   */
  datatype Fetch = Fetched(status: int, content: seq<Byte>) | FetchFailed(text: string, valueError: bool)

  /** The text of the integrity error a second user with the same username raises. */
  const DuplicateUsername := ServerError("UNIQUE constraint failed: auth_user.username")

  /** The account row the provider's defaults describe. */
  function ProviderAccount(user: int, provider: string, accountId: Option<string>, p: Profile, hex: Hex10): (a: Account)
    ensures a.user == user && a.provider == Some(provider) && a.socialId == Some(p.sub)
    ensures a.status == "verified" && a.nickname == p.name && a.avatar == []
    ensures a.accountId == Some(AccountIdOr(accountId, hex))
  {
    Account(0, user, Some(AccountIdOr(accountId, hex)), p.name, "verified", Some(provider), Some(p.sub), [])
  }

  /** The answer for account `a` of a user with `email`; the avatar is sent as base64. */
  function Respond(a: Account, email: string): (r: AuthInfo)
    ensures r.id == a.id && r.status == a.status && r.nickname == a.nickname && r.email == email
    ensures r.avatar.None? <==> a.avatar == []
    ensures r.avatar.Some? ==> Decode(r.avatar.value) == Some(a.avatar)
    ensures r.book.None?
  {
    InfoOf(a, email, AvatarText(a.avatar), None)
  }

  /**
   * The picture, when the profile has one, is downloaded for the account at `i` and
   * kept on 200; any other status leaves the account as it was. A download that
   * raises ends the flow with the exception, reported as the generic handler does:
   * a 500 carrying its text. A view that catches `ValueError` first answers it
   * otherwise (see `GoogleAuth.GoogleSignIn`).
   */
  function StorePicture(t: Tables, i: nat, picture: Option<string>, fetch: Fetch, email: string): (r: SignIn)
    requires i < |t.accounts|
    ensures r.response.Err? <==> Present(picture) && fetch.FetchFailed?
    ensures r.response.Err? ==> r.tables == t && r.response.error == ServerError(fetch.text)
    ensures Present(picture) && fetch.Fetched? && fetch.status == 200 ==>
      && r.tables.accounts == t.accounts[i := t.accounts[i].(avatar := fetch.content)]
      && r.tables.users == t.users && r.tables.nextUser == t.nextUser && r.tables.nextAccount == t.nextAccount
    ensures !(Present(picture) && fetch.Fetched? && fetch.status == 200) ==> r.tables == t
    ensures r.response.Ok? ==> r.response.value == Respond(r.tables.accounts[i], email)
  {
    var a := t.accounts[i];
    if !Present(picture) then SignIn(t, Ok(Respond(a, email)))
    else
      match fetch
      case FetchFailed(text, _) => SignIn(t, Err(ServerError(text)))
      case Fetched(status, content) =>
        if status == 200 then
          var b := a.(avatar := content);
          SignIn(SetAccount(t, i, b), Ok(Respond(b, email)))
        else SignIn(t, Ok(Respond(a, email)))
  }

  /** Provider `provider` overwritten onto an existing account (google_auth.py:87-92, facebook_auth.py:95-99). */
  function Overwrite(a: Account, provider: string, p: Profile): (b: Account)
    ensures b.id == a.id && b.user == a.user && b.accountId == a.accountId && b.avatar == a.avatar
    ensures b.nickname == p.name && b.provider == Some(provider) && b.socialId == Some(p.sub) && b.status == "verified"
  {
    a.(nickname := p.name, provider := Some(provider), socialId := Some(p.sub), status := "verified")
  }

  /**
   * The shared flow. `refresh` says whether an overwritten account downloads the
   * picture again (Facebook does, Google does not); at most one download happens, and
   * `fetch` is its outcome.
   */
  function SignInWith(t: Tables, provider: string, accountId: Option<string>, p: Profile, hex: Hex10,
                      fetch: Fetch, refresh: bool): (r: SignIn)
    ensures r.response.Ok? ==> r.response.value.status == "verified" && r.response.value.nickname == p.name
    ensures r.response.Ok? ==> r.response.value.email == p.email
  {
    match UserByEmail(t, p.email)
    case None =>
      if UserByName(t, p.email).Some? then SignIn(t, Err(DuplicateUsername))
      else
        var t1 := AddUser(t, p.email, p.email);
        var t2 := AddAccount(t1, ProviderAccount(t.nextUser, provider, accountId, p, hex));
        StorePicture(t2, |t.accounts|, p.picture, fetch, p.email)
    case Some(k) =>
      var u := t.users[k];
      match AccountOf(t, u.id)
      case None =>
        var a := ProviderAccount(u.id, provider, accountId, p, hex);
        SignIn(AddAccount(t, a), Ok(Respond(a.(id := t.nextAccount), u.email)))
      case Some(i) =>
        var t1 := SetAccount(t, i, Overwrite(t.accounts[i], provider, p));
        if refresh then
          match StorePicture(t1, i, p.picture, fetch, u.email)
          case SignIn(_, Err(e)) => SignIn(t, Err(e))
          case done => done
        else SignIn(t1, Ok(Respond(t1.accounts[i], u.email)))
  }

  // ---------------------------------------------------------------- properties

  /**
   * The flow downloads the picture: the profile has one, and either the email is new
   * (and the username free, so the inserts happen) or an existing account is
   * overwritten with `refresh` set.
   */
  predicate Downloads(t: Tables, p: Profile, refresh: bool) {
    && Present(p.picture)
    && match UserByEmail(t, p.email)
       case None => UserByName(t, p.email).None?
       case Some(k) => refresh && AccountOf(t, t.users[k].id).Some?
  }

  /**
   * The download's outcome matters only when the flow downloads: then a raised
   * exception ends it with a 500 carrying the exception's text, and otherwise any
   * two outcomes give the same result.
   */
  lemma FetchMattersOnlyWhenDownloading(t: Tables, provider: string, accountId: Option<string>, p: Profile,
                                        hex: Hex10, fetch: Fetch, other: Fetch, refresh: bool)
    ensures Downloads(t, p, refresh) && fetch.FetchFailed? ==>
      SignInWith(t, provider, accountId, p, hex, fetch, refresh).response == Err(ServerError(fetch.text))
    ensures !Downloads(t, p, refresh) ==>
      SignInWith(t, provider, accountId, p, hex, fetch, refresh)
        == SignInWith(t, provider, accountId, p, hex, other, refresh)
  {
  }

  /** The account with this key is the provider's account for `p`, and its user has `p`'s email. */
  predicate LinkedTo(t: Tables, id: int, provider: string, p: Profile) {
    exists i :: 0 <= i < |t.accounts| && t.accounts[i].id == id
      && t.accounts[i].provider == Some(provider) && t.accounts[i].socialId == Some(p.sub)
      && t.accounts[i].status == "verified" && t.accounts[i].nickname == p.name
      && EmailOf(t, t.accounts[i].user) == p.email
  }

  /** A new email creates a user named by it and a verified account of the provider. */
  lemma NewEmailCreates(t: Tables, provider: string, accountId: Option<string>, p: Profile, hex: Hex10,
                        fetch: Fetch, refresh: bool)
    requires UserByEmail(t, p.email).None? && UserByName(t, p.email).None?
    ensures var r := SignInWith(t, provider, accountId, p, hex, fetch, refresh);
      && r.tables.users == t.users + [User(t.nextUser, p.email, p.email)]
      && |r.tables.accounts| == |t.accounts| + 1
      && r.tables.accounts[..|t.accounts|] == t.accounts
      && var a := r.tables.accounts[|t.accounts|];
         a.id == t.nextAccount && a.user == t.nextUser && a.provider == Some(provider) && a.socialId == Some(p.sub)
         && a.status == "verified" && a.accountId == Some(AccountIdOr(accountId, hex))
  {
  }

  /**
   * Only a download answering 200 stores a picture: a new account keeps the body of
   * such a download and is otherwise left without an avatar.
   */
  lemma NewAccountAvatar(t: Tables, provider: string, accountId: Option<string>, p: Profile, hex: Hex10,
                         fetch: Fetch, refresh: bool)
    requires UserByEmail(t, p.email).None? && UserByName(t, p.email).None?
    ensures var r := SignInWith(t, provider, accountId, p, hex, fetch, refresh);
      r.tables.accounts[|t.accounts|].avatar ==
        if Present(p.picture) && fetch.Fetched? && fetch.status == 200 then fetch.content else []
  {
  }

  /**
   * A failed download after the inserts answers 500 but leaves the new user and
   * account in place, as no transaction wraps the view.
   */
  lemma FailedDownloadKeepsInserts(t: Tables, provider: string, accountId: Option<string>, p: Profile, hex: Hex10,
                                   text: string, valueError: bool, refresh: bool)
    requires UserByEmail(t, p.email).None? && UserByName(t, p.email).None? && Present(p.picture)
    ensures var r := SignInWith(t, provider, accountId, p, hex, FetchFailed(text, valueError), refresh);
      && r.response == Err(ServerError(text))
      && r.tables == AddAccount(AddUser(t, p.email, p.email), ProviderAccount(t.nextUser, provider, accountId, p, hex))
  {
  }

  /**
   * An existing account is taken over by the provider whatever it was linked to; its
   * key, user and account id stay, and its avatar changes only when it is refreshed
   * by a download answering 200.
   */
  lemma ExistingAccountOverwritten(t: Tables, provider: string, accountId: Option<string>, p: Profile, hex: Hex10,
                                   fetch: Fetch, refresh: bool, k: nat, i: nat)
    requires UserByEmail(t, p.email) == Some(k) && AccountOf(t, t.users[k].id) == Some(i)
    requires SignInWith(t, provider, accountId, p, hex, fetch, refresh).response.Ok?
    ensures var r := SignInWith(t, provider, accountId, p, hex, fetch, refresh);
      && r.tables.users == t.users
      && r.tables.accounts == t.accounts[i := r.tables.accounts[i]]
      && var b := r.tables.accounts[i];
         && b == Overwrite(t.accounts[i], provider, p).(avatar := b.avatar)
         && b.avatar == if refresh && Present(p.picture) && fetch.Fetched? && fetch.status == 200
                        then fetch.content else t.accounts[i].avatar
  {
  }

  /** A failed refresh download answers 500 and saves nothing of the overwrite. */
  lemma FailedRefreshChangesNothing(t: Tables, provider: string, accountId: Option<string>, p: Profile, hex: Hex10,
                                    text: string, valueError: bool, k: nat, i: nat)
    requires UserByEmail(t, p.email) == Some(k) && AccountOf(t, t.users[k].id) == Some(i)
    requires Present(p.picture)
    ensures SignInWith(t, provider, accountId, p, hex, FetchFailed(text, valueError), true) == SignIn(t, Err(ServerError(text)))
  {
  }

  /**
   * Every failure but a failed download after the inserts leaves the tables as they
   * were.
   */
  lemma FailuresChangeNothing(t: Tables, provider: string, accountId: Option<string>, p: Profile, hex: Hex10,
                              fetch: Fetch, refresh: bool)
    requires !(UserByEmail(t, p.email).None? && UserByName(t, p.email).None?)
    requires SignInWith(t, provider, accountId, p, hex, fetch, refresh).response.Err?
    ensures SignInWith(t, provider, accountId, p, hex, fetch, refresh).tables == t
  {
  }

  /**
   * A success leaves the provider's verified account for the profile under the
   * reported key, owned by the user with the profile's email.
   */
  lemma SignInLinks(t: Tables, provider: string, accountId: Option<string>, p: Profile, hex: Hex10,
                    fetch: Fetch, refresh: bool)
    requires Valid(t)
    requires SignInWith(t, provider, accountId, p, hex, fetch, refresh).response.Ok?
    ensures var r := SignInWith(t, provider, accountId, p, hex, fetch, refresh);
      LinkedTo(r.tables, r.response.value.id, provider, p)
  {
    match UserByEmail(t, p.email)
    case None =>
      NewUserLinks(t, provider, accountId, p, hex, fetch, refresh);
    case Some(k) =>
      KnownUserLinks(t, provider, accountId, p, hex, fetch, refresh, k);
  }

  lemma NewUserLinks(t: Tables, provider: string, accountId: Option<string>, p: Profile, hex: Hex10,
                     fetch: Fetch, refresh: bool)
    requires Valid(t)
    requires UserByEmail(t, p.email).None?
    requires SignInWith(t, provider, accountId, p, hex, fetch, refresh).response.Ok?
    ensures var r := SignInWith(t, provider, accountId, p, hex, fetch, refresh);
      LinkedTo(r.tables, r.response.value.id, provider, p)
  {
    var r := SignInWith(t, provider, accountId, p, hex, fetch, refresh);
    var n := |t.accounts|;
    assert r.tables.users == t.users + [User(t.nextUser, p.email, p.email)];
    forall j | 0 <= j < |t.users| ensures r.tables.users[j].id != t.nextUser {
      assert r.tables.users[j] == t.users[j];
    }
    UserAt(r.tables, |t.users|);
    assert r.tables.accounts[n].id == r.response.value.id;
    assert r.tables.accounts[n].user == t.nextUser;
  }

  lemma KnownUserLinks(t: Tables, provider: string, accountId: Option<string>, p: Profile, hex: Hex10,
                       fetch: Fetch, refresh: bool, k: nat)
    requires Valid(t)
    requires UserByEmail(t, p.email) == Some(k)
    requires SignInWith(t, provider, accountId, p, hex, fetch, refresh).response.Ok?
    ensures var r := SignInWith(t, provider, accountId, p, hex, fetch, refresh);
      LinkedTo(r.tables, r.response.value.id, provider, p)
  {
    match AccountOf(t, t.users[k].id)
    case None =>
      var r := SignInWith(t, provider, accountId, p, hex, fetch, refresh);
      var u := t.users[k];
      UserAt(t, k);
      assert r.tables.users == t.users;
      assert r.tables.accounts[|t.accounts|].id == r.response.value.id;
      assert r.tables.accounts[|t.accounts|].user == u.id;
    case Some(i) =>
      KnownAccountLinks(t, provider, accountId, p, hex, fetch, refresh, k, i);
  }

  lemma KnownAccountLinks(t: Tables, provider: string, accountId: Option<string>, p: Profile, hex: Hex10,
                          fetch: Fetch, refresh: bool, k: nat, i: nat)
    requires Valid(t)
    requires UserByEmail(t, p.email) == Some(k) && AccountOf(t, t.users[k].id) == Some(i)
    requires SignInWith(t, provider, accountId, p, hex, fetch, refresh).response.Ok?
    ensures var r := SignInWith(t, provider, accountId, p, hex, fetch, refresh);
      LinkedTo(r.tables, r.response.value.id, provider, p)
  {
    var r := SignInWith(t, provider, accountId, p, hex, fetch, refresh);
    ExistingAccountOverwritten(t, provider, accountId, p, hex, fetch, refresh, k, i);
    UserAt(t, k);
    var b := r.tables.accounts[i];
    assert b.id == r.response.value.id;
    assert b.user == t.users[k].id;
    assert EmailOf(r.tables, b.user) == p.email;
  }

  /** Every sign-in keeps the tables' integrity, the partial writes of a failure included. */
  lemma SignInKeepsValid(t: Tables, provider: string, accountId: Option<string>, p: Profile, hex: Hex10,
                         fetch: Fetch, refresh: bool)
    requires Valid(t)
    ensures Valid(SignInWith(t, provider, accountId, p, hex, fetch, refresh).tables)
  {
    match UserByEmail(t, p.email)
    case None =>
      if UserByName(t, p.email).None? {
        NewUserValid(t, provider, accountId, p, hex, fetch, refresh);
      }
    case Some(k) =>
      KnownUserValid(t, provider, accountId, p, hex, fetch, refresh, k);
  }

  lemma NewUserValid(t: Tables, provider: string, accountId: Option<string>, p: Profile, hex: Hex10,
                     fetch: Fetch, refresh: bool)
    requires Valid(t)
    requires UserByEmail(t, p.email).None? && UserByName(t, p.email).None?
    ensures Valid(SignInWith(t, provider, accountId, p, hex, fetch, refresh).tables)
  {
    var a := ProviderAccount(t.nextUser, provider, accountId, p, hex);
    AddUserAccountValid(t, p.email, p.email, a);
    var t2 := AddAccount(AddUser(t, p.email, p.email), a);
    if Present(p.picture) && fetch.Fetched? && fetch.status == 200 {
      SetAccountValid(t2, |t.accounts|, t2.accounts[|t.accounts|].(avatar := fetch.content));
    }
  }

  lemma KnownUserValid(t: Tables, provider: string, accountId: Option<string>, p: Profile, hex: Hex10,
                       fetch: Fetch, refresh: bool, k: nat)
    requires Valid(t)
    requires UserByEmail(t, p.email) == Some(k)
    ensures Valid(SignInWith(t, provider, accountId, p, hex, fetch, refresh).tables)
  {
    var u := t.users[k];
    match AccountOf(t, u.id)
    case None =>
      AddAccountValid(t, ProviderAccount(u.id, provider, accountId, p, hex));
    case Some(i) =>
      KnownAccountValid(t, provider, accountId, p, hex, fetch, refresh, k, i);
  }

  lemma KnownAccountValid(t: Tables, provider: string, accountId: Option<string>, p: Profile, hex: Hex10,
                          fetch: Fetch, refresh: bool, k: nat, i: nat)
    requires Valid(t)
    requires UserByEmail(t, p.email) == Some(k) && AccountOf(t, t.users[k].id) == Some(i)
    ensures Valid(SignInWith(t, provider, accountId, p, hex, fetch, refresh).tables)
  {
    var r := SignInWith(t, provider, accountId, p, hex, fetch, refresh);
    var b := Overwrite(t.accounts[i], provider, p);
    var t1 := SetAccount(t, i, b);
    SetAccountValid(t, i, b);
    if r.tables != t && r.tables != t1 {
      assert fetch.Fetched? && r.tables == SetAccount(t1, i, b.(avatar := fetch.content));
      SetAccountValid(t1, i, b.(avatar := fetch.content));
    }
  }
}

=== FILE: sorting.dfy ===
/**
 * Python's `list.sort(key=date, reverse=desc)` / `sorted(...)` on merged entries:
 * a stable sort, and `reverse=True` keeps equal elements in their original order.
 */
module Sorting {
  import opened Calendar
  import opened Ledger

  /** Under direction `desc`, `a` belongs strictly before `b`. */
  predicate Ahead(a: Entry, b: Entry, desc: bool) {
    if desc then Earlier(b.Date(), a.Date()) else Earlier(a.Date(), b.Date())
  }

  predicate Sorted(s: seq<Entry>, desc: bool) {
    forall i, j :: 0 <= i < j < |s| ==> !Ahead(s[j], s[i], desc)
  }

  /** The entries dated exactly `t`, in their order in `s`. */
  function DatedAt(s: seq<Entry>, t: DateTime): seq<Entry> {
    if s == [] then [] else (if s[0].Date() == t then [s[0]] else []) + DatedAt(s[1..], t)
  }

  lemma {:induction false} DatedAtAppend(a: seq<Entry>, b: seq<Entry>, t: DateTime)
    ensures DatedAt(a + b, t) == DatedAt(a, t) + DatedAt(b, t)
  {
    if a == [] {
      assert a + b == b;
    } else {
      assert (a + b)[1..] == a[1..] + b;
      DatedAtAppend(a[1..], b, t);
    }
  }

  lemma NotAheadTransitive(p: Entry, q: Entry, r: Entry, desc: bool)
    requires !Ahead(p, q, desc) && !Ahead(q, r, desc)
    ensures !Ahead(p, r, desc)
  {
    EarlierTotal(p.Date(), q.Date());
    EarlierTotal(q.Date(), r.Date());
    EarlierTotal(p.Date(), r.Date());
  }

  lemma PrependSorted(x: Entry, s: seq<Entry>, desc: bool)
    requires Sorted(s, desc)
    requires s == [] || !Ahead(s[0], x, desc)
    ensures Sorted([x] + s, desc)
  {
    forall j | 0 <= j < |s|
      ensures !Ahead(s[j], x, desc)
    {
      if j > 0 {
        NotAheadTransitive(s[j], s[0], x, desc);
      }
    }
  }

  lemma ConsSorted(h: Entry, rest: seq<Entry>, desc: bool)
    requires Sorted(rest, desc)
    requires forall y :: y in rest ==> !Ahead(y, h, desc)
    ensures Sorted([h] + rest, desc)
  {
    forall i, j | 0 <= i < j < |[h] + rest|
      ensures !Ahead(([h] + rest)[j], ([h] + rest)[i], desc)
    {
      if i == 0 {
        assert ([h] + rest)[j] in rest;
      }
    }
  }

  /** Places `x` before the first element it does not strictly follow. */
  function Insert(x: Entry, s: seq<Entry>, desc: bool): (r: seq<Entry>)
    requires Sorted(s, desc)
    ensures Sorted(r, desc)
    ensures multiset(r) == multiset(s) + multiset{x}
  {
    if s == [] || !Ahead(s[0], x, desc) then
      PrependSorted(x, s, desc);
      [x] + s
    else
      var rest := Insert(x, s[1..], desc);
      assert s == [s[0]] + s[1..];
      assert forall y :: y in rest ==> y == x || y in s[1..] by {
        forall y | y in rest
          ensures y == x || y in s[1..]
        {
          assert y in multiset(rest);
        }
      }
      EarlierTotal(s[0].Date(), x.Date());
      ConsSorted(s[0], rest, desc);
      [s[0]] + rest
  }

  /** Stable insertion sort by date, ascending or (desc) descending. */
  function SortByDate(s: seq<Entry>, desc: bool): (r: seq<Entry>)
    ensures Sorted(r, desc)
    ensures multiset(r) == multiset(s)
    ensures |r| == |s|
  {
    if s == [] then []
    else
      assert s == [s[0]] + s[1..];
      Insert(s[0], SortByDate(s[1..], desc), desc)
  }

  lemma DatedAtSingle(a: Entry, t: DateTime)
    ensures DatedAt([a], t) == if a.Date() == t then [a] else []
  {
    assert [a][1..] == [];
  }

  /** Passing an entry with a different timestamp does not reorder the entries dated `t`. */
  lemma SwapStable(h: Entry, x: Entry, tail: seq<Entry>, rest: seq<Entry>, t: DateTime)
    requires h.Date() != x.Date()
    requires DatedAt(rest, t) == DatedAt([x] + tail, t)
    ensures DatedAt([h] + rest, t) == DatedAt([x] + ([h] + tail), t)
  {
    var dh, dx, dt := DatedAt([h], t), DatedAt([x], t), DatedAt(tail, t);
    DatedAtAppend([h], rest, t);
    DatedAtAppend([x], tail, t);
    DatedAtAppend([h], tail, t);
    DatedAtAppend([x], [h] + tail, t);
    DatedAtSingle(x, t);
    DatedAtSingle(h, t);
    SwapEmpty(dh, dx, dt);
  }

  /** Two blocks of which one is empty can trade places. */
  lemma SwapEmpty(a: seq<Entry>, b: seq<Entry>, c: seq<Entry>)
    requires a == [] || b == []
    ensures a + (b + c) == b + (a + c)
  {
    if a == [] {
      assert a + (b + c) == b + c == b + (a + c);
    } else {
      assert a + (b + c) == a + c == b + (a + c);
    }
  }

  lemma {:induction false} InsertStable(x: Entry, s: seq<Entry>, desc: bool, t: DateTime)
    requires Sorted(s, desc)
    ensures DatedAt(Insert(x, s, desc), t) == DatedAt([x] + s, t)
  {
    if s != [] && Ahead(s[0], x, desc) {
      var h, tail := s[0], s[1..];
      assert s == [h] + tail;
      var rest := Insert(x, tail, desc);
      assert Insert(x, s, desc) == [h] + rest;
      InsertStable(x, tail, desc, t);
      SwapStable(h, x, tail, rest, t);
    }
  }

  /** Stability: for every timestamp, the entries carrying it keep their input order. */
  lemma {:induction false} SortStable(s: seq<Entry>, desc: bool, t: DateTime)
    ensures DatedAt(SortByDate(s, desc), t) == DatedAt(s, t)
  {
    if s != [] {
      SortStable(s[1..], desc, t);
      InsertStable(s[0], SortByDate(s[1..], desc), desc, t);
      assert s == [s[0]] + s[1..];
      DatedAtAppend([s[0]], SortByDate(s[1..], desc), t);
      DatedAtAppend([s[0]], s[1..], t);
    }
  }

  /** Sorting an already sorted list changes nothing. */
  lemma {:induction false} SortSortedIsIdentity(s: seq<Entry>, desc: bool)
    requires Sorted(s, desc)
    ensures SortByDate(s, desc) == s
  {
    if s != [] {
      assert Sorted(s[1..], desc);
      SortSortedIsIdentity(s[1..], desc);
      assert s == [s[0]] + s[1..];
    }
  }
}

=== FILE: trend.dfy ===
/**
 * `RecordTrendView` (record/views/trend.py): a `time_frame` of the form `YYYY`,
 * `YYYY-MM` or `YYYY@WW` selects 12 monthly, days-in-month daily or 7 daily buckets;
 * each bucket shows |running total| in 'balance' mode and |bucket total| otherwise.
 */
module Trend {
  import opened Common
  import opened Calendar
  import opened Ledger

  datatype TimeFrame =
    | YearFrame(year: int)
    | MonthFrame(year: int, month: int)
    | WeekFrame(year: int, week: int)

  const InvalidTimeFrame := "Invalid time_frame format"

  // ---------------------------------------------------------------- parsing

  /**
   * The dispatch of `list`: '@' means a week, else '-' a month, else all digits a year,
   * else a validation error (400). A split into other than two parts, or a part `int()`
   * rejects, raises and is answered with a 500.
   */
  function ParseTimeFrame(s: string): (r: Result<TimeFrame>)
    ensures '@' in s ==>
      && (r.Ok? <==> SplitOnce(s, '@').Some?
                     && ParseInt(SplitOnce(s, '@').value.0).Some? && ParseInt(SplitOnce(s, '@').value.1).Some?)
      && (r.Ok? ==> r.value == WeekFrame(ParseInt(SplitOnce(s, '@').value.0).value,
                                         ParseInt(SplitOnce(s, '@').value.1).value))
    ensures '@' !in s && '-' in s ==>
      && (r.Ok? <==> SplitOnce(s, '-').Some?
                     && ParseInt(SplitOnce(s, '-').value.0).Some? && ParseInt(SplitOnce(s, '-').value.1).Some?)
      && (r.Ok? ==> r.value == MonthFrame(ParseInt(SplitOnce(s, '-').value.0).value,
                                          ParseInt(SplitOnce(s, '-').value.1).value))
    ensures '@' !in s && '-' !in s ==> (r.Ok? <==> s != [] && AllDigits(s))
    ensures '@' !in s && '-' !in s && r.Ok? ==> r.value == YearFrame(DigitsValue(s))
    ensures r.Ok? && r.value.YearFrame? ==> r.value.year >= 0
    ensures (r.Err? && r.error.BadRequest?) <==> '@' !in s && '-' !in s && !(s != [] && AllDigits(s))
    ensures r.Err? ==> r.error.BadRequest? || r.error.ServerError?
  {
    if '@' in s then
      match SplitOnce(s, '@')
      case None => Err(ServerError("wrong number of values to unpack"))
      case Some((y, w)) =>
        if ParseInt(y).Some? && ParseInt(w).Some? then Ok(WeekFrame(ParseInt(y).value, ParseInt(w).value))
        else Err(ServerError("invalid literal for int()"))
    else if '-' in s then
      match SplitOnce(s, '-')
      case None => Err(ServerError("wrong number of values to unpack"))
      case Some((y, m)) =>
        if ParseInt(y).Some? && ParseInt(m).Some? then Ok(MonthFrame(ParseInt(y).value, ParseInt(m).value))
        else Err(ServerError("invalid literal for int()"))
    else if s != [] && AllDigits(s) then Ok(YearFrame(DigitsValue(s)))
    else Err(BadRequest(InvalidTimeFrame))
  }

  /** A second '@' breaks the two-way unpacking, which is a 500. */
  lemma TwoSeparatorsFail()
    ensures ParseTimeFrame("1@2@3") == Err(ServerError("wrong number of values to unpack"))
  {
    var a := "1@2@3";
    assert a[1..] == "@2@3" && "@2@3"[1..] == "2@3" && "2@3"[1] == '@';
    assert SplitOnce(a, '@') == None;
  }

  /** A week that is not a numeral breaks `int()`, which is a 500. */
  lemma BadWeekFails()
    ensures ParseTimeFrame("2023@x") == Err(ServerError("invalid literal for int()"))
  {
    var b := "2023@x";
    assert SplitOnce(b, '@') == Some(("2023", "x")) by {
      SplitOnceOf("2023", '@', "x");
      assert b == "2023" + ['@'] + "x";
    }
    assert !IsDigit('x');
  }

  /** The `time_frame` text a client sends for a frame. */
  function FormatTimeFrame(tf: TimeFrame): string
    requires tf.YearFrame? ==> tf.year >= 0
    requires tf.MonthFrame? ==> tf.year >= 0 && tf.month >= 0
  {
    match tf
    case YearFrame(y) => NatToString(y)
    case MonthFrame(y, m) => NatToString(y) + "-" + NatToString(m)
    case WeekFrame(y, w) => IntToString(y) + "@" + IntToString(w)
  }

  lemma {:induction false} NoSeparatorInDigits(s: string, c: char)
    requires AllDigits(s) && !IsDigit(c)
    ensures c !in s
  {
  }

  lemma IntToStringShape(i: int)
    ensures '@' !in IntToString(i)
    ensures i >= 0 ==> '-' !in IntToString(i)
    ensures ParseInt(IntToString(i)) == Some(i)
  {
    IntToStringRoundTrip(i);
    if i < 0 {
      var d := NatToString(-i);
      NoSeparatorInDigits(d, '@');
      assert ("-" + d)[1..] == d;
    } else {
      NoSeparatorInDigits(NatToString(i), '@');
      NoSeparatorInDigits(NatToString(i), '-');
    }
  }

  /** Splitting at the only occurrence of `c` gives back the two parts. */
  lemma {:induction false} SplitOnceOf(a: string, c: char, b: string)
    requires c !in a && c !in b
    ensures SplitOnce(a + [c] + b, c) == Some((a, b))
  {
    var s := a + [c] + b;
    if a == [] {
      assert s[0] == c && s[1..] == b;
    } else {
      assert s[0] == a[0] && s[1..] == a[1..] + [c] + b;
      SplitOnceOf(a[1..], c, b);
      assert [a[0]] + a[1..] == a;
    }
  }

  /** Parsing the text a client sends for a frame gives that frame back. */
  lemma ParseFormatRoundTrip(tf: TimeFrame)
    requires tf.YearFrame? ==> tf.year >= 0
    requires tf.MonthFrame? ==> tf.year >= 0 && tf.month >= 0
    ensures ParseTimeFrame(FormatTimeFrame(tf)) == Ok(tf)
  {
    match tf
    case YearFrame(y) =>
      NoSeparatorInDigits(NatToString(y), '@');
      NoSeparatorInDigits(NatToString(y), '-');
    case MonthFrame(y, m) =>
      IntToStringShape(y);
      IntToStringShape(m);
      var s := NatToString(y) + "-" + NatToString(m);
      NoSeparatorInDigits(NatToString(y), '@');
      NoSeparatorInDigits(NatToString(m), '@');
      assert '@' !in s;
      assert s[|NatToString(y)|] == '-';
      SplitOnceOf(NatToString(y), '-', NatToString(m));
    case WeekFrame(y, w) =>
      IntToStringShape(y);
      IntToStringShape(w);
      var s := IntToString(y) + "@" + IntToString(w);
      assert s[|IntToString(y)|] == '@';
      SplitOnceOf(IntToString(y), '@', IntToString(w));
  }

  // ---------------------------------------------------------------- buckets

  /** `datetime` represents the years 1 to 9999. */
  predicate InDateRange(year: int) {
    1 <= year <= 9999
  }

  /**
   * A frame the series can be built for. The `date__year` lookup builds `datetime`
   * bounds for the year, which raise outside 1..9999; `monthrange` raises for a month
   * outside 1..12; `strptime` raises for a week `%Y-W%W` cannot match, and adding six
   * days to the Monday raises past 9999-12-31.
   */
  predicate ValidFrame(tf: TimeFrame): (ok: bool)
    ensures tf.WeekFrame? ==>
      (ok <==> ValidWeek(tf.year, tf.week)
               && forall k :: 0 <= k < 7 ==> InDateRange(AddDays(WeekStart(tf.year, tf.week), k).year))
  {
    match tf
    case YearFrame(y) => InDateRange(y)
    case MonthFrame(y, m) => InDateRange(y) && 1 <= m <= 12
    case WeekFrame(y, w) =>
      if ValidWeek(y, w) then
        WeekDaysInRange(y, w);
        y == 9999 ==> w <= LastWeek
      else false
  }

  /** Week 51 of 9999 ends on Sunday 26 December; week 52 would end in the year 10000. */
  const LastWeek := 51

  /**
   * The days of a week `strptime` accepts are all representable exactly when the week
   * is not past the last one of 9999: the Monday lies at most six days before January
   * 1st of a year from 1000 on, and the seven days run forward from it.
   */
  lemma WeekDaysInRange(y: int, w: int)
    requires ValidWeek(y, w)
    ensures (y == 9999 ==> w <= LastWeek)
      <==> forall k :: 0 <= k < 7 ==> InDateRange(AddDays(WeekStart(y, w), k).year)
  {
    var m := WeekStart(y, w);
    WeekDaysFollowMonday(y, w);
    if y < 9999 {
      SundayBeforeNextYearEnds(y, w);
    } else if w <= LastWeek {
      LastWeekSunday(w);
    } else {
      PastLastWeekSunday(w);
    }
  }

  /** The week's days are in years from the Monday's on, and the Monday's is at least 999. */
  lemma WeekDaysFollowMonday(y: int, w: int)
    requires ValidWeek(y, w)
    ensures forall k :: 0 <= k < 7 ==>
      y - 1 <= WeekStart(y, w).year <= AddDays(WeekStart(y, w), k).year <= AddDays(WeekStart(y, w), 6).year
  {
    var m := WeekStart(y, w);
    var prev := CivilDate(y - 1, 1, 1);
    DaysBeforeYearMonotone(y - 1, y);
    assert DayNumber(prev) < DayNumber(m);
    DayNumberOrder(m, prev);
    forall k | 0 <= k < 7
      ensures m.year <= AddDays(m, k).year <= AddDays(m, 6).year
    {
      DayNumberOrder(AddDays(m, k), m);
      DayNumberOrder(AddDays(m, 6), AddDays(m, k));
    }
  }

  /** Before 9999 even week 53 ends before the next year does. */
  lemma SundayBeforeNextYearEnds(y: int, w: int)
    requires ValidWeek(y, w) && y < 9999
    ensures AddDays(WeekStart(y, w), 6).year <= y + 1
  {
    var sunday := AddDays(WeekStart(y, w), 6);
    var next := CivilDate(y + 1, 12, 31);
    DaysBeforeYearMonotone(y, y + 1);
    YearLength(y + 1);
    assert DayNumber(sunday) < DayNumber(next);
    DayNumberOrder(sunday, next);
  }

  /** Up to week 51 of 9999 the Sunday is at most 9999-12-26. */
  lemma LastWeekSunday(w: int)
    requires 0 <= w <= LastWeek
    ensures AddDays(WeekStart(9999, w), 6).year <= 9999
  {
    var sunday := AddDays(WeekStart(9999, w), 6);
    var last := CivilDate(9999, 12, 31);
    assert DayNumber(CivilDate(9999, 1, 1)) == 3651694;
    assert DayNumber(last) == 3652058;
    DayNumberOrder(last, sunday);
  }

  /** Weeks 52 and 53 of 9999 start on 27 December or later, so their Sunday is past 9999. */
  lemma PastLastWeekSunday(w: int)
    requires LastWeek < w <= 53
    ensures AddDays(WeekStart(9999, w), 6).year > 9999
  {
    var m := WeekStart(9999, w);
    var sunday := AddDays(m, 6);
    var last := CivilDate(9999, 12, 31);
    assert DayNumber(CivilDate(9999, 1, 1)) == 3651694;
    assert DayNumber(last) == 3652058;
    var x := DayNumber(m);
    assert Weekday(m) == 0;
    assert 3652051 <= x;
    var q := x / 7;
    assert x == 7 * q;
    assert q > 521721;
    assert DayNumber(sunday) > DayNumber(last);
    DayNumberOrder(last, sunday);
  }

  /** Years the text accepts but `datetime` cannot hold are a server error. */
  lemma YearBounds()
    ensures ParseTimeFrame("0000") == Ok(YearFrame(0)) && !ValidFrame(YearFrame(0))
    ensures !ValidFrame(YearFrame(10000)) && !ValidFrame(MonthFrame(0, 5))
  {
    var s := "0000";
    assert '@' !in s && '-' !in s;
    assert AllDigits(s);
    assert "0"[..0] == [] && "00"[..1] == "0" && "000"[..2] == "00" && s[..3] == "000";
    assert DigitsValue("0") == 0 && DigitsValue("00") == 0 && DigitsValue("000") == 0;
  }

  /** The week of 9999 whose Sunday is 26 December is the last one the view can build. */
  lemma LastWeeks()
    ensures ValidFrame(WeekFrame(9999, 51)) && !ValidFrame(WeekFrame(9999, 52))
  {
    var dec20, dec27, dec31 := CivilDate(9999, 12, 20), CivilDate(9999, 12, 27), CivilDate(9999, 12, 31);
    assert DayNumber(CivilDate(9999, 1, 1)) == 3651694;
    assert DayNumber(dec20) == 3652047 && DayNumber(dec27) == 3652054 && DayNumber(dec31) == 3652058;
    MondayInWindowUnique(WeekStart(9999, 51), dec20, 3652044);
    MondayInWindowUnique(WeekStart(9999, 52), dec27, 3652051);
    DayNumberOrder(AddDays(dec20, 6), dec31);
    DayNumberOrder(dec31, AddDays(dec27, 6));
  }

  /** 12 months, the days of the month, or the 7 days of the week. */
  function BucketCount(tf: TimeFrame): (n: nat)
    requires ValidFrame(tf)
    ensures tf.YearFrame? ==> n == 12
    ensures tf.MonthFrame? ==> 28 <= n <= 31 && (n == 29 <==> tf.month == 2 && IsLeap(tf.year))
    ensures tf.WeekFrame? ==> n == 7
  {
    match tf
    case YearFrame(_) => 12
    case MonthFrame(y, m) => DaysInMonth(y, m)
    case WeekFrame(_, _) => 7
  }

  /** The Monday that opens a week frame. */
  function Monday(tf: TimeFrame): (d: Date)
    requires tf.WeekFrame? && ValidFrame(tf)
    ensures Weekday(d) == 0
    ensures tf.week == 0 ==>
      DayNumber(CivilDate(tf.year, 1, 1)) - 6 <= DayNumber(d) <= DayNumber(CivilDate(tf.year, 1, 1))
    ensures tf.week >= 1 ==>
      var first := DayNumber(CivilDate(tf.year, 1, 1)) + 7 * (tf.week - 1);
      first <= DayNumber(d) <= first + 6
  {
    WeekStart(tf.year, tf.week)
  }

  /**
   * The bucket a timestamp counts in, if any: its month of the year, its day of the
   * month, or its day of the week.
   */
  function BucketOf(tf: TimeFrame, t: DateTime): (b: Option<nat>)
    requires ValidFrame(tf)
    ensures b.Some? ==> b.value < BucketCount(tf)
    ensures tf.YearFrame? ==> (b.Some? <==> t.date.year == tf.year)
    ensures tf.MonthFrame? ==> (b.Some? <==> t.date.year == tf.year && t.date.month == tf.month)
    ensures tf.WeekFrame? ==>
      (b.Some? <==> DayNumber(Monday(tf)) <= DayNumber(t.date) <= DayNumber(Monday(tf)) + 6)
    ensures b.Some? && tf.WeekFrame? ==> DayNumber(t.date) == DayNumber(Monday(tf)) + b.value
  {
    match tf
    case YearFrame(y) => if t.date.year == y then Some(t.date.month - 1) else None
    case MonthFrame(y, m) => if t.date.year == y && t.date.month == m then Some(t.date.day - 1) else None
    case WeekFrame(_, _) =>
      var k := DayNumber(t.date) - DayNumber(Monday(tf));
      if 0 <= k <= 6 then Some(k) else None
  }

  /** The label of bucket `i`: `YYYY-MM` for months, the day for daily buckets. */
  datatype Label = MonthLabel(year: int, month: int) | DayLabel(day: Date)

  function LabelOf(tf: TimeFrame, i: nat): (l: Label)
    requires ValidFrame(tf) && i < BucketCount(tf)
    ensures tf.YearFrame? ==> l == MonthLabel(tf.year, i + 1)
    ensures tf.MonthFrame? ==> l.DayLabel? && l.day == CivilDate(tf.year, tf.month, i + 1)
    ensures tf.WeekFrame? ==> l.DayLabel? && DayNumber(l.day) == DayNumber(Monday(tf)) + i
  {
    match tf
    case YearFrame(y) => MonthLabel(y, i + 1)
    case MonthFrame(y, m) => DayLabel(CivilDate(y, m, i + 1))
    case WeekFrame(_, _) => DayLabel(AddDays(Monday(tf), i))
  }

  /** Sum of the amounts of the records counted in bucket `i`. */
  function BucketSum(rs: seq<Record>, tf: TimeFrame, i: nat): int
    requires ValidFrame(tf)
  {
    if rs == [] then 0
    else (if BucketOf(tf, rs[0].date) == Some(i) then rs[0].amount else 0) + BucketSum(rs[1..], tf, i)
  }

  /** A bucket no record falls into counts as 0. */
  lemma {:induction false} EmptyBucketIsZero(rs: seq<Record>, tf: TimeFrame, i: nat)
    requires ValidFrame(tf)
    requires forall k :: 0 <= k < |rs| ==> BucketOf(tf, rs[k].date) != Some(i)
    ensures BucketSum(rs, tf, i) == 0
  {
    if rs != [] {
      assert BucketOf(tf, rs[0].date) != Some(i);
      EmptyBucketIsZero(rs[1..], tf, i);
    }
  }

  /** Sum of the amounts of the records that fall in any bucket of the frame. */
  function FrameSum(rs: seq<Record>, tf: TimeFrame): int
    requires ValidFrame(tf)
  {
    if rs == [] then 0
    else (if BucketOf(tf, rs[0].date).Some? then rs[0].amount else 0) + FrameSum(rs[1..], tf)
  }

  /** The bucket totals, in bucket order. */
  function Totals(rs: seq<Record>, tf: TimeFrame): (vs: seq<int>)
    requires ValidFrame(tf)
    ensures |vs| == BucketCount(tf)
    ensures forall i :: 0 <= i < |vs| ==> vs[i] == BucketSum(rs, tf, i)
  {
    seq(BucketCount(tf), i requires 0 <= i => BucketSum(rs, tf, i))
  }

  lemma {:induction false} SumSnoc(s: seq<int>, x: int)
    ensures Sum(s + [x]) == Sum(s) + x
  {
    if s != [] {
      assert (s + [x])[1..] == s[1..] + [x];
      SumSnoc(s[1..], x);
    }
  }

  /** Two sequences that differ by `d` at one index have sums that differ by `d`. */
  lemma {:induction false} SumPointwise(a: seq<int>, b: seq<int>, k: int, d: int)
    requires |a| == |b|
    requires forall i :: 0 <= i < |a| && i != k ==> a[i] == b[i]
    requires 0 <= k < |a| ==> a[k] == b[k] + d
    ensures Sum(a) == Sum(b) + (if 0 <= k < |a| then d else 0)
  {
    if a != [] {
      SumPointwise(a[1..], b[1..], k - 1, d);
    }
  }

  /**
   * The buckets partition the frame: their totals add up to the total of the records
   * inside the frame, so the last running balance is that total.
   */
  lemma {:induction false} TotalsPartitionFrame(rs: seq<Record>, tf: TimeFrame)
    requires ValidFrame(tf)
    ensures Sum(Totals(rs, tf)) == FrameSum(rs, tf)
  {
    var vs := Totals(rs, tf);
    if rs == [] {
      ZeroSum(vs);
    } else {
      TotalsPartitionFrame(rs[1..], tf);
      var ws := Totals(rs[1..], tf);
      match BucketOf(tf, rs[0].date)
      case Some(k) =>
        SumPointwise(vs, ws, k, rs[0].amount);
      case None =>
        SumPointwise(vs, ws, -1, 0);
    }
  }

  lemma {:induction false} ZeroSum(s: seq<int>)
    requires forall i :: 0 <= i < |s| ==> s[i] == 0
    ensures Sum(s) == 0
  {
    if s != [] {
      ZeroSum(s[1..]);
    }
  }

  // ---------------------------------------------------------------- series

  datatype Point = Point(date: Label, value: int)

  /** Each bucket's value under its label. */
  function Labelled(tf: TimeFrame, values: seq<int>): (ps: seq<Point>)
    requires ValidFrame(tf) && |values| == BucketCount(tf)
    ensures |ps| == |values|
    ensures forall i :: 0 <= i < |ps| ==> ps[i] == Point(LabelOf(tf, i), values[i])
  {
    seq(|values|, i requires 0 <= i < |values| => Point(LabelOf(tf, i), values[i]))
  }

  /**
   * The values loop: in running mode each bucket shows the absolute value of the
   * balance accumulated so far, otherwise the absolute value of its own total.
   */
  method Series(vals: seq<int>, running: bool) returns (out: seq<int>)
    ensures |out| == |vals|
    ensures forall i :: 0 <= i < |vals| ==>
      out[i] == (if running then Abs(Sum(vals[..i + 1])) else Abs(vals[i]))
    ensures forall i :: 0 <= i < |out| ==> out[i] >= 0
  {
    out := [];
    var balance := 0;
    var i := 0;
    while i < |vals|
      invariant 0 <= i <= |vals|
      invariant |out| == i
      invariant balance == Sum(vals[..i])
      invariant forall k :: 0 <= k < i ==>
        out[k] == (if running then Abs(Sum(vals[..k + 1])) else Abs(vals[k]))
    {
      SumSnoc(vals[..i], vals[i]);
      assert vals[..i + 1] == vals[..i] + [vals[i]];
      balance := balance + vals[i];
      out := out + [if running then Abs(balance) else Abs(vals[i])];
      i := i + 1;
    }
  }

  /** `type` narrows the records only for 'income' and 'expense'. */
  function FilterType(typeParam: Option<string>): string {
    typeParam.GetOr("balance")
  }

  /** The records the series is built from: the book's (when given), of the requested type. */
  function TrendRecords(rs: seq<Record>, bookId: Option<int>, kind: string): (out: seq<Record>)
    ensures forall r :: r in out <==>
      r in rs && (bookId.Some? ==> r.book == bookId.value)
      && (kind == "income" || kind == "expense" ==> r.kind == kind)
    ensures kind != "income" && kind != "expense" && bookId.None? ==> out == rs
  {
    var byBook := if bookId.Some? then Keep(rs, (r: Record) => r.book == bookId.value) else rs;
    if kind == "income" || kind == "expense" then Keep(byBook, (r: Record) => r.kind == kind) else byBook
  }

  /**
   * `RecordTrendView.list`. The series runs in 'balance' mode exactly when the type
   * parameter is absent or 'balance'.
   */
  method TrendView(typeParam: Option<string>, timeFrame: Option<string>, bookId: Option<int>, rs: seq<Record>)
    returns (r: Result<seq<Point>>)
    ensures ParseTimeFrame(timeFrame.GetOr("")).Err? ==> r == Err(ParseTimeFrame(timeFrame.GetOr("")).error)
    ensures ParseTimeFrame(timeFrame.GetOr("")).Ok? ==>
      var tf := ParseTimeFrame(timeFrame.GetOr("")).value;
      && (r.Err? <==> !ValidFrame(tf))
      && (r.Err? ==> r.error.ServerError?)
      && (r.Ok? ==>
            var vals := Totals(TrendRecords(rs, bookId, FilterType(typeParam)), tf);
            var running := FilterType(typeParam) == "balance";
            && |r.value| == BucketCount(tf)
            && (forall i :: 0 <= i < |r.value| ==> r.value[i].date == LabelOf(tf, i))
            && (forall i :: 0 <= i < |r.value| ==>
                  r.value[i].value == (if running then Abs(Sum(vals[..i + 1])) else Abs(vals[i])))
            && (forall i :: 0 <= i < |r.value| ==> r.value[i].value >= 0))
  {
    var parsed := ParseTimeFrame(timeFrame.GetOr(""));
    if parsed.Err? {
      return Err(parsed.error);
    }
    var tf := parsed.value;
    if !ValidFrame(tf) {
      return Err(ServerError("time data does not match format"));
    }
    var kind := FilterType(typeParam);
    var vals := Totals(TrendRecords(rs, bookId, kind), tf);
    var values := Series(vals, kind == "balance");
    r := Ok(Labelled(tf, values));
  }

  // ---------------------------------------------------------------- finding

  /**
   * The week bucket as the view computes it: `date__range=[start_date, end_date]` with
   * two dates compares the timestamp with midnight of the Monday and midnight of the
   * Sunday, so the window closes at Sunday 00:00:00.
   */
  function WeekBucketAsWritten(tf: TimeFrame, t: DateTime): (b: Option<nat>)
    requires tf.WeekFrame? && ValidFrame(tf)
    ensures b.Some? ==> BucketOf(tf, t) == b
    ensures b.Some? ==> AtOrBefore(t, Midnight(AddDays(Monday(tf), 6)))
  {
    var sunday := AddDays(Monday(tf), 6);
    if AtOrBefore(Midnight(Monday(tf)), t) && AtOrBefore(t, Midnight(sunday)) then
      DayNumberOrder(Monday(tf), t.date);
      DayNumberOrder(t.date, sunday);
      BucketOf(tf, t)
    else None
  }

  /**
   * A record on the Sunday of the week after midnight is dropped by the view as
   * written, while the seventh bucket is meant to hold the whole Sunday.
   */
  lemma SundayAfterMidnightDropped(tf: TimeFrame, sec: Second)
    requires tf.WeekFrame? && ValidFrame(tf)
    requires sec > 0
    ensures WeekBucketAsWritten(tf, DateTime(AddDays(Monday(tf), 6), sec)) == None
    ensures BucketOf(tf, DateTime(AddDays(Monday(tf), 6), sec)) == Some(6)
  {
    var sunday := AddDays(Monday(tf), 6);
    assert !AtOrBefore(DateTime(sunday, sec), Midnight(sunday));
    WeekCoversWholeDays(tf, 6, sec);
  }

  /** With whole-day buckets every instant of the seven days is counted, in its own day. */
  lemma WeekCoversWholeDays(tf: TimeFrame, k: nat, sec: Second)
    requires tf.WeekFrame? && ValidFrame(tf) && k <= 6
    ensures BucketOf(tf, DateTime(AddDays(Monday(tf), k), sec)) == Some(k)
    ensures LabelOf(tf, k) == DayLabel(AddDays(Monday(tf), k))
  {
    var m := Monday(tf);
    var d := AddDays(m, k);
    assert DayNumber(d) == DayNumber(m) + k;
    var b := BucketOf(tf, DateTime(d, sec));
    assert b.Some?;
    assert b.value == k;
    assert LabelOf(tf, k) == DayLabel(d);
  }
}
